=== FILE: README.md ===
# EC core logic in Dafny

A Dafny model of four pieces of the Chrome OS embedded-controller firmware,
with proofs of what each piece promises:

- **The NPCX bit-banged HDMI-CEC engine** (`chip/npcx/cec.c`). It covers:
  - the bit/byte cursor over a 16-byte frame buffer (`CecCursor`);
  - the bus timing windows, with APB1 clock ticks written out as the
    source's integer arithmetic (`CecTiming`);
  - the 29-state engine that the timer's timeout and capture events and
    the host's commands drive (`CecEngine`);
  - properties of whole exchanges, built from single events (`CecProperties`):
    - an initiator sends every bit with two timeouts;
    - a follower reads back a nominally timed bit;
    - arbitration loss keeps the frame;
    - a frame nobody acknowledges is sent exactly six times and then
      reported as `SEND_FAILED`.
- **Case-closed debugging configuration** (`common/ccd_config.c`, module
  `CcdConfig`). It covers:
  - the 32-byte configuration record and its flag and capability bit
    fields;
  - the password record and the 32-bit rate limit on password checks;
  - loading and resetting the configuration;
  - the console commands `open`, `unlock`, `lock`, `reset`, `set` and
    `password`;
  - the TPM vendor commands that manage the password.
- **USB Type-C / PD decision tables** (`common/usb_common.c`, module
  `UsbCommon`). They cover:
  - the sink current limit taken from the CC voltages;
  - sink polarity;
  - data- and power-role swap policy;
  - the DisplayPort alternate mode's safe mode, configure, post-configure
    and attention handling.
- **DisplayPort / alternate-mode DFP policy**
  (`common/usb_pd_alt_mode_dfp.c`, module `AltModeDfp`). It covers:
  - mode lookup and allocation;
  - pin-assignment selection;
  - building the Enter Mode VDM.

`Wrappers` defines the `Option` type shared by the modules.

Hardware, clocks, randomness and board hooks become parameters:
- the CEC engine receives the elapsed capture ticks and the line level
  with each event;
- password checks receive the low 32 bits of the microsecond clock and
  the digest of the offered password;
- the open and unlock commands receive a `Board` record with the
  firmware-management-parameter answer, the physical-presence status,
  battery presence and the TPM wipe result;
- alternate-mode entry receives each supported mode's `enter` callback
  as a function.

The header constants the core relies on are stated in the model as
constants:
- `MAX_CEC_MSG_LEN` = 16;
- the CCD flag bit positions;
- the `enum tcpc_cc_voltage_status` codes;
- the DTS bit 31;
- the DisplayPort status bits 4, 7 and 8;
- the pin-assignment masks;
- the VDO layout;
- `CMD_ENTER_MODE` = 4 and the DisplayPort SVID 0xff01.

The CEC follower does nothing with a received frame: the source has only a
TODO at that point (`chip/npcx/cec.c:477-487`).

## Model

| member | source | states |
|---|---|---|
| CecCursor.GetBit | chip/npcx/cec.c:293-299 | Past the end of the buffer the bit read is 0. Inside it, the result is bit `bit` of the current byte counted from the most significant end, the order of the bus. |
| CecCursor.WriteBit | chip/npcx/cec.c:301-311 | Clearing and then optionally setting the `0x80 >> bit` mask gives the selected bit the new value and leaves the other seven bits alone. |
| CecCursor.SetBit | chip/npcx/cec.c:301-311 | Past the end nothing changes. Otherwise a following GetBit reads back the written value, every other bit of the buffer is unchanged, and the cursor does not move. |
| CecCursor.IncBit | chip/npcx/cec.c:313-321 | Inside the buffer the linear bit position grows by exactly one, and bit 8 wraps to bit 0 of the next byte. At the end the byte offset stays and the 8-bit bit counter keeps counting modulo 256. |
| CecCursor.IsEom | chip/npcx/cec.c:323-328 | True exactly when the cursor sits at bit position `8 * len` for a length within the buffer. |
| CecCursor.Rewind | chip/npcx/cec.c:640-641 | Both offsets go back to position 0 and the buffer is kept. |
| CecCursor.FlagFacts | chip/npcx/cec.c:298 | `0x80 >> bit` is a nonzero single-bit mask that selects bit `bit` counted from the most significant end. |
| CecTiming.NoWrap | chip/npcx/cec.c:29 | With a 32-bit clock divided by 10 kHz, no APB1_TICKS product for the durations used reaches 2^32, so unbounded integers model the 32-bit arithmetic exactly. |
| CecTiming.ClassifyLow | chip/npcx/cec.c:663-674 | A low time reads as 0 iff it lies in the DATA_ZERO window, as 1 iff it lies in the DATA_ONE window and not the zero window, and as invalid iff it lies in neither. |
| CecTiming.ValidLow | chip/npcx/cec.c:98-101 | VALID_LOW (the predicate is the definition): every low time inside the class's nominal low window is accepted. |
| CecTiming.ValidHigh | chip/npcx/cec.c:102-104 | VALID_HIGH (the predicate is the definition): every bit period (low plus high) inside the class's nominal duration window is accepted. |
| CecTiming.LowWindowsDisjoint | chip/npcx/cec.c:58-101 | For every valid clock, the DATA_ZERO and DATA_ONE low windows, widened by the tolerance and rounded, never overlap. |
| CecTiming.ClassifyLowOne | chip/npcx/cec.c:664-671 | Every low time in the DATA_ONE window is read as 1, whatever order the windows are tried in. |
| CecTiming.NominalBitAccepted | chip/npcx/cec.c:58-107 | A data bit driven with the nominal low and high times is read back as the same value, and its whole period passes the duration check. |
| CecTiming.NominalDurationWindow | chip/npcx/cec.c:58-70 | Both nominal data-bit periods fall inside the 2050..2750 us duration window after rounding, for every clock. |
| CecTiming.NominalStartAccepted | chip/npcx/cec.c:50-55 | The start bit the initiator drives passes the follower's start-bit low and duration checks. |
| CecEngine.Boot | chip/npcx/cec.c:192-217 | The engine starts disabled, with nothing queued and the invariant holding. |
| CecEngine.EnterIdle | chip/npcx/cec.c:345-359 | IDLE rewinds both cursors. A queued frame goes straight to FREE_TIME. Otherwise the line is released and a falling-edge capture with no timeout is armed. |
| CecEngine.EnterFreeTime | chip/npcx/cec.c:360-367 | FREE_TIME releases the line and waits 3 bit periods before a resend and 5 before a new frame, with a falling-edge capture. |
| CecEngine.EnterState | chip/npcx/cec.c:330-512 | A state entry keeps the invariant and the untouched fields. Only DISABLED zeroes the contexts and events, only IDLE and START_LOW move the transmit cursor, and only IDLE moves the receive cursor. The initiator's ACK equals "broadcast == line high". A follower's broadcast NAK is "broadcast and line pulled low". Apart from IDLE and FREE_TIME, the line and timer action is the one EntryHw states. |
| CecEngine.Entered | chip/npcx/cec.c:330-512 | The record part of a state entry. DISABLED zeroes both contexts and the events. START_LOW rewinds the transmit cursor. The initiator's ACK_VERIFY records an ACK iff the line level matches "broadcast". The follower's ACK_VERIFY flags a broadcast NAK iff the frame is broadcast and the line is low. Nothing else changes. |
| CecEngine.EntryHw | chip/npcx/cec.c:330-512 | The engine pulls the line low exactly in the initiator's low phases and when, as a follower, it acknowledges a frame addressed to its own address. A follower otherwise leaves the line alone, except to release the ACK. A broadcast frame for someone else is read on without an ACK, and a frame neither ours nor broadcast gets no line or timer action. Each low phase of a sent bit lasts the bit's low time and each high phase its high time. Every initiator low phase, the start bit included, is timed by a oneshot, and the ACK slot opens as a logical 1. This is the intended programming; the compiled one is EntryHwAsCompiled (see "## Findings"). |
| CecEngine.EntryHwAsCompiled | chip/npcx/cec.c:330-512 | The timer programming the compiled `enter_state` performs. Because `enum cap_edge` is unsigned, the `cap_edge >= 0` test always holds, so no entry starts a oneshot. Each intended oneshot becomes a falling-edge capture with the same timeout, and the line action is unchanged. |
| CecEngine.LowPhasesCaptureAsCompiled | chip/npcx/cec.c:505-511 | In every phase where the initiator drives the line low, the intended entry arms a oneshot but the compiled one arms a falling-edge capture, so the two differ. |
| CecEngine.TxBitDone | chip/npcx/cec.c:532-596 | After the high phase of a sent bit the cursor advances by one. The next phase is the destination nibble after 4 bits, the EOM bit once the cursor reaches byte 1 or a data byte wraps, and otherwise the next bit. |
| CecEngine.AckOutcome | chip/npcx/cec.c:561-586 | An ACKed frame goes on with its data or completes with SEND_OK. A NAKed frame is resent after the resend free time while fewer than 5 resends were made, and otherwise dropped with SEND_FAILED. |
| CecEngine.Finish | chip/npcx/cec.c:567-584 | A finished frame empties the transmit context, returns to IDLE and adds exactly the given event. |
| CecEngine.EventTimeout | chip/npcx/cec.c:514-621 | A timeout does nothing while disabled or idle. Otherwise, case by case: a follower waiting for an edge returns to IDLE; the initiator's ACK_VERIFY gives the verdict; the follower's ACK_VERIFY returns to IDLE after a broadcast NAK and goes to ACK_FINISH otherwise; a sent bit's high phase advances the cursor; every other phase enters its successor. |
| CecEngine.RxBitDone | chip/npcx/cec.c:676-742 | A header or data bit whose whole period misses the duration window abandons the frame. A valid bit advances the cursor and picks the next phase. The destination nibble and data bytes end when the bit offset wraps. |
| CecEngine.RxEomLow | chip/npcx/cec.c:702-715 | The EOM bit's low time is either rejected, returning to IDLE, or recorded as the EOM flag, moving on to the EOM high phase. |
| CecEngine.EventCap | chip/npcx/cec.c:623-746 | A capture in IDLE is a start bit. During contention it is a lost arbitration. In a bit's low or high phase it records or completes the bit. The invariant and the untouched fields are kept throughout. |
| CecEngine.CapOther | chip/npcx/cec.c:629-729 | The remaining capture cases keep the invariant and the untouched fields, and a capture in IDLE starts receiving. |
| CecEngine.LoseArbitration | chip/npcx/cec.c:633-643 | A falling edge while contending rewinds the transmit cursor, keeps the frame and the receive context, and listens to the incoming start bit. |
| CecEngine.FollowerLow | chip/npcx/cec.c:660-675 | A rising edge ending a bit's low phase either abandons the frame or records exactly the classified bit under the cursor, without moving the cursor, and waits for the high phase. |
| CecEngine.RecordBit | chip/npcx/cec.c:664-671 | Recording a bit makes GetBit read it back, keeps the cursor and records the low time. |
| CecEngine.EventTx | chip/npcx/cec.c:748-783 | The send oneshot is stopped when it fires (the interrupt handler stops it before calling `cec_event_tx`). The frame then starts only from IDLE, and a busy engine is otherwise untouched. |
| CecEngine.Send | chip/npcx/cec.c:790-809 | A send is refused iff a frame is queued. Otherwise exactly the message bytes are copied to the start of the buffer, its length is recorded, the oneshot is armed, and nothing else changes. |
| CecEngine.HcWrite | chip/npcx/cec.c:811-825 | The host write fails as unavailable when disabled, as an invalid parameter for 0 or more than 16 bytes, and as busy iff a frame is queued. On failure nothing changes, and on success the frame is queued. |
| CecEngine.SetEnable | chip/npcx/cec.c:828-876 | Only 0 and 1 are accepted, and a repeated request changes nothing. Enabling leaves DISABLED. Disabling enters DISABLED with zeroed contexts and events and the send oneshot stopped. |
| CecEngine.GetNextEvent | chip/npcx/cec.c:911-918 | The host receives the pending events and they are cleared. |
| CecProperties.Tick | chip/npcx/cec.c:514-621 | A timeout on a bus only the engine drives keeps the invariant, the address and the clock. |
| CecProperties.TickPlain | chip/npcx/cec.c:520-560 | A timeout in a plain initiator phase enters the next phase with the frame unchanged. Entering the start bit rewinds the cursor, and the ACK sample of a directed frame on an undriven line records a NAK. |
| CecProperties.TickBitDone | chip/npcx/cec.c:532-596 | The timeout ending a sent bit's high phase advances the cursor and selects the next phase from it. |
| CecProperties.TickVerdict | chip/npcx/cec.c:574-584 | An unanswered directed frame is resent with one more resend counted while fewer than 5 were made, and otherwise dropped with SEND_FAILED. |
| CecProperties.QuietTick | chip/npcx/cec.c:514-621 | The engine's timeout handler has all three step properties above. |
| CecProperties.StartPhase | chip/npcx/cec.c:520-528 | Three timeouts take the initiator from FREE_TIME to the first header bit with the cursor at position 0. |
| CecProperties.TxBitPair | chip/npcx/cec.c:529-548 | A sent bit's low and high phase take two timeouts, advance the cursor by one and select the next phase. |
| CecProperties.InitiatorBit | chip/npcx/cec.c:529-538 | One bit of the initiator nibble takes two timeouts. After the fourth bit the destination nibble starts. |
| CecProperties.DestinationBit | chip/npcx/cec.c:539-548 | One bit of the destination nibble takes two timeouts. After the last bit the cursor is on byte 1 and the EOM bit starts. |
| CecProperties.InitiatorNibble | chip/npcx/cec.c:532-538 | Two timeouts per remaining bit finish the initiator nibble. |
| CecProperties.DestinationNibble | chip/npcx/cec.c:542-548 | Two timeouts per remaining bit finish the destination nibble, leaving the cursor on byte 1 at the EOM bit. |
| CecProperties.HeaderBits | chip/npcx/cec.c:529-548 | On a quiet bus, every header bit takes two timeouts. |
| CecProperties.HeaderPhase | chip/npcx/cec.c:529-548 | Sixteen timeouts send the whole header byte and reach the EOM bit with the cursor on byte 1. |
| CecProperties.EomBit | chip/npcx/cec.c:549-554 | The EOM bit takes two timeouts and leaves the cursor untouched. |
| CecProperties.AckSlot | chip/npcx/cec.c:403-427 | When nobody pulls the line low in the ACK slot of a directed frame, the initiator records a NAK. |
| CecProperties.EomAndAckSlot | chip/npcx/cec.c:549-560 | The EOM bit and ACK slot of an unanswered directed frame take four timeouts and end in ACK_VERIFY with a NAK. |
| CecProperties.AttemptToEom | chip/npcx/cec.c:520-553 | The first 19 timeouts of an attempt bring the frame to its EOM bit with the contents unchanged. |
| CecProperties.AttemptToVerdict | chip/npcx/cec.c:520-560 | The first 23 timeouts of an attempt bring the same frame, unacknowledged, to its verdict. |
| CecProperties.AttemptOf | chip/npcx/cec.c:520-586 | One attempt of 24 timeouts ends in a resend or, after the fifth resend, in SEND_FAILED. |
| CecProperties.OneAttempt | chip/npcx/cec.c:520-586 | The engine's own timeout handler gives the same single-attempt outcome. |
| CecProperties.RepeatedResends | chip/npcx/cec.c:574-577 | `k` failed attempts, while resends remain, count exactly `k` resends and keep the frame and the events. |
| CecProperties.GivesUpOnSixth | chip/npcx/cec.c:574-584 | Counting from no resends, the frame is still queued after each of the first five attempts and dropped after the sixth. |
| CecProperties.FailedAttempts | chip/npcx/cec.c:574-577 | The engine's attempts count resends one at a time and keep the frame queued. |
| CecProperties.SixAttempts | chip/npcx/cec.c:561-586 | A frame nobody acknowledges is sent exactly six times. After five attempts it is still queued with its events unchanged, and the sixth reports SEND_FAILED. |
| CecProperties.ResendWaitsShorter | chip/npcx/cec.c:360-367 | After a failed attempt the engine waits the resend free time, which is shorter than the new-initiator free time. |
| CecProperties.FollowerReadsBit | chip/npcx/cec.c:660-742 | A follower records a nominally timed data bit on its rising edge, reads back the driven value, and advances the cursor on the falling edge. |
| CecProperties.FollowerReadsStart | chip/npcx/cec.c:644-659 | A nominal start bit takes a follower from START_LOW to the first header bit. |
| CecProperties.ArbitrationKeepsFrame | chip/npcx/cec.c:633-643 | An initiator that loses arbitration keeps its frame with the cursor at 0. The next timeout in IDLE restarts the frame from FREE_TIME. |
| CecProperties.FollowerAcksOwnFrames | chip/npcx/cec.c:448-460 | Once the EOM bit of a received frame is accepted (the capture at lines 716-723), the follower enters ACK_LOW. It holds the line low iff the frame's destination is its own address, and it programs nothing for a frame that is neither ours nor broadcast. |
| CecProperties.FollowerAckVerdict | chip/npcx/cec.c:461-475 | The follower samples its ACK slot, and the next timeout (lines 597-605) acts on the sample. A broadcast frame whose slot was pulled low is dropped: the bus returns to IDLE, or to FREE_TIME when a frame of ours is queued. In every other case the follower goes on to ACK_FINISH. |
| CecProperties.SendBlocksSend | chip/npcx/cec.c:790-809 | A queued frame makes every further send busy. |
| CecProperties.SetEnableIdempotent | chip/npcx/cec.c:828-876 | Repeating an enable or disable request succeeds and changes nothing. |
| CecProperties.EventsReadOnce | chip/npcx/cec.c:911-918 | A second read of the events reports nothing, and the two reads together lose no event. |
| CecProperties.WriteStartsFrame | chip/npcx/cec.c:748-756 | A write accepted while idle starts the frame when the oneshot fires, after the new-initiator free time. |
| CcdConfig.DefaultState | common/ccd_config.c:114-134 | Every capability's default state is ALWAYS or IF_OPENED. |
| CcdConfig.ZeroConfig | common/ccd_config.c:474-476 | The reset record is a well-formed configuration. |
| CcdConfig.FlagBytes | common/ccd_config.c:171-184 | A flag word is stored as three bytes. |
| CcdConfig.FlagWord | common/ccd_config.c:155-160 | Three stored bytes hold only flag bits below 24. |
| CcdConfig.FlagPacking | common/ccd_config.c:155-184 | Packing a 24-bit flag word into three bytes and unpacking are inverse in both directions. |
| CcdConfig.TestLabByte | common/ccd_config.c:78-82 | The test-lab flag is the least significant bit of the first flags byte. |
| CcdConfig.Serialize | common/ccd_config.c:74-95 | The record is 32 bytes with the version first. |
| CcdConfig.Deserialize | common/ccd_config.c:74-95 | Reading 32 bytes gives a well-formed record whose version is byte 0 and whose test-lab flag is bit 0 of byte 1. |
| CcdConfig.SerializeRoundTrip | common/ccd_config.c:74-95 | Serializing and deserializing the record are inverse in both directions. |
| CcdConfig.RawSetFlag | common/ccd_config.c:171-184 | Exactly the bits of the flag take the new value. The other flag bits, the capabilities, the password and the version are unchanged. |
| CcdConfig.FieldUpdate | common/ccd_config.c:214-219 | Writing a two-bit capability field changes that field to the low two bits of the state and no other field of the byte. |
| CcdConfig.RawGetCap | common/ccd_config.c:194-203 | A capability's state is at most 3. When translated it is never DEFAULT, and a stored non-DEFAULT state is returned as stored. |
| CcdConfig.TranslatedCap | common/ccd_config.c:194-203 | The translated state differs from the stored one only for DEFAULT, which becomes the capability's default. |
| CcdConfig.RawSetCap | common/ccd_config.c:214-219 | The capability reads back as the state's low two bits, every other capability reads as before, and nothing but the capabilities changes. |
| CcdConfig.OrAllZero | common/ccd_config.c:225-237 | The accumulated OR of the bytes is zero iff every byte is zero. |
| CcdConfig.HasPassword | common/ccd_config.c:225-237 | A password is set iff some salt or digest byte is nonzero. |
| CcdConfig.RawResetPassword | common/ccd_config.c:310-315 | Afterwards no password is set, only PASSWORD_SET_WHEN_UNLOCKED is cleared, and the capabilities are kept. |
| CcdConfig.RawSetPassword | common/ccd_config.c:322-333 | The new salt and digest are stored. PASSWORD_SET_WHEN_UNLOCKED records whether the state was UNLOCKED, and the other flags are kept. |
| CcdConfig.Boot | common/ccd_config.c:141-144 | The module starts locked with nothing loaded. |
| CcdConfig.GetFlag | common/ccd_config.c:614-622 | A flag reads 0 until the configuration is loaded and while CCD is force-disabled. Otherwise it reads 1 iff one of its bits is set. |
| CcdConfig.IsCapEnabled | common/ccd_config.c:645-659 | Nothing is enabled before loading or while force-disabled. ALWAYS is enabled, UNLESS_LOCKED iff not locked, and IF_OPENED iff opened. |
| CcdConfig.CapEnabledMonotone | common/ccd_config.c:645-659 | A capability enabled in some CCD state stays enabled in every higher state. |
| CcdConfig.SetState | common/ccd_config.c:343-352 | The state is set, and users are notified iff it changed. |
| CcdConfig.ResetUnlockedCaps | common/ccd_config.c:465-470 | The loop resets every capability that is not effectively IF_OPENED to DEFAULT and leaves the rest of the record alone. |
| CcdConfig.RmaCaps | common/ccd_config.c:483-494 | The loop makes every capability but the restricted console ALWAYS. |
| CcdConfig.ResetWith | common/ccd_config.c:451-508 | A reset yields a well-formed record. |
| CcdConfig.ResetConfig | common/ccd_config.c:451-508 | A reset that reads the old test-lab flag through ccd_get_flag yields a well-formed record. |
| CcdConfig.FullReset | common/ccd_config.c:473-503 | A full reset zeroes everything but the version. It then restores the old test-lab flag unless the reset includes it. |
| CcdConfig.UnlockedOnlyReset | common/ccd_config.c:457-472 | An UNLOCKED_ONLY reset returns exactly the capabilities that are not effectively IF_OPENED to DEFAULT. It clears the password iff it was set while unlocked. |
| CcdConfig.RmaReset | common/ccd_config.c:479-503 | An RMA reset makes every capability but the restricted console ALWAYS and forces write protect off at boot. It keeps the test-lab flag unless the reset includes it. |
| CcdConfig.CopyBlob | common/ccd_config.c:386-387 | Copying a stored blob of at least 2 bytes takes its version and its test-lab bit. |
| CcdConfig.LoadConfigAsWritten | common/ccd_config.c:359-405 | Loading always ends loaded and does nothing when already loaded. |
| CcdConfig.LoadLosesTestLab | common/ccd_config.c:393-398 | As written, a mismatched 2-byte blob with the test-lab bit set loads without it. |
| CcdConfig.LoadConfig | common/ccd_config.c:359-405 | Loading always ends loaded, keeps the state, and does nothing when already loaded. |
| CcdConfig.LoadConfigOutcome | common/ccd_config.c:359-405 | A valid blob is taken as stored. A mismatched one becomes the defaults, keeping the test-lab bit iff the blob holds it. With no blob the defaults have no test-lab bit, and on the first factory boot they have RMA capabilities. |
| CcdConfig.ConfigInit | common/ccd_config.c:604-612 | Any state value other than 1 or 2 is taken as LOCKED, and the configuration is loaded. |
| CcdConfig.SetFlag | common/ccd_config.c:624-643 | It is refused when force-disabled or for a non-public flag, and busy until loaded. When the flag already reads as requested nothing changes. Otherwise exactly the flag's bits change and the flag reads back as requested. |
| CcdConfig.SetFlagOnlyPublic | common/ccd_config.c:108-111 | No flag outside the two write-protect overrides can change through ccd_set_flag. |
| CcdConfig.SetCap | common/ccd_config.c:436-449 | It is busy until loaded. Then the capability reads back as the new state, the others are unchanged, and an unchanged state writes nothing. |
| CcdConfig.CommandSet | common/ccd_config.c:731-767 | It is denied when locked, with a count error or bad first or second parameter otherwise. When opened it sets the capability. When only unlocked it is denied iff the old or new state is IF_OPENED, and otherwise sets the capability. On any error nothing changes. |
| CcdConfig.UnlockedKeepsIfOpened | common/ccd_config.c:757-766 | While only unlocked, an effectively IF_OPENED capability cannot be changed, and no capability can be set to IF_OPENED. Any other change to a loaded configuration succeeds, and no other capability changes. |
| CcdConfig.EqualsIgnoreCase | common/ccd_config.c:780 | `strcasecmp` equality: two strings match iff they are equal once both are lower-cased in ASCII. |
| CcdConfig.CString | common/ccd_config.c:1242-1244 | The password is the input up to its first NUL byte. |
| CcdConfig.CheckPassword | common/ccd_config.c:269-302 | With no password only the empty one matches. Otherwise an attempt within 3 s of the last is busy, and any other attempt is recorded and matches iff the digest is equal. |
| CcdConfig.Elapsed | common/ccd_config.c:289-290 | The elapsed time is `t - last` in unsigned 32-bit arithmetic, wrapping when the clock did. |
| CcdConfig.RateLimited | common/ccd_config.c:289-291 | Two password attempts less than 3 s apart make the second busy, even across a 32-bit clock wrap. |
| CcdConfig.DoPassword | common/ccd_config.c:769-785 | It is denied when locked, and when unlocked with a password that was set while opened; in every other case it succeeds. "clear", in any case, clears the password. Any other word sets it and records whether that happened while unlocked. |
| CcdConfig.OpenedPasswordSticks | common/ccd_config.c:769-785 | A password set while opened survives every password command issued while only unlocked. |
| CcdConfig.OpenDone | common/ccd_config.c:560-575 | Without OpenNoTPMWipe a failed TPM wipe leaves the state alone. Otherwise the state becomes OPENED, and the AP reboots iff UnlockNoReboot is disabled. |
| CcdConfig.UnlockDone | common/ccd_config.c:577-584 | The state becomes UNLOCKED, and the AP reboots iff UnlockNoReboot is disabled. |
| CcdConfig.Open | common/ccd_config.c:834-884 | Open is denied when force-disabled and succeeds at once when already opened. The state can only move to OPENED, and a failed command starts no presence check. |
| CcdConfig.OpenNeedsPresence | common/ccd_config.c:855-879 | Without OpenNoLongPP, and with a battery present, open leaves the state alone. When the checks pass it starts the long physical-presence check. |
| CcdConfig.Unlock | common/ccd_config.c:886-959 | Unlock is denied when force-disabled and succeeds at once when unlocked. From OPENED it unlocks with no presence check. The state can only move to UNLOCKED. |
| CcdConfig.UnlockNeedsPresence | common/ccd_config.c:935-958 | Without UnlockNoShortPP, and with a battery present, unlock from LOCKED leaves the state alone. When the checks pass it starts the short physical-presence check. |
| CcdConfig.Lock | common/ccd_config.c:961-967 | Lock always succeeds and locks. |
| CcdConfig.CommandReset | common/ccd_config.c:704-729 | A word other than "rma" is a parameter error, and the command is denied exactly when locked; otherwise it succeeds. Unlocked does an UNLOCKED_ONLY reset. Opened does a full reset, with RMA when the word is given. |
| CcdConfig.Disable | common/ccd_config.c:666-671 | Disabling force-disables and locks, and keeps the configuration. |
| CcdConfig.ManagePassword | common/ccd_config.c:1163-1214 | Only a one-byte argument is accepted. False closes the window. True right after a TPM reset opens it; true in any other phase closes it and is reported as bogus arguments with INVAL. |
| CcdConfig.TpmReset | common/ccd_config.c:1145-1149 | After a TPM reset, a nonzero byte opens the password window and a zero byte closes it. |
| CcdConfig.NotAllowedSticks | common/ccd_config.c:1163-1214 | Once closed, the password window stays closed until the next TPM reset. |
| CcdConfig.CcdPassword | common/ccd_config.c:1224-1256 | It is refused unless the window is open, and rejects an input of 0 or more than 40 bytes. Otherwise it runs the password command on the input as a C string. |
| UsbCommon.WordFields | common/usb_common.c:80-81 | The 32-bit current word holds the milliamps below bit 31 and the DTS flag in bit 31. |
| UsbCommon.CurrentLimit | common/usb_common.c:51-84 | DTS is set iff the other CC line shows Rp. The limit is 0, 500, 1500 or 3000 mA, never 500 when Rp-default charging is disabled, and 0 when the selected line shows no Rp. |
| UsbCommon.SnkPolarity | common/usb_common.c:86-96 | With Rp on both lines, CC2 is chosen iff it advertises the higher current. With Rp on one line only, that line is chosen. |
| UsbCommon.CodeOrder | common/usb_common.c:86-96 | On Rp levels the enum order is the order of advertised current, and every Rp lies above open. |
| UsbCommon.RegularSource | common/usb_common.c:38-84 | For a regular source (one Rp, one open line), in either orientation, the polarity picks the Rp line. The limit is its advertised current without DTS. |
| UsbCommon.DebugAccessory | common/usb_common.c:38-84 | For each debug-accessory row of the table, in either orientation, DTS is set and the limit is the row's current. |
| UsbCommon.CurrentLimitSymmetric | common/usb_common.c:55-56 | Flipping the polarity and swapping the lines gives the same limit. |
| UsbCommon.DataSwapAllowed | common/usb_common.c:104-108 | A data swap is accepted iff it would make us DFP, that is iff we are UFP. |
| UsbCommon.RequestDataSwap | common/usb_common.c:110-115 | A data swap is requested iff the partner is dual-role data and the swap would make us DFP. |
| UsbCommon.DataSwapSettles | common/usb_common.c:104-115 | A requested data swap is one we accept, and after it no further swap is requested. |
| UsbCommon.PowerSwapAllowed | common/usb_common.c:117-130 | A power swap is accepted iff dual-role toggling is on or the swap would make us the sink, that is iff we are the source. |
| UsbCommon.RequestPowerSwap | common/usb_common.c:132-151 | A power swap is requested iff the partner is dual-role power, toggling is on, and the swap makes us the sink when the partner is externally powered, or the source when it is not. |
| UsbCommon.PowerSwapSettles | common/usb_common.c:117-151 | A requested power swap makes us source iff the partner is not externally powered. It is one we accept, and no swap back is requested. |
| UsbCommon.StatusFields | common/usb_common.c:415-416 | The status VDO's IRQ, level and multi-function bits decode to the values encoded. |
| UsbCommon.SafeDpMode | common/usb_common.c:274-291 | Safe mode clears the DP flags and status: DP off, no pending hot plug, no level, no IRQ. |
| UsbCommon.DpConfig | common/usb_common.c:345-375 | There is no configure message iff no pin assignment is usable. Otherwise it carries the selected pin assignment. |
| UsbCommon.DpConfigMux | common/usb_common.c:356-361 | The mux is DOCK iff multi-function is preferred and the pin assignment is a multi-function one. Otherwise it is DP. |
| UsbCommon.DpAttention | common/usb_common.c:413-481 | The status is stored. Before configuration a high level is remembered and acked. The message is naked iff DP is on, HPD is driven by GPIO, the IRQ is set, and the line and the level are both low. |
| UsbCommon.DpPostConfig | common/usb_common.c:389-411 | Post-configure turns DP on and drives hot plug iff a high level is pending. |
| UsbCommon.EarlyHotPlugDelivered | common/usb_common.c:389-441 | A hot plug seen before configuration is acked, and post-configure delivers it iff its level was high. |
| UsbCommon.IrqWithLowLevelNaked | common/usb_common.c:444-461 | With DP on, an IRQ at a low level is acked iff the HPD line is high. When naked, nothing is driven and nothing else changes. |
| AltModeDfp.FindSlot | common/usb_pd_alt_mode_dfp.c:24-30 | The search from `i` finds the first slot whose mode has the SVID, or -1 when none does. |
| AltModeDfp.ModeIdx | common/usb_pd_alt_mode_dfp.c:20-31 | The result is -1 iff no slot holds the SVID. Otherwise it is the first slot that does. |
| AltModeDfp.AmodeData | common/usb_pd_alt_mode_dfp.c:120-126 | There is no mode data iff the lookup fails. Otherwise it is the slot holding the SVID. |
| AltModeDfp.FindPair | common/usb_pd_alt_mode_dfp.c:50-64 | The search finds a supported mode and a discovered SVID that match the request, or reports that no such pair exists. The pair found is the first in the nested loop order: no earlier supported mode fits any discovered SVID, and no earlier discovered entry fits the chosen mode. |
| AltModeDfp.AllocateMode | common/usb_pd_alt_mode_dfp.c:33-66 | An SVID already held returns its slot, and a full table returns -1. Otherwise the next slot is filled and the index advances, with every other slot unchanged. A failure changes nothing. A new slot is bound to the first supported mode, in the port's preference order, that fits a discovered SVID (for `svid` 0 this order is the default policy), through the first discovered entry that fits it. |
| AltModeDfp.AllocationMatchesPartner | common/usb_pd_alt_mode_dfp.c:33-66 | A new slot pairs a supported mode with a discovered SVID of the same value, which is the requested SVID when one is given. Allocation fails iff no such pair exists. The bound mode and entry are the first that fit, in the order the source searches. |
| AltModeDfp.AllocateTwice | common/usb_pd_alt_mode_dfp.c:33-66 | Allocating the same nonzero SVID twice changes nothing the second time. |
| AltModeDfp.PinCaps | common/usb_pd_alt_mode_dfp.c:97-100 | The pin capabilities are pin assignments A to F. |
| AltModeDfp.Highest | common/usb_pd_alt_mode_dfp.c:117 | The choice is the highest candidate. |
| AltModeDfp.DpPinMode | common/usb_pd_alt_mode_dfp.c:87-118 | Without DisplayPort mode data the pin mode is 0. |
| AltModeDfp.PinModeChoice | common/usb_pd_alt_mode_dfp.c:87-118 | The pin mode is 0 iff no candidate remains. Otherwise it is a single assignment the partner supports: never a USB Gen 2 one, a multi-function one only when preferred, never E/F when C or D is usable, and the highest candidate. |
| AltModeDfp.EnterVdo | common/usb_pd_alt_mode_dfp.c:160 | The Enter Mode VDO fits in 32 bits. |
| AltModeDfp.EnterVdoFields | common/usb_pd_alt_mode_dfp.c:160 | The VDO decodes to the SVID, object position and command it was built from, and is marked structured. |
| AltModeDfp.ChosenOpos | common/usb_pd_alt_mode_dfp.c:143-151 | Object position 0 picks 1, a position within the mode count is kept, and a larger one is an error. |
| AltModeDfp.EnterMode | common/usb_pd_alt_mode_dfp.c:132-161 | Entry is flagged iff a VDO is returned, and a failed allocation returns 0 with nothing changed. |
| AltModeDfp.EnterModeOutcome | common/usb_pd_alt_mode_dfp.c:132-161 | A position beyond the mode count returns 0. Otherwise the slot records the chosen position, and entry succeeds iff the mode's enter callback accepts the chosen mode VDO. Then the VDO carries the mode's SVID, that position and ENTER_MODE. |

## Left out

- CcdConfig.ConfigInit: loads through the corrected `LoadConfig`, not the loader as written (`LoadConfigAsWritten`), so its outcome keeps the test-lab bit that `ccd_config_init` loses; see "## Findings".

- Interrupt and timer plumbing of the CEC engine is not modelled: `cec_isr`, `tmr_cap_start`, `tmr_oneshot_start`, `tmr2_*`, the register writes and `cec_init`'s clock setup. Each event handler instead receives the capture count and line level, and each state entry returns the line and timer commands as data. With the captures the compiled `enter_state` arms (see "## Findings"), `cec_isr` hands a capture to `cec_event_cap` and drops a timeout raised in the same interrupt; that interplay is not modelled, and the engine uses the intended `EntryHw`.
- The CEC host commands `hc_cec_set` and `hc_cec_get` only write and read the enable state. The write is `SetEnable`, and the read (`state != Disabled`) is not modelled separately. The logical address stays at its initial value 5, because nothing in the source changes it.
- Delivery of MKBP events to the host is not modelled. Events are kept as a set, matching the bit mask they are OR-ed into.
- The follower's handling of a received frame is not modelled, because the source has only a TODO there (`chip/npcx/cec.c:477-487`).
- Nonvolatile storage, mutexes, hooks and console printing in `ccd_config.c` are not modelled. The stored record is passed in as an optional byte string, and `ccd_save_config`'s result is ignored.
- The SHA-256 password digest, the salt's random bytes and the clock are parameters: the digest of the offered password, the fresh salt and digest, and the low 32 bits of the time.
- Parsing of capability and state names, `command_ccd_info`, `command_ccd_help` and the `ccd` dispatcher are not modelled. `CommandSet` receives the parsed indices.
- `command_ccd_testlab`, `command_ccd_oops`, `ccd_disable_rma` and the TPM-buffer path of `command_ccd_password` are not modelled. They depend on physical presence, TPM vendor command plumbing and the RMA challenge, none of which is part of this model.
- Physical-presence detection is not modelled as a process. `Open` and `Unlock` return which check they would start, and its completion is `OpenDone`/`UnlockDone`.
- CcdConfig.Open: the contract states the refusals, the already-opened case, the direction of any state change and that failures start nothing. The password and presence branches are stated only by `OpenNeedsPresence`, not exhaustively.
- CcdConfig.Unlock: as for `Open`, the password and presence branches are stated only by `UnlockNeedsPresence`.
- The DisplayPort HPD GPIO timing (`usleep`, `hpd_deadline`) and the IRQ_HPD pulse shape are not modelled. `DpAttention` reports which HPD action it takes.
- Mux, SBU and MST calls are not modelled. `DpConfig` reports the mux mode, and the rest is hardware.
- The chipset-suspend wake notification in `svdm_dp_attention` is not modelled, because it does not affect the returned ack or the DP state.
- `svdm_enter_dp_mode`, `svdm_dp_status` and the other board-overridable hooks of `usb_common.c` are not modelled. They are board policy outside the decision tables modelled here.
- `PD_AMODE_COUNT` is not modelled as a separate constant. It is taken as the length of the policy's mode table.
- A negative object position is not modelled. `opos` is a 3-bit field of the VDM header, so it is a `nat`.
- AltModeDfp.DpPinMode: it requires that the DisplayPort slot, if any, has an object position of at least 1. The source indexes `mode_vdo[opos - 1]` without checking, and a slot only gets a lookup after `pd_dfp_enter_mode` has set its position.
- `common/online_calibration.c`, the board files and `chip/stm32l/watchdog.c` are not part of this model.

## Findings

| source | as written | input that shows it | evidently intended | confidence | as-written member | corrected member |
|---|---|---|---|---|---|---|
| common/ccd_config.c:393-398 | A mismatched configuration blob calls `ccd_reset_config(0)` to keep its test-lab bit. The reset reads the old bit with `ccd_get_flag`, which answers 0 while `ccd_config_loaded` is still 0, and it always is during loading. So the bit is always cleared. | A 2-byte stored blob `0F 01` (wrong version, test-lab bit set), loaded at boot | The test-lab bit of a blob at least 2 bytes long survives the reset to defaults | not executed | CcdConfig.LoadLosesTestLab | CcdConfig.LoadConfigOutcome |
| chip/npcx/cec.c:333 | `enum cap_edge cap_edge = -1;` marks an entry that wants no capture, and line 507 tests `cap_edge >= 0` to choose between a capture and a oneshot. The enum has only the values 0 and 1, so the compiler gives it an unsigned type, `-1` becomes its largest value, and the test always holds. | Entering `INITIATOR_START_LOW` (or any other state that sets a timeout but no edge) | A oneshot timeout for the states that set no edge | not executed; depends on the compiler choosing an unsigned type for the enum, as GCC and Clang do | CecEngine.LowPhasesCaptureAsCompiled | CecEngine.EntryHw |

=== FILE: alt_mode_dfp.dfy ===
/** The Downstream Facing Port side of USB Power Delivery alternate modes
    (common/usb_pd_alt_mode_dfp.c): the table of entered modes a port keeps,
    how a mode is found and allocated in it, how the DisplayPort pin
    assignment is chosen from the partner's capabilities, and the Enter Mode
    structured VDM of section 6.4.4.3.4 of the USB Power Delivery
    specification. The per-port policy record is passed in and returned
    instead of being reached through `pd_get_am_policy(port)`. */
module AltModeDfp {
  import opened Wrappers

  /** PDO_MODES: the number of mode VDOs a Discover Modes answer can carry. */
  const PdoModes: nat := 6

  /** USB_SID_DISPLAYPORT, the VESA standard ID. */
  const DisplayPortSvid: nat := 0xff01

  /** CMD_ENTER_MODE, the structured VDM command number. */
  const EnterModeCmd: nat := 4

  /** What the partner answered for one SVID (struct svdm_svid_data): the
      SVID, how many modes it reported and the mode VDOs themselves. */
  datatype SvidData = SvidData(svid: nat, modeCnt: nat, modeVdo: seq<nat>)

  /** One alternate mode this port supports (struct svdm_amode_fx): its
      SVID and its `enter` callback, which is given the mode VDO and returns
      -1 to refuse. */
  datatype SupportedMode = SupportedMode(svid: nat, enter: nat -> int)

  /** One slot of the entered-mode table (struct svdm_amode_data): the
      supported mode it is bound to (`fx`, NULL when free), the partner's
      SVID entry it uses (`data`) and the object position entered. */
  datatype Slot = Slot(fx: Option<nat>, data: nat, opos: nat)

  /** The alternate-mode part of struct pd_policy: the partner's SVIDs, the
      mode table (PD_AMODE_COUNT slots) and the next free slot. */
  datatype Policy = Policy(svids: seq<SvidData>, amodes: seq<Slot>, amodeIdx: nat)

  /** Every index the source follows without checking stays inside its
      array: SVIDs and object positions are 16- and 3-bit fields, mode
      counts fit the mode array, bound slots point into both tables. */
  predicate ValidSvid(d: SvidData) {
    d.svid < 0x1_0000 && |d.modeVdo| == PdoModes && d.modeCnt <= PdoModes
  }

  predicate ValidSlot(s: Slot, nSupported: nat, nSvids: nat) {
    (s.fx.Some? ==> s.fx.value < nSupported && s.data < nSvids) && s.opos <= PdoModes
  }

  predicate Valid(pe: Policy, supported: seq<SupportedMode>) {
    && pe.amodeIdx <= |pe.amodes|
    && (forall i | 0 <= i < |pe.svids| :: ValidSvid(pe.svids[i]))
    && (forall i | 0 <= i < |pe.amodes| :: ValidSlot(pe.amodes[i], |supported|, |pe.svids|))
    && (forall i | 0 <= i < |supported| :: supported[i].svid < 0x1_0000)
  }

  // ---------------------------------------------------------------------
  // Finding a mode

  /** Slot `i` is bound to a supported mode with SVID `svid`. */
  predicate Holds(pe: Policy, supported: seq<SupportedMode>, i: nat, svid: nat)
    requires Valid(pe, supported) && i < |pe.amodes|
  {
    pe.amodes[i].fx.Some? && supported[pe.amodes[i].fx.value].svid == svid
  }

  /** The scan of pd_get_mode_idx from slot `i` on. */
  function FindSlot(pe: Policy, supported: seq<SupportedMode>, svid: nat, i: nat): (r: int)
    requires Valid(pe, supported) && i <= |pe.amodes|
    ensures r == -1 || (i <= r < |pe.amodes| && Holds(pe, supported, r, svid))
    ensures forall k | i <= k < (if r == -1 then |pe.amodes| else r) :: !Holds(pe, supported, k, svid)
    decreases |pe.amodes| - i
  {
    if i == |pe.amodes| then -1
    else if Holds(pe, supported, i, svid) then i
    else FindSlot(pe, supported, svid, i + 1)
  }

  /** pd_get_mode_idx: the first slot bound to a mode with SVID `svid`, or
      -1 when there is none. */
  function ModeIdx(pe: Policy, supported: seq<SupportedMode>, svid: nat): (r: int)
    requires Valid(pe, supported)
    ensures r == -1 <==> forall k | 0 <= k < |pe.amodes| :: !Holds(pe, supported, k, svid)
    ensures r != -1 ==> 0 <= r < |pe.amodes| && Holds(pe, supported, r, svid)
    ensures forall k | 0 <= k < r :: !Holds(pe, supported, k, svid)
  {
    FindSlot(pe, supported, svid, 0)
  }

  /** pd_get_amode_data: the slot of the mode with SVID `svid`, NULL (None)
      exactly when the lookup finds nothing. */
  function AmodeData(pe: Policy, supported: seq<SupportedMode>, svid: nat): (r: Option<nat>)
    requires Valid(pe, supported)
    ensures r.None? <==> ModeIdx(pe, supported, svid) == -1
    ensures r.Some? ==> r.value < |pe.amodes| && Holds(pe, supported, r.value, svid)
  {
    var i := ModeIdx(pe, supported, svid);
    if i == -1 then None else Some(i)
  }

  // ---------------------------------------------------------------------
  // Allocating a mode

  /** The partner SVID entry `j` may be bound to supported mode SVID
      `target` for a request of `svid` (0: any supported mode). */
  predicate Fits(svids: seq<SvidData>, j: nat, target: nat, svid: nat)
    requires j < |svids|
  {
    svids[j].svid == target && (svid == 0 || svids[j].svid == svid)
  }

  /** The inner loop of pd_allocate_mode: the first partner SVID entry from
      `j` on that fits. */
  function FindSvid(svids: seq<SvidData>, target: nat, svid: nat, j: nat): (r: Option<nat>)
    requires j <= |svids|
    ensures r.Some? ==> j <= r.value < |svids| && Fits(svids, r.value, target, svid)
    ensures forall k | j <= k < (if r.None? then |svids| else r.value) :: !Fits(svids, k, target, svid)
    decreases |svids| - j
  {
    if j == |svids| then None
    else if Fits(svids, j, target, svid) then Some(j)
    else FindSvid(svids, target, svid, j + 1)
  }

  /** A (supported mode, partner SVID entry) pair. */
  datatype Pair = Pair(mode: nat, entry: nat)

  /** The outer loop of pd_allocate_mode: supported modes are tried in
      order from `i` on, each against every partner SVID. The pair found is
      the first in that order: no earlier supported mode fits any partner
      SVID, and no earlier partner entry fits the chosen mode. */
  function FindPair(supported: seq<SupportedMode>, svids: seq<SvidData>, svid: nat, i: nat): (r: Option<Pair>)
    requires i <= |supported|
    ensures r.Some? ==> && i <= r.value.mode < |supported| && r.value.entry < |svids|
                        && Fits(svids, r.value.entry, supported[r.value.mode].svid, svid)
    ensures r.Some? ==> && (forall m, k | i <= m < r.value.mode && 0 <= k < |svids| ::
                              !Fits(svids, k, supported[m].svid, svid))
                        && (forall k | 0 <= k < r.value.entry ::
                              !Fits(svids, k, supported[r.value.mode].svid, svid))
    ensures r.None? ==> forall m, k | i <= m < |supported| && 0 <= k < |svids| ::
                          !Fits(svids, k, supported[m].svid, svid)
    decreases |supported| - i
  {
    if i == |supported| then None
    else match FindSvid(svids, supported[i].svid, svid, 0)
      case Some(j) => Some(Pair(i, j))
      case None => FindPair(supported, svids, svid, i + 1)
  }

  /** The policy and the slot index pd_allocate_mode returns (-1: none). */
  datatype Allocation = Allocation(pe: Policy, idx: int)

  /** pd_allocate_mode: a mode already in the table is returned as it is;
      otherwise, unless the table is full, the first supported mode the
      partner also advertises (the requested one, or any when `svid` is 0)
      is bound to the next free slot. */
  function AllocateMode(pe: Policy, supported: seq<SupportedMode>, svid: nat): (r: Allocation)
    requires Valid(pe, supported)
    ensures Valid(r.pe, supported)
    ensures ModeIdx(pe, supported, svid) != -1 ==> r == Allocation(pe, ModeIdx(pe, supported, svid))
    ensures ModeIdx(pe, supported, svid) == -1 && pe.amodeIdx == |pe.amodes| ==> r == Allocation(pe, -1)
    ensures r.idx == -1 ==> r.pe == pe
    ensures r.idx != -1 ==> 0 <= r.idx < |r.pe.amodes| && r.pe.amodes[r.idx].fx.Some?
    ensures ModeIdx(pe, supported, svid) == -1 && r.idx != -1 ==>
              && r.idx == pe.amodeIdx && r.pe.amodeIdx == pe.amodeIdx + 1
              && r.pe.svids == pe.svids && |r.pe.amodes| == |pe.amodes|
              && (forall k | 0 <= k < |pe.amodes| && k != r.idx :: r.pe.amodes[k] == pe.amodes[k])
    // The slot is bound to the first supported mode that fits an advertised
    // SVID, through the first advertised entry that fits it.
    ensures ModeIdx(pe, supported, svid) == -1 && r.idx != -1 ==>
              var s := r.pe.amodes[r.idx];
              && s.fx.value < |supported| && s.data < |pe.svids|
              && Fits(pe.svids, s.data, supported[s.fx.value].svid, svid)
              && (forall m, k | 0 <= m < s.fx.value && 0 <= k < |pe.svids| ::
                    !Fits(pe.svids, k, supported[m].svid, svid))
              && (forall k | 0 <= k < s.data :: !Fits(pe.svids, k, supported[s.fx.value].svid, svid))
  {
    var idx := ModeIdx(pe, supported, svid);
    if idx != -1 then Allocation(pe, idx)
    else if pe.amodeIdx == |pe.amodes| then Allocation(pe, -1)
    else match FindPair(supported, pe.svids, svid, 0)
      case None => Allocation(pe, -1)
      case Some(p) =>
        var slot := pe.amodes[pe.amodeIdx].(fx := Some(p.mode), data := p.entry);
        Allocation(pe.(amodes := pe.amodes[pe.amodeIdx := slot], amodeIdx := pe.amodeIdx + 1),
                   pe.amodeIdx)
  }

  /** A fresh allocation binds a mode this port supports to an SVID the
      partner advertises: the two SVIDs agree, and they are the requested
      one whenever a particular SVID was asked for. The mode bound is the
      first supported mode, in the port's order of preference, that fits
      any advertised SVID (with `svid` 0 this order is the default policy),
      and the entry used is the first advertised one that fits it. When
      nothing is bound, no supported mode matches any advertised SVID. */
  lemma {:induction false} AllocationMatchesPartner(pe: Policy, supported: seq<SupportedMode>, svid: nat)
    requires Valid(pe, supported)
    requires ModeIdx(pe, supported, svid) == -1 && pe.amodeIdx < |pe.amodes|
    ensures var r := AllocateMode(pe, supported, svid);
            r.idx != -1 ==>
              var s := r.pe.amodes[r.idx];
              && supported[s.fx.value].svid == pe.svids[s.data].svid
              && (svid != 0 ==> pe.svids[s.data].svid == svid)
              && (forall m, k | 0 <= m < s.fx.value && 0 <= k < |pe.svids| ::
                    !Fits(pe.svids, k, supported[m].svid, svid))
              && (forall k | 0 <= k < s.data :: !Fits(pe.svids, k, supported[s.fx.value].svid, svid))
    ensures var r := AllocateMode(pe, supported, svid);
            r.idx == -1 <==> forall m, k | 0 <= m < |supported| && 0 <= k < |pe.svids| ::
                               !Fits(pe.svids, k, supported[m].svid, svid)
  {
    var p := FindPair(supported, pe.svids, svid, 0);
    if p.Some? {
      var q := p.value;
      assert Fits(pe.svids, q.entry, supported[q.mode].svid, svid);
    }
  }

  /** Allocating a particular SVID twice binds it once: the second request
      finds the slot the first one filled and changes nothing. */
  lemma {:induction false} AllocateTwice(pe: Policy, supported: seq<SupportedMode>, svid: nat)
    requires Valid(pe, supported) && svid != 0
    ensures var r := AllocateMode(pe, supported, svid);
            r.idx != -1 ==> AllocateMode(r.pe, supported, svid) == r
  {
    var r := AllocateMode(pe, supported, svid);
    if r.idx != -1 && ModeIdx(pe, supported, svid) == -1 {
      var p := FindPair(supported, pe.svids, svid, 0).value;
      assert Fits(pe.svids, p.entry, supported[p.mode].svid, svid);
      assert Holds(r.pe, supported, r.idx, svid);
      forall k | 0 <= k < r.idx
        ensures !Holds(r.pe, supported, k, svid)
      {
        assert r.pe.amodes[k] == pe.amodes[k];
        assert !Holds(pe, supported, k, svid);
      }
      assert ModeIdx(r.pe, supported, svid) == r.idx;
    }
  }

  // ---------------------------------------------------------------------
  // DisplayPort pin assignment

  /** The pin assignments A to F as bit positions 0 to 5 (MODE_DP_PIN_A
      ... MODE_DP_PIN_F), and the mask of each. */
  function PinMask(k: nat): nat
    requires k < 6
  {
    if k == 0 then 1 else if k == 1 then 2 else if k == 2 then 4
    else if k == 3 then 8 else if k == 4 then 16 else 32
  }

  /** The assignments in a 6-bit pin field. */
  function Pins(v: nat): (s: set<nat>)
    ensures forall k | k in s :: k < 6
  {
    set k | 0 <= k < 6 && (v / PinMask(k)) % 2 == 1
  }

  /** MODE_DP_PIN_MF_MASK: B, D and F carry USB alongside DisplayPort. */
  const MultiFunctionPins: set<nat> := {1, 3, 5}

  /** MODE_DP_PIN_BR2_MASK: A and B use USB Gen 2 signalling. */
  const Gen2Pins: set<nat> := {0, 1}

  /** PD_DP_PIN_CAPS: the pin field of a DisplayPort mode VDO. A receptacle
      (bit 6) advertises its UFP_D assignments in bits 16-21, a plug in
      bits 8-13. */
  function PinCaps(modeCaps: nat): (s: set<nat>)
    ensures forall k | k in s :: k < 6
  {
    if (modeCaps / 64) % 2 == 1 then Pins((modeCaps / 0x1_0000) % 64)
    else Pins((modeCaps / 0x100) % 64)
  }

  /** PD_VDO_DPSTS_MF_PREF: bit 4 of a DisplayPort status VDO, the partner
      prefers multi-function operation. */
  predicate MfPreferred(status: nat) {
    (status / 16) % 2 == 1
  }

  /** The assignments this port can drive for the partner: without a
      multi-function preference B, D and F are dropped, and A and B always
      are. */
  function Usable(caps: set<nat>, mfPref: bool): set<nat> {
    (if mfPref then caps else caps - MultiFunctionPins) - Gen2Pins
  }

  /** The assignments pd_dfp_dp_get_pin_mode chooses from: when C or D is
      usable they take precedence over E and F. */
  function Candidates(caps: set<nat>, mfPref: bool): (s: set<nat>)
    ensures s <= caps
  {
    var c := Usable(caps, mfPref);
    if 2 in c || 3 in c then c - {4, 5} else c
  }

  /** get_next_bit on a nonzero pin field: its highest assignment. */
  function Highest(s: set<nat>): (k: nat)
    requires s != {} && forall j | j in s :: j < 6
    ensures k in s && forall j | j in s :: j <= k
  {
    if 5 in s then 5 else if 4 in s then 4 else if 3 in s then 3
    else if 2 in s then 2 else if 1 in s then 1
    else assert 0 in s; 0
  }

  /** The slot of the DisplayPort mode, when one is allocated, has entered
      a mode: pd_dfp_dp_get_pin_mode reads mode VDO `opos - 1` of it
      without checking. */
  predicate DpEntered(pe: Policy, supported: seq<SupportedMode>)
    requires Valid(pe, supported)
  {
    var i := ModeIdx(pe, supported, DisplayPortSvid);
    i != -1 ==> pe.amodes[i].opos >= 1
  }

  /** The mode VDO of the entered DisplayPort mode. */
  function DpModeCaps(pe: Policy, supported: seq<SupportedMode>, i: nat): nat
    requires Valid(pe, supported) && DpEntered(pe, supported)
    requires i < |pe.amodes| && i == ModeIdx(pe, supported, DisplayPortSvid)
  {
    var s := pe.amodes[i];
    pe.svids[s.data].modeVdo[s.opos - 1]
  }

  /** pd_dfp_dp_get_pin_mode: 0 without DisplayPort mode data or without a
      candidate, otherwise the mask of the highest candidate assignment. */
  function DpPinMode(pe: Policy, supported: seq<SupportedMode>, status: nat): (r: nat)
    requires Valid(pe, supported) && DpEntered(pe, supported)
    ensures AmodeData(pe, supported, DisplayPortSvid).None? ==> r == 0
  {
    match AmodeData(pe, supported, DisplayPortSvid)
    case None => 0
    case Some(i) =>
      var c := Candidates(PinCaps(DpModeCaps(pe, supported, i)), MfPreferred(status));
      if c == {} then 0 else PinMask(Highest(c))
  }

  /** Which assignment a single-bit pin mask names. */
  function PinOf(r: nat): nat {
    if r == 1 then 0 else if r == 2 then 1 else if r == 4 then 2
    else if r == 8 then 3 else if r == 16 then 4 else 5
  }

  /** The pin mode is 0 or a single assignment the partner advertised, never
      a USB Gen 2 one, multi-function only when preferred, E or F only when
      neither C nor D is left, and the highest such candidate; it is 0
      exactly when no candidate is left. */
  lemma {:induction false} PinModeChoice(pe: Policy, supported: seq<SupportedMode>, status: nat)
    requires Valid(pe, supported) && DpEntered(pe, supported)
    requires AmodeData(pe, supported, DisplayPortSvid).Some?
    ensures var i := AmodeData(pe, supported, DisplayPortSvid).value;
            var caps := PinCaps(DpModeCaps(pe, supported, i));
            var r := DpPinMode(pe, supported, status);
            var k := PinOf(r);
            && (r == 0 <==> Candidates(caps, MfPreferred(status)) == {})
            && (r != 0 ==>
                  && k < 6 && r == PinMask(k) && k in caps
                  && k !in Gen2Pins
                  && (!MfPreferred(status) ==> k !in MultiFunctionPins)
                  && ((2 in Usable(caps, MfPreferred(status)) || 3 in Usable(caps, MfPreferred(status)))
                        ==> k != 4 && k != 5)
                  && (forall j | j in Candidates(caps, MfPreferred(status)) :: j <= k))
  {
    var i := AmodeData(pe, supported, DisplayPortSvid).value;
    var caps := PinCaps(DpModeCaps(pe, supported, i));
    var c := Candidates(caps, MfPreferred(status));
    if c != {} {
      var k := Highest(c);
      assert PinOf(PinMask(k)) == k;
    }
  }

  // ---------------------------------------------------------------------
  // Entering a mode

  /** VDO(svid, 1, CMD_ENTER_MODE | VDO_OPOS(opos)): the SVID in the top
      half, the structured-VDM bit 15, the object position in bits 8-10
      and the command in bits 0-4. */
  function EnterVdo(svid: nat, opos: nat): (w: nat)
    requires svid < 0x1_0000 && opos < 8
    ensures w < 0x1_0000_0000
  {
    svid * 0x1_0000 + 0x8000 + opos * 0x100 + EnterModeCmd
  }

  /** PD_VDO_VID, PD_VDO_OPOS and PD_VDO_CMD: the fields a UFP reads back
      from a VDO. */
  function VdoSvid(w: nat): nat { w / 0x1_0000 }
  function VdoOpos(w: nat): nat { (w / 0x100) % 8 }
  function VdoCmd(w: nat): nat { w % 32 }
  predicate VdoStructured(w: nat) { (w / 0x8000) % 2 == 1 }

  /** The Enter Mode VDO carries exactly the SVID, object position and
      command it was built from, marked as a structured VDM. */
  lemma {:induction false} EnterVdoFields(svid: nat, opos: nat)
    requires svid < 0x1_0000 && opos < 8
    ensures var w := EnterVdo(svid, opos);
            && VdoSvid(w) == svid && VdoOpos(w) == opos
            && VdoCmd(w) == EnterModeCmd && VdoStructured(w)
  {
    var w := EnterVdo(svid, opos);
    var low := 0x8000 + opos * 0x100 + EnterModeCmd;
    assert w == svid * 0x1_0000 + low && low < 0x1_0000;
    assert w / 0x8000 == svid * 2 + 1;
    assert w / 0x100 == svid * 0x100 + 0x80 + opos;
    assert w == (svid * 0x800 + 0x400 + opos * 8) * 32 + EnterModeCmd;
  }

  /** What pd_dfp_enter_mode leaves: the policy, the VDO to send (0: none)
      and whether it set the DFP enter-mode flag. */
  datatype EnterResult = EnterResult(pe: Policy, vdo: nat, flagged: bool)

  /** The object position pd_dfp_enter_mode settles on: 0 picks the first
      mode, a position within the partner's mode count is kept, and a larger
      one is refused. */
  function ChosenOpos(opos: nat, modeCnt: nat): (r: Option<nat>)
    ensures r.Some? ==> 1 <= r.value && (r.value <= modeCnt || r.value == 1)
    ensures r.None? <==> opos > modeCnt
    ensures opos == 0 ==> r == Some(1)
    ensures opos != 0 && r.Some? ==> r.value == opos
  {
    if opos == 0 then Some(1)
    else if opos <= modeCnt then Some(opos)
    else None
  }

  /** pd_dfp_enter_mode: allocate the mode, fix its object position, let
      the mode's `enter` callback accept its mode VDO, and answer with the
      Enter Mode VDO. A refused position or a refusing callback answer 0
      and leave the flag alone; the allocation (and the position, once
      chosen) stays. */
  function EnterMode(pe: Policy, supported: seq<SupportedMode>, svid: nat, opos: nat): (r: EnterResult)
    requires Valid(pe, supported)
    ensures Valid(r.pe, supported)
    ensures r.flagged <==> r.vdo != 0
    ensures AllocateMode(pe, supported, svid).idx == -1 ==> r == EnterResult(pe, 0, false)
  {
    var a := AllocateMode(pe, supported, svid);
    if a.idx == -1 then EnterResult(a.pe, 0, false)
    else
      var s := a.pe.amodes[a.idx];
      var d := a.pe.svids[s.data];
      match ChosenOpos(opos, d.modeCnt)
      case None => EnterResult(a.pe, 0, false)
      case Some(o) =>
        var pe' := a.pe.(amodes := a.pe.amodes[a.idx := s.(opos := o)]);
        var fx := supported[s.fx.value];
        if fx.enter(d.modeVdo[o - 1]) == -1 then EnterResult(pe', 0, false)
        else EnterResult(pe', EnterVdo(fx.svid, o), true)
  }

  /** A successful Enter Mode names the mode's SVID, the requested object
      position (the first when none was requested) and the Enter Mode
      command; the callback saw that position's mode VDO and accepted it,
      and the slot remembers the position. */
  lemma {:induction false} EnterModeOutcome(pe: Policy, supported: seq<SupportedMode>, svid: nat, opos: nat)
    requires Valid(pe, supported)
    ensures var a := AllocateMode(pe, supported, svid);
            var r := EnterMode(pe, supported, svid, opos);
            a.idx != -1 ==>
              var s := a.pe.amodes[a.idx];
              var d := a.pe.svids[s.data];
              var fx := supported[s.fx.value];
              var o := if opos == 0 then 1 else opos;
              && (opos > d.modeCnt ==> r == EnterResult(a.pe, 0, false))
              && (opos <= d.modeCnt ==>
                    && r.pe.amodes[a.idx].opos == o
                    && (r.flagged <==> fx.enter(d.modeVdo[o - 1]) != -1)
                    && (r.flagged ==>
                          && VdoSvid(r.vdo) == fx.svid && VdoOpos(r.vdo) == o
                          && VdoCmd(r.vdo) == EnterModeCmd && VdoStructured(r.vdo)))
  {
    var a := AllocateMode(pe, supported, svid);
    if a.idx != -1 {
      var s := a.pe.amodes[a.idx];
      var fx := supported[s.fx.value];
      var o := if opos == 0 then 1 else opos;
      if o <= PdoModes {
        EnterVdoFields(fx.svid, o);
      }
    }
  }
}

=== FILE: ccd_config.dfy ===
/** Case-closed-debug (CCD) configuration policy of common/ccd_config.c: the
    packed configuration record, the capability truth table against the
    LOCKED / UNLOCKED / OPENED states, the reset variants, the access rules of
    the console and vendor commands, and the password-permission phase.

    Everything the source obtains from outside is a parameter here: the
    stored configuration blob, the random salt and password digests (SHA-256
    over salt, device id and password), the 32-bit microsecond clock, and the
    board's answers (firmware management policy, physical-presence detector,
    battery, TPM wipe). Saving to nvmem is assumed to succeed. */
module CcdConfig {
  import opened Wrappers

  /** enum ccd_state, in increasing order of access. */
  datatype CcdState = Locked | Unlocked | Opened

  function Rank(s: CcdState): nat {
    match s
    case Locked => 0
    case Unlocked => 1
    case Opened => 2
  }

  /** Error codes the operations return. */
  datatype EcError = Success | AccessDenied | Busy | ParamCount | Param1 | Param2 | Inval

  /** CCD_CONFIG_VERSION. */
  const ConfigVersion: bv8 := 0x10

  /** The serialized size of `struct ccd_config`: version, 3 flag bytes,
      8 capability bytes, 4 salt bytes and 16 digest bytes. */
  const ConfigSize: nat := 32

  /** CCD_MAX_PASSWORD_SIZE. */
  const MaxPasswordSize: nat := 40

  /** The low 32 bits of the microsecond clock, as `get_time().le.lo`. */
  const Wrap: int := 0x1_0000_0000
  type Time32 = t: int | 0 <= t < 0x1_0000_0000

  /** PASSWORD_RATE_LIMIT_US: three seconds between password attempts. */
  const PasswordRateLimit: int := 3_000_000

  /** Capability states (enum ccd_capability_state) as stored in two bits. */
  const CapDefault: bv8 := 0
  const CapAlways: bv8 := 1
  const CapUnlessLocked: bv8 := 2
  const CapIfOpened: bv8 := 3

  /** Number of capabilities, and the indices the policy refers to by name
      (the order of `cap_info`). */
  const CapCount: nat := 16
  const CapGscRestrictedConsole: nat := 8
  const CapUnlockWithoutApReboot: nat := 9
  const CapUnlockWithoutShortPp: nat := 10
  const CapOpenWithoutTpmWipe: nat := 11
  const CapOpenWithoutLongPp: nat := 12
  const CapRemoveBatteryBypassesPp: nat := 13

  /** The flag word has 24 bits. A flag mask is the set of its bit
      positions; the test-lab flag is the least significant bit of the first
      flags byte, the other positions follow ccd_config.h, which is not part
      of this model. */
  const FlagBits: nat := 24
  const FlagTestLab: nat := 0
  const FlagPasswordSetWhenUnlocked: nat := 1
  const FlagOverrideWpAtBoot: nat := 22
  const FlagOverrideWpStateEnabled: nat := 23

  /** k_public_flags: the only flags ccd_set_flag may change. */
  const PublicFlags: set<nat> := {FlagOverrideWpAtBoot, FlagOverrideWpStateEnabled}

  /** `cap_info[c].default_state`. */
  function DefaultState(c: nat): (s: bv8)
    requires c < CapCount
    ensures s == CapAlways || s == CapIfOpened
  {
    if c in {0, 1, 2, 9, 10, 13, 14} then CapAlways else CapIfOpened
  }

  /** struct ccd_config, with the three flag bytes read as the set of the
      flag word's bits. */
  datatype Config = Config(
    version: bv8,
    flags: set<nat>,
    caps: seq<bv8>,
    salt: seq<bv8>,
    digest: seq<bv8>)

  predicate FlagWordValid(f: set<nat>) {
    forall i | i in f :: i < FlagBits
  }

  predicate ValidConfig(c: Config) {
    FlagWordValid(c.flags) && |c.caps| == 8 && |c.salt| == 4 && |c.digest| == 16
  }

  function Zeros(n: nat): (z: seq<bv8>)
    ensures |z| == n && forall i | 0 <= i < n :: z[i] == 0
  {
    seq(n, _ => 0)
  }

  /** The configuration after `memset(0)` and setting the version. */
  function ZeroConfig(): (c: Config)
    ensures ValidConfig(c)
  {
    Config(ConfigVersion, {}, Zeros(8), Zeros(4), Zeros(16))
  }

  // ---------------------------------------------------------------------
  // Flag bytes: the 24-bit word stored little-endian in three bytes.

  /** Bit `j` (0 = least significant) of a byte. */
  predicate ByteBit(x: bv8, j: nat)
    requires j < 8
  {
    if j == 0 then x & 1 != 0 else if j == 1 then x & 2 != 0 else if j == 2 then x & 4 != 0
    else if j == 3 then x & 8 != 0 else if j == 4 then x & 0x10 != 0
    else if j == 5 then x & 0x20 != 0 else if j == 6 then x & 0x40 != 0 else x & 0x80 != 0
  }

  /** `m` when `b` holds, else nothing. */
  function BitIf(b: bool, m: bv8): bv8 {
    if b then m else 0
  }

  /** The byte holding flag bits `base` to `base + 7`. */
  function PackByte(f: set<nat>, base: nat): bv8 {
    BitIf(base in f, 1) | BitIf(base + 1 in f, 2) | BitIf(base + 2 in f, 4) | BitIf(base + 3 in f, 8)
    | BitIf(base + 4 in f, 0x10) | BitIf(base + 5 in f, 0x20) | BitIf(base + 6 in f, 0x40)
    | BitIf(base + 7 in f, 0x80)
  }

  /** The three stored bytes of a flag word (the byte stores of raw_set_flag). */
  function FlagBytes(f: set<nat>): (b: seq<bv8>)
    ensures |b| == 3
  {
    [PackByte(f, 0), PackByte(f, 8), PackByte(f, 16)]
  }

  /** raw_get_flags: the flag word of three stored bytes. */
  function FlagWord(b: seq<bv8>): (f: set<nat>)
    requires |b| == 3
    ensures FlagWordValid(f)
  {
    set i | 0 <= i < FlagBits && ByteBit(b[i / 8], i % 8)
  }

  /** Bit `j` of a packed byte is the flag bit it packs. */
  lemma PackByteBit(f: set<nat>, base: nat, j: nat)
    requires j < 8
    ensures ByteBit(PackByte(f, base), j) <==> base + j in f
  {
    var x := PackByte(f, base);
    if j == 0 {} else if j == 1 {} else if j == 2 {} else if j == 3 {}
    else if j == 4 {} else if j == 5 {} else if j == 6 {} else {}
  }

  /** Flag bit `8 * k + j` of a flag word is bit `j` of stored byte `k`. */
  lemma WordBit(b: seq<bv8>, k: nat, j: nat)
    requires |b| == 3 && k < 3 && j < 8
    ensures (8 * k + j in FlagWord(b)) == ByteBit(b[k], j)
  {
    assert (8 * k + j) / 8 == k && (8 * k + j) % 8 == j;
  }

  /** Two bytes with the same eight bits are equal. */
  lemma ByteExt(x: bv8, y: bv8)
    requires forall j | 0 <= j < 8 :: ByteBit(x, j) == ByteBit(y, j)
    ensures x == y
  {
    assert ByteBit(x, 0) == ByteBit(y, 0) && ByteBit(x, 1) == ByteBit(y, 1);
    assert ByteBit(x, 2) == ByteBit(y, 2) && ByteBit(x, 3) == ByteBit(y, 3);
    assert ByteBit(x, 4) == ByteBit(y, 4) && ByteBit(x, 5) == ByteBit(y, 5);
    assert ByteBit(x, 6) == ByteBit(y, 6) && ByteBit(x, 7) == ByteBit(y, 7);
  }

  /** Repacking the bits of stored byte `k` gives the byte back. */
  lemma RepackByte(b: seq<bv8>, k: nat)
    requires |b| == 3 && k < 3
    ensures PackByte(FlagWord(b), 8 * k) == b[k]
  {
    forall j | 0 <= j < 8
      ensures ByteBit(PackByte(FlagWord(b), 8 * k), j) == ByteBit(b[k], j)
    {
      PackByteBit(FlagWord(b), 8 * k, j);
      WordBit(b, k, j);
    }
    ByteExt(PackByte(FlagWord(b), 8 * k), b[k]);
  }

  /** Packing and unpacking the flag bytes are inverse. */
  lemma FlagPacking(f: set<nat>, b: seq<bv8>)
    requires FlagWordValid(f) && |b| == 3
    ensures FlagWord(FlagBytes(f)) == f
    ensures FlagBytes(FlagWord(b)) == b
  {
    var g := FlagWord(FlagBytes(f));
    forall i | 0 <= i < FlagBits
      ensures i in g <==> i in f
    {
      PackByteBit(f, 8 * (i / 8), i % 8);
    }
    assert g == f;
    RepackByte(b, 0);
    RepackByte(b, 1);
    RepackByte(b, 2);
  }

  /** The test-lab flag is bit 0 of the first flags byte. */
  lemma TestLabByte(b: seq<bv8>)
    requires |b| == 3
    ensures FlagTestLab in FlagWord(b) <==> b[0] & 1 != 0
  {
  }

  // ---------------------------------------------------------------------
  // Serialization: the record as the bytes nvmem stores.

  function Serialize(c: Config): (b: seq<bv8>)
    requires ValidConfig(c)
    ensures |b| == ConfigSize && b[0] == c.version
  {
    [c.version] + FlagBytes(c.flags) + c.caps + c.salt + c.digest
  }

  function Deserialize(b: seq<bv8>): (c: Config)
    requires |b| == ConfigSize
    ensures ValidConfig(c) && c.version == b[0]
    ensures FlagTestLab in c.flags <==> b[1] & 1 != 0
  {
    TestLabByte(b[1..4]);
    Config(b[0], FlagWord(b[1..4]), b[4..12], b[12..16], b[16..32])
  }

  /** Serialization and deserialization are inverse. */
  lemma SerializeRoundTrip(c: Config, b: seq<bv8>)
    requires ValidConfig(c) && |b| == ConfigSize
    ensures Deserialize(Serialize(c)) == c
    ensures Serialize(Deserialize(b)) == b
  {
    FlagPacking(c.flags, b[1..4]);
    var p := [c.version] + FlagBytes(c.flags) + c.caps;
    var s := p + c.salt + c.digest;
    assert |p| == 12;
    assert s == Serialize(c);
    assert s[1..4] == p[1..4] == FlagBytes(c.flags);
    assert s[4..12] == p[4..12] == c.caps;
    assert s[12..16] == c.salt;
    assert s[16..32] == c.digest;
    var q := [b[0]] + b[1..4] + b[4..12];
    assert q == b[..12];
    assert q + b[12..16] + b[16..32] == b;
  }

  /** raw_set_flag: set or clear exactly the bits of `flag` within the
      stored 24. Every other flag bit, the capabilities, the password and the
      version are unchanged. */
  function RawSetFlag(c: Config, flag: set<nat>, value: bool): (r: Config)
    requires ValidConfig(c)
    ensures ValidConfig(r)
    ensures r.version == c.version && r.caps == c.caps
    ensures r.salt == c.salt && r.digest == c.digest
    ensures forall i | 0 <= i < FlagBits ::
              i in r.flags <==> if i in flag then value else i in c.flags
  {
    if value then c.(flags := c.flags + set i | i in flag && i < FlagBits)
    else c.(flags := c.flags - flag)
  }

  // ---------------------------------------------------------------------
  // Capabilities: two bits each, four per byte, lowest index lowest.

  /** The two-bit field `k` of a byte. */
  function Field(x: bv8, k: nat): bv8
    requires k < 4
  {
    (x >> (2 * k)) & 3
  }

  /** The byte with field `k` replaced by the low two bits of `s`. */
  function SetField(x: bv8, k: nat, s: bv8): bv8
    requires k < 4
  {
    (x & !(3 << (2 * k))) | ((s & 3) << (2 * k))
  }

  /** Replacing a field changes that field to `s & 3` and no other. */
  lemma FieldUpdate(x: bv8, k: nat, s: bv8, j: nat)
    requires k < 4 && j < 4
    ensures Field(SetField(x, k, s), j) == if j == k then s & 3 else Field(x, j)
  {
    if k == 0 {
      if j == 0 {} else if j == 1 {} else if j == 2 {} else {}
    } else if k == 1 {
      if j == 0 {} else if j == 1 {} else if j == 2 {} else {}
    } else if k == 2 {
      if j == 0 {} else if j == 1 {} else if j == 2 {} else {}
    } else {
      if j == 0 {} else if j == 1 {} else if j == 2 {} else {}
    }
  }

  /** raw_get_cap: the stored state of capability `cap`, with DEFAULT
      replaced by the capability's default when `translate` holds. */
  function RawGetCap(c: Config, cap: nat, translate: bool): (s: bv8)
    requires ValidConfig(c) && cap < CapCount
    ensures s <= 3
    ensures translate ==> s != CapDefault
    ensures !translate || Field(c.caps[cap / 4], cap % 4) != CapDefault ==>
              s == Field(c.caps[cap / 4], cap % 4)
  {
    FieldBound(c.caps[cap / 4], cap % 4);
    var v := Field(c.caps[cap / 4], cap % 4);
    if v == CapDefault && translate then DefaultState(cap) else v
  }

  lemma FieldBound(x: bv8, k: nat)
    requires k < 4
    ensures Field(x, k) <= 3
  {
  }

  /** raw_set_cap: capability `cap` reads back as `state & 3`, every other
      capability reads as before, and nothing but the capabilities changes. */
  function RawSetCap(c: Config, cap: nat, state: bv8): (r: Config)
    requires ValidConfig(c) && cap < CapCount
    ensures ValidConfig(r)
    ensures r.version == c.version && r.flags == c.flags
    ensures r.salt == c.salt && r.digest == c.digest
    ensures RawGetCap(r, cap, false) == state & 3
    ensures forall d | 0 <= d < CapCount && d != cap ::
              RawGetCap(r, d, false) == RawGetCap(c, d, false)
  {
    var r := c.(caps := c.caps[cap / 4 := SetField(c.caps[cap / 4], cap % 4, state)]);
    SetCapSpec(c, cap, state, r);
    r
  }

  lemma SetCapSpec(c: Config, cap: nat, state: bv8, r: Config)
    requires ValidConfig(c) && cap < CapCount
    requires r == c.(caps := c.caps[cap / 4 := SetField(c.caps[cap / 4], cap % 4, state)])
    ensures RawGetCap(r, cap, false) == state & 3
    ensures forall d | 0 <= d < CapCount && d != cap ::
              RawGetCap(r, d, false) == RawGetCap(c, d, false)
  {
    FieldUpdate(c.caps[cap / 4], cap % 4, state, cap % 4);
    forall d | 0 <= d < CapCount && d != cap
      ensures RawGetCap(r, d, false) == RawGetCap(c, d, false)
    {
      if d / 4 == cap / 4 {
        FieldUpdate(c.caps[cap / 4], cap % 4, state, d % 4);
      }
    }
  }

  /** The translated state differs from the stored one only for DEFAULT. */
  lemma TranslatedCap(c: Config, cap: nat)
    requires ValidConfig(c) && cap < CapCount
    ensures RawGetCap(c, cap, true) ==
              if RawGetCap(c, cap, false) == CapDefault then DefaultState(cap)
              else RawGetCap(c, cap, false)
  {
  }

  // ---------------------------------------------------------------------
  // Password.

  /** The bitwise OR of all bytes, as raw_has_password accumulates it. */
  function OrAll(s: seq<bv8>): bv8 {
    if |s| == 0 then 0 else OrAll(s[..|s| - 1]) | s[|s| - 1]
  }

  /** The OR is zero exactly when every byte is. */
  lemma {:induction false} OrAllZero(s: seq<bv8>)
    ensures OrAll(s) == 0 <==> forall i | 0 <= i < |s| :: s[i] == 0
  {
    if |s| > 0 {
      OrAllZero(s[..|s| - 1]);
      assert forall i | 0 <= i < |s| - 1 :: s[..|s| - 1][i] == s[i];
    }
  }

  /** raw_has_password: a password is set unless salt and digest are all
      zero. */
  function HasPassword(c: Config): (r: bool)
    requires ValidConfig(c)
    ensures r <==> (exists i | 0 <= i < 4 :: c.salt[i] != 0)
                   || (exists i | 0 <= i < 16 :: c.digest[i] != 0)
  {
    OrAllZero(c.salt);
    OrAllZero(c.digest);
    OrAll(c.salt) | OrAll(c.digest) != 0
  }

  /** raw_reset_password: zero salt and digest and clear
      PASSWORD_SET_WHEN_UNLOCKED. No password is set afterwards. */
  function RawResetPassword(c: Config): (r: Config)
    requires ValidConfig(c)
    ensures ValidConfig(r) && !HasPassword(r)
    ensures r.flags == c.flags - {FlagPasswordSetWhenUnlocked}
    ensures r.version == c.version && r.caps == c.caps
  {
    RawSetFlag(c.(salt := Zeros(4), digest := Zeros(16)), {FlagPasswordSetWhenUnlocked}, false)
  }

  /** raw_set_password with the new random salt and the digest of the new
      password under it supplied; the flag records whether the password was
      set while only unlocked. */
  function RawSetPassword(c: Config, state: CcdState, salt: seq<bv8>, digest: seq<bv8>): (r: Config)
    requires ValidConfig(c) && |salt| == 4 && |digest| == 16
    ensures ValidConfig(r) && r.salt == salt && r.digest == digest
    ensures r.version == c.version && r.caps == c.caps
    ensures FlagPasswordSetWhenUnlocked in r.flags <==> state == Unlocked
    ensures r.flags - {FlagPasswordSetWhenUnlocked} == c.flags - {FlagPasswordSetWhenUnlocked}
  {
    RawSetFlag(c.(salt := salt, digest := digest), {FlagPasswordSetWhenUnlocked}, state == Unlocked)
  }

  // ---------------------------------------------------------------------
  // The CCD context.

  /** The module's state: CCD state, the configuration, whether it was
      loaded, whether CCD was force-disabled, and the low 32 bits of the time
      of the last password attempt. */
  datatype Ccd = Ccd(
    state: CcdState,
    config: Config,
    loaded: bool,
    forceDisabled: bool,
    lastPasswordTime: Time32)

  predicate Valid(ccd: Ccd) {
    ValidConfig(ccd.config)
  }

  /** The context at boot: locked, zero configuration, nothing loaded. */
  function Boot(): (ccd: Ccd)
    ensures Valid(ccd) && !ccd.loaded && ccd.state == Locked
  {
    Ccd(Locked, Config(0, {}, Zeros(8), Zeros(4), Zeros(16)), false, false, 0)
  }

  /** ccd_get_flag: 0 while the configuration is not loaded or CCD is
      force-disabled, otherwise whether any bit of `flag` is set. */
  function GetFlag(ccd: Ccd, flag: set<nat>): (r: bool)
    requires Valid(ccd)
    ensures !ccd.loaded || ccd.forceDisabled ==> !r
    ensures ccd.loaded && !ccd.forceDisabled ==> (r <==> exists i :: i in flag && i in ccd.config.flags)
  {
    Meet(flag, ccd.config.flags);
    ccd.loaded && !ccd.forceDisabled && flag * ccd.config.flags != {}
  }

  /** Two sets meet exactly when some element lies in both. */
  lemma Meet(a: set<nat>, b: set<nat>)
    ensures a * b != {} <==> exists i :: i in a && i in b
  {
    if a * b != {} {
      var i :| i in a * b;
      assert i in a && i in b;
    } else {
      forall i | i in a
        ensures i !in b
      {
        assert i !in a * b;
      }
    }
  }

  /** ccd_is_cap_enabled. */
  function IsCapEnabled(ccd: Ccd, cap: nat): (r: bool)
    requires Valid(ccd) && cap < CapCount
    ensures !ccd.loaded || ccd.forceDisabled ==> !r
    ensures ccd.loaded && !ccd.forceDisabled ==>
              var s := RawGetCap(ccd.config, cap, true);
              && (s == CapAlways ==> r)
              && (s == CapUnlessLocked ==> (r <==> ccd.state != Locked))
              && (s == CapIfOpened ==> (r <==> ccd.state == Opened))
  {
    if !ccd.loaded || ccd.forceDisabled then false
    else
      var s := RawGetCap(ccd.config, cap, true);
      if s == CapAlways then true
      else if s == CapUnlessLocked then ccd.state != Locked
      else ccd.state == Opened
  }

  /** Access only grows with the state: a capability enabled in some state
      is enabled in every state above it. */
  lemma CapEnabledMonotone(ccd: Ccd, cap: nat, s1: CcdState, s2: CcdState)
    requires Valid(ccd) && cap < CapCount && Rank(s1) <= Rank(s2)
    ensures IsCapEnabled(ccd.(state := s1), cap) ==> IsCapEnabled(ccd.(state := s2), cap)
  {
  }

  /** ccd_set_state; the result says whether CCD users are notified, which
      happens exactly when the state changes. */
  function SetState(ccd: Ccd, s: CcdState): (r: (Ccd, bool))
    ensures r.0 == ccd.(state := s)
    ensures r.1 <==> s != ccd.state
  {
    if s == ccd.state then (ccd, false) else (ccd.(state := s), true)
  }

  // ---------------------------------------------------------------------
  // Reset.

  /** The CCD_RESET_* options. */
  datatype ResetOptions = ResetOptions(unlockedOnly: bool, rma: bool, testLab: bool)

  /** What an UNLOCKED_ONLY reset stores for capability `d`: the old value
      when the capability is effectively IfOpened, DEFAULT otherwise. */
  function UnlockedTarget(c: Config, d: nat): bv8
    requires ValidConfig(c) && d < CapCount
  {
    if RawGetCap(c, d, true) == CapIfOpened then RawGetCap(c, d, false) else CapDefault
  }

  /** The capability loop of an UNLOCKED_ONLY reset from index `i` on: every
      capability whose effective state is not IfOpened goes back to DEFAULT. */
  function ResetUnlockedCaps(c: Config, i: nat): (r: Config)
    requires ValidConfig(c) && i <= CapCount
    ensures ValidConfig(r)
    ensures r.version == c.version && r.flags == c.flags && r.salt == c.salt && r.digest == c.digest
    ensures forall d | 0 <= d < CapCount ::
              RawGetCap(r, d, false) == if d < i then RawGetCap(c, d, false) else UnlockedTarget(c, d)
    decreases CapCount - i
  {
    if i == CapCount then c
    else if RawGetCap(c, i, true) == CapIfOpened then ResetUnlockedCaps(c, i + 1)
    else
      var c1 := RawSetCap(c, i, CapDefault);
      UnlockedStep(c, i);
      ResetUnlockedCaps(c1, i + 1)
  }

  /** Resetting capability `i` leaves every other capability's target and
      value alone. */
  lemma UnlockedStep(c: Config, i: nat)
    requires ValidConfig(c) && i < CapCount && RawGetCap(c, i, true) != CapIfOpened
    ensures var c1 := RawSetCap(c, i, CapDefault);
            && RawGetCap(c1, i, false) == UnlockedTarget(c, i)
            && forall d | 0 <= d < CapCount && d != i ::
                 UnlockedTarget(c1, d) == UnlockedTarget(c, d) && RawGetCap(c1, d, false) == RawGetCap(c, d, false)
  {
    var c1 := RawSetCap(c, i, CapDefault);
    forall d | 0 <= d < CapCount && d != i
      ensures UnlockedTarget(c1, d) == UnlockedTarget(c, d)
    {
      TranslatedCap(c1, d);
      TranslatedCap(c, d);
    }
  }

  /** The capability loop of an RMA reset from index `i` on: every
      capability but the restricted console becomes ALWAYS. */
  function RmaCaps(c: Config, i: nat): (r: Config)
    requires ValidConfig(c) && i <= CapCount
    ensures ValidConfig(r)
    ensures r.version == c.version && r.flags == c.flags && r.salt == c.salt && r.digest == c.digest
    ensures forall d | 0 <= d < CapCount ::
              RawGetCap(r, d, false) ==
                if d < i || d == CapGscRestrictedConsole then RawGetCap(c, d, false)
                else CapAlways
    decreases CapCount - i
  {
    if i == CapCount then c
    else if i == CapGscRestrictedConsole then RmaCaps(c, i + 1)
    else RmaCaps(RawSetCap(c, i, CapAlways), i + 1)
  }

  /** ccd_reset_config with the previous test-lab flag supplied. */
  function ResetWith(ccd: Ccd, opts: ResetOptions, oldLab: bool): (r: Ccd)
    requires Valid(ccd)
    ensures Valid(r)
  {
    var c := ccd.config;
    var c1 :=
      if opts.unlockedOnly then
        var p := if GetFlag(ccd, {FlagPasswordSetWhenUnlocked}) then RawResetPassword(c) else c;
        ResetUnlockedCaps(p, 0)
      else ZeroConfig();
    var c2 :=
      if opts.rma then
        RawSetFlag(RawSetFlag(RmaCaps(c1, 0), {FlagOverrideWpAtBoot}, true), {FlagOverrideWpStateEnabled}, false)
      else c1;
    var c3 := if !opts.testLab then RawSetFlag(c2, {FlagTestLab}, oldLab) else c2;
    ccd.(config := c3)
  }

  /** ccd_reset_config: the previous test-lab flag is read with ccd_get_flag. */
  function ResetConfig(ccd: Ccd, opts: ResetOptions): (r: Ccd)
    requires Valid(ccd)
    ensures Valid(r)
  {
    ResetWith(ccd, opts, GetFlag(ccd, {FlagTestLab}))
  }

  /** A full reset (neither UNLOCKED_ONLY nor RMA) clears the whole
      configuration except the version, and then the test-lab flag is the old
      one unless the reset includes it. */
  lemma FullReset(ccd: Ccd, opts: ResetOptions, oldLab: bool)
    requires Valid(ccd) && !opts.unlockedOnly && !opts.rma
    ensures var r := ResetWith(ccd, opts, oldLab).config;
            && r.version == ConfigVersion
            && r.caps == Zeros(8) && r.salt == Zeros(4) && r.digest == Zeros(16)
            && r.flags == (if !opts.testLab && oldLab then {FlagTestLab} else {})
  {
  }

  /** An UNLOCKED_ONLY reset returns every capability that is not
      effectively IfOpened to DEFAULT and leaves the IfOpened ones alone;
      it clears the password only if it was set while unlocked. */
  lemma UnlockedOnlyReset(ccd: Ccd, opts: ResetOptions, oldLab: bool)
    requires Valid(ccd) && opts.unlockedOnly && !opts.rma
    ensures var r := ResetWith(ccd, opts, oldLab).config;
            && (forall d | 0 <= d < CapCount ::
                  RawGetCap(r, d, false) ==
                    if RawGetCap(ccd.config, d, true) == CapIfOpened then RawGetCap(ccd.config, d, false)
                    else CapDefault)
            && (GetFlag(ccd, {FlagPasswordSetWhenUnlocked}) ==> !HasPassword(r))
            && (!GetFlag(ccd, {FlagPasswordSetWhenUnlocked}) ==>
                  r.salt == ccd.config.salt && r.digest == ccd.config.digest)
  {
    var c := ccd.config;
    var p := if GetFlag(ccd, {FlagPasswordSetWhenUnlocked}) then RawResetPassword(c) else c;
    assert p.caps == c.caps;
    forall d | 0 <= d < CapCount
      ensures UnlockedTarget(p, d) == UnlockedTarget(c, d)
    {
      assert RawGetCap(p, d, true) == RawGetCap(c, d, true);
      assert RawGetCap(p, d, false) == RawGetCap(c, d, false);
    }
    var r0 := ResetUnlockedCaps(p, 0);
    var r := ResetWith(ccd, opts, oldLab).config;
    assert r.caps == r0.caps;
    forall d | 0 <= d < CapCount
      ensures RawGetCap(r, d, false) == UnlockedTarget(c, d)
    {
      assert RawGetCap(r, d, false) == RawGetCap(r0, d, false);
    }
  }

  /** An RMA reset makes every capability except the restricted console
      ALWAYS, forces write protect off at boot, and keeps the test-lab
      flag unless the reset includes it. */
  lemma RmaReset(ccd: Ccd, opts: ResetOptions, oldLab: bool)
    requires Valid(ccd) && opts.rma
    ensures var r := ResetWith(ccd, opts, oldLab).config;
            && (forall d | 0 <= d < CapCount && d != CapGscRestrictedConsole ::
                  RawGetCap(r, d, false) == CapAlways)
            && FlagOverrideWpAtBoot in r.flags
            && FlagOverrideWpStateEnabled !in r.flags
            && (!opts.testLab ==> (FlagTestLab in r.flags <==> oldLab))
  {
  }

  // ---------------------------------------------------------------------
  // Loading.

  /** The configuration bytes after `memcpy` of a stored blob over them:
      at most one record's worth is copied, the rest stays. */
  function CopyBlob(c: Config, blob: seq<bv8>): (r: Config)
    requires ValidConfig(c)
    ensures ValidConfig(r)
    ensures |blob| >= 2 ==> r.version == blob[0] && (FlagTestLab in r.flags <==> blob[1] & 1 != 0)
  {
    var n := if |blob| < ConfigSize then |blob| else ConfigSize;
    Deserialize(blob[..n] + Serialize(c)[n..])
  }

  /** ccd_load_config as written: a missing blob gives the default (or, on
      the first factory boot, the RMA) configuration; a blob of the wrong
      version or size is replaced by the defaults, meant to keep the test-lab
      bit when the blob was long enough to hold it. */
  function LoadConfigAsWritten(ccd: Ccd, stored: Option<seq<bv8>>, firstFactoryBoot: bool): (r: Ccd)
    requires Valid(ccd)
    ensures Valid(r) && r.loaded
    ensures ccd.loaded ==> r == ccd
  {
    if ccd.loaded then ccd
    else match stored
      case None =>
        ResetConfig(ccd, ResetOptions(false, firstFactoryBoot, true)).(loaded := true)
      case Some(blob) =>
        var c := CopyBlob(ccd.config, blob);
        if c.version != ConfigVersion || |blob| != ConfigSize then
          ResetConfig(ccd.(config := c), ResetOptions(false, false, |blob| < 2)).(loaded := true)
        else ccd.(config := c, loaded := true)
  }

  /** The test-lab bit is lost: while loading, ccd_get_flag answers 0
      because the configuration is not yet marked loaded, so the
      "preserved" bit is always cleared. */
  lemma LoadLosesTestLab(ccd: Ccd)
    requires Valid(ccd) && !ccd.loaded
    ensures var r := LoadConfigAsWritten(ccd, Some([0x0F, 0x01]), false);
            FlagTestLab !in r.config.flags
  {
    var blob: seq<bv8> := [0x0F, 0x01];
    var c := CopyBlob(ccd.config, blob);
    assert c.version == 0x0F;
    FullReset(ccd.(config := c), ResetOptions(false, false, false), false);
  }

  /** ccd_load_config as intended: the test-lab bit of a mismatched blob
      comes from the copied bytes themselves. */
  function LoadConfig(ccd: Ccd, stored: Option<seq<bv8>>, firstFactoryBoot: bool): (r: Ccd)
    requires Valid(ccd)
    ensures Valid(r) && r.loaded
    ensures ccd.loaded ==> r == ccd
    ensures r.state == ccd.state
  {
    if ccd.loaded then ccd
    else match stored
      case None =>
        ResetConfig(ccd, ResetOptions(false, firstFactoryBoot, true)).(loaded := true)
      case Some(blob) =>
        var c := CopyBlob(ccd.config, blob);
        if c.version != ConfigVersion || |blob| != ConfigSize then
          var keep := FlagTestLab in c.flags;
          ResetWith(ccd.(config := c), ResetOptions(false, false, |blob| < 2), keep).(loaded := true)
        else ccd.(config := c, loaded := true)
  }

  /** What loading yields: a valid blob is taken as it is; a mismatched one
      is replaced by the defaults, keeping the test-lab bit exactly when the
      blob held it; no blob at all gives defaults without it (with RMA
      capabilities on the first factory boot). */
  lemma LoadConfigOutcome(ccd: Ccd, stored: Option<seq<bv8>>, firstFactoryBoot: bool)
    requires Valid(ccd) && !ccd.loaded
    ensures var r := LoadConfig(ccd, stored, firstFactoryBoot).config;
            && r.version == ConfigVersion
            && (stored.Some? && |stored.value| == ConfigSize && stored.value[0] == ConfigVersion ==>
                  Serialize(r) == stored.value)
            && (stored.Some? && |stored.value| >= 2 ==>
                  (FlagTestLab in r.flags <==> stored.value[1] & 1 != 0))
            && (stored.None? ==> FlagTestLab !in r.flags)
            && (stored.None? && firstFactoryBoot ==>
                  forall d | 0 <= d < CapCount && d != CapGscRestrictedConsole ::
                    RawGetCap(r, d, false) == CapAlways)
  {
    match stored
    case None =>
      if firstFactoryBoot {
        RmaReset(ccd, ResetOptions(false, true, true), GetFlag(ccd, {FlagTestLab}));
      }
    case Some(blob) =>
      var c := CopyBlob(ccd.config, blob);
      var n := if |blob| < ConfigSize then |blob| else ConfigSize;
      if |blob| == ConfigSize {
        assert blob[..n] + Serialize(ccd.config)[n..] == blob;
        SerializeRoundTrip(ccd.config, blob);
      }
      if c.version != ConfigVersion || |blob| != ConfigSize {
        var keep := FlagTestLab in c.flags;
        FullReset(ccd.(config := c), ResetOptions(false, false, |blob| < 2), keep);
      }
  }

  /** ccd_config_init: any state other than UNLOCKED (1) or OPENED (2) is
      taken as LOCKED, then the configuration is loaded. */
  function ConfigInit(ccd: Ccd, state: int, stored: Option<seq<bv8>>, firstFactoryBoot: bool): (r: Ccd)
    requires Valid(ccd)
    ensures Valid(r) && (r.loaded || ccd.loaded)
    ensures r.state == if state == 1 then Unlocked else if state == 2 then Opened else Locked
  {
    var s := if state == 1 then Unlocked else if state == 2 then Opened else Locked;
    LoadConfig(ccd.(state := s), stored, firstFactoryBoot)
  }

  // ---------------------------------------------------------------------
  // Setting flags and capabilities.

  /** ccd_set_flag: refused when force-disabled or for a non-public flag,
      busy until loaded, a no-op when the flag already reads as requested,
      and otherwise exactly the flag's bits change, so that the flag then
      reads back as requested. */
  function SetFlag(ccd: Ccd, flag: set<nat>, value: bool): (r: (EcError, Ccd))
    requires Valid(ccd)
    ensures Valid(r.1)
    ensures ccd.forceDisabled ==> r == (AccessDenied, ccd)
    ensures !ccd.forceDisabled && !(flag <= PublicFlags) ==> r == (AccessDenied, ccd)
    ensures !ccd.forceDisabled && flag <= PublicFlags && !ccd.loaded ==> r == (Busy, ccd)
    ensures r.0 != Success ==> r.1 == ccd
    ensures r.0 == Success <==> !ccd.forceDisabled && flag <= PublicFlags && ccd.loaded
    ensures r.0 == Success && GetFlag(ccd, flag) == value ==> r.1 == ccd
    ensures r.0 == Success && flag != {} ==> GetFlag(r.1, flag) == value
    ensures r.0 == Success ==>
              && r.1 == ccd.(config := r.1.config)
              && r.1.config.caps == ccd.config.caps
              && forall i | 0 <= i < FlagBits && i !in flag ::
                   i in r.1.config.flags <==> i in ccd.config.flags
  {
    if ccd.forceDisabled then (AccessDenied, ccd)
    else if !(flag <= PublicFlags) then (AccessDenied, ccd)
    else if !ccd.loaded then (Busy, ccd)
    else if GetFlag(ccd, flag) == value then (Success, ccd)
    else (Success, ccd.(config := RawSetFlag(ccd.config, flag, value)))
  }

  /** Only the public flags can ever change through ccd_set_flag. */
  lemma SetFlagOnlyPublic(ccd: Ccd, flag: set<nat>, value: bool)
    requires Valid(ccd)
    ensures var r := SetFlag(ccd, flag, value).1.config.flags;
            forall i | 0 <= i < FlagBits && i !in PublicFlags :: i in r <==> i in ccd.config.flags
  {
  }

  /** ccd_set_cap: busy until loaded; otherwise the capability's stored
      state becomes `state` (nothing is written when it already is). */
  function SetCap(ccd: Ccd, cap: nat, state: bv8): (r: (EcError, Ccd))
    requires Valid(ccd) && cap < CapCount && state <= 3
    ensures Valid(r.1)
    ensures !ccd.loaded ==> r == (Busy, ccd)
    ensures ccd.loaded ==> r.0 == Success && RawGetCap(r.1.config, cap, false) == state
    ensures state == RawGetCap(ccd.config, cap, false) ==> r.1 == ccd
    ensures forall d | 0 <= d < CapCount && d != cap ::
              RawGetCap(r.1.config, d, false) == RawGetCap(ccd.config, d, false)
    ensures r.1.state == ccd.state && r.1.config.flags == ccd.config.flags
  {
    if !ccd.loaded then (Busy, ccd)
    else if state == RawGetCap(ccd.config, cap, false) then (Success, ccd)
    else (Success, ccd.(config := RawSetCap(ccd.config, cap, state)))
  }

  /** command_ccd_set once its words are parsed: `argc` counts the words
      including "set", `cap` is the index of the named capability
      (CapCount or more when the name is unknown), `state` the index of the
      named state (4 or more when unknown). */
  function CommandSet(ccd: Ccd, argc: nat, cap: nat, state: nat): (r: (EcError, Ccd))
    requires Valid(ccd)
    ensures Valid(r.1)
    ensures ccd.state == Locked ==> r == (AccessDenied, ccd)
    ensures r.0 != Success ==> r.1 == ccd
    ensures ccd.state != Locked && argc < 3 ==> r.0 == ParamCount
    ensures ccd.state != Locked && argc >= 3 && cap >= CapCount ==> r.0 == Param1
    ensures ccd.state != Locked && argc >= 3 && cap < CapCount && state > 3 ==> r.0 == Param2
    ensures ccd.state == Opened && argc >= 3 && cap < CapCount && state <= 3 ==>
              r == SetCap(ccd, cap, state as bv8)
    // Only unlocked, a capability can move between the states other than
    // IfOpened, and only if it is not effectively IfOpened already.
    ensures ccd.state == Unlocked && argc >= 3 && cap < CapCount && state <= 3 ==>
              r == if state as bv8 == CapIfOpened || RawGetCap(ccd.config, cap, true) == CapIfOpened
                   then (AccessDenied, ccd)
                   else SetCap(ccd, cap, state as bv8)
  {
    if ccd.state == Locked then (AccessDenied, ccd)
    else if argc < 3 then (ParamCount, ccd)
    else if cap >= CapCount then (Param1, ccd)
    else if state > 3 then (Param2, ccd)
    else
      var current := RawGetCap(ccd.config, cap, true);
      if ccd.state == Unlocked && (state as bv8 == CapIfOpened || current == CapIfOpened) then
        (AccessDenied, ccd)
      else SetCap(ccd, cap, state as bv8)
  }

  /** While only unlocked, a capability that is effectively IfOpened cannot
      be changed, and no capability can be set to IfOpened; any other
      change of a loaded configuration is made, and nothing else changes. */
  lemma UnlockedKeepsIfOpened(ccd: Ccd, argc: nat, cap: nat, state: nat)
    requires Valid(ccd) && ccd.state == Unlocked && cap < CapCount
    ensures var r := CommandSet(ccd, argc, cap, state);
            && (RawGetCap(ccd.config, cap, true) == CapIfOpened ==> r.1 == ccd)
            && (state == 3 ==> r.1 == ccd)
            && (ccd.loaded && argc >= 3 && state < 3 && RawGetCap(ccd.config, cap, true) != CapIfOpened ==>
                  && r.0 == Success
                  && RawGetCap(r.1.config, cap, false) == state as bv8
                  && forall d | 0 <= d < CapCount && d != cap ::
                       RawGetCap(r.1.config, d, false) == RawGetCap(ccd.config, d, false))
  {
  }

  // ---------------------------------------------------------------------
  // Passwords.

  /** ASCII lower case, as strcasecmp compares. */
  function Lower(b: bv8): bv8 {
    if 0x41 <= b <= 0x5A then b + 0x20 else b
  }

  /** The whole string in lower case. */
  function LowerAll(s: seq<bv8>): (r: seq<bv8>)
    ensures |r| == |s| && forall i | 0 <= i < |s| :: r[i] == Lower(s[i])
  {
    seq(|s|, i requires 0 <= i < |s| => Lower(s[i]))
  }

  /** strcasecmp(a, b) == 0 for strings without NUL bytes: the strings
      agree once both are lower-cased, so in particular a string equals
      itself and any change of letter case. */
  predicate EqualsIgnoreCase(a: seq<bv8>, b: seq<bv8>): (r: bool)
    ensures r <==> LowerAll(a) == LowerAll(b)
  {
    |a| == |b| && forall i | 0 <= i < |a| :: Lower(a[i]) == Lower(b[i])
  }

  /** "clear" and "rma" in ASCII. */
  const ClearWord: seq<bv8> := [0x63, 0x6C, 0x65, 0x61, 0x72]
  const RmaWord: seq<bv8> := [0x72, 0x6D, 0x61]

  /** The C string a NUL-terminated copy of `s` denotes: `s` up to its first
      zero byte. */
  function CString(s: seq<bv8>): (r: seq<bv8>)
    ensures |r| <= |s| && r == s[..|r|]
    ensures forall i | 0 <= i < |r| :: r[i] != 0
    ensures |r| < |s| ==> s[|r|] == 0
  {
    if |s| == 0 || s[0] == 0 then [] else [s[0]] + CString(s[1..])
  }

  /** raw_check_password. `now` is the low 32 bits of the microsecond clock
      and `candidate` the digest of the password under the stored salt. With
      no password set only the empty password matches; otherwise attempts
      less than three seconds (in wrapping 32-bit arithmetic) after the last
      one are refused, and every other attempt is recorded. */
  function CheckPassword(ccd: Ccd, password: seq<bv8>, now: Time32, candidate: seq<bv8>): (r: (EcError, Ccd))
    requires Valid(ccd)
    ensures Valid(r.1)
    ensures !HasPassword(ccd.config) ==>
              r.1 == ccd && (r.0 == Success <==> |password| == 0) && (r.0 != Success ==> r.0 == AccessDenied)
    ensures HasPassword(ccd.config) && Elapsed(now, ccd.lastPasswordTime) < PasswordRateLimit ==>
              r == (Busy, ccd)
    ensures HasPassword(ccd.config) && Elapsed(now, ccd.lastPasswordTime) >= PasswordRateLimit ==>
              && r.1 == ccd.(lastPasswordTime := now)
              && (r.0 == Success <==> candidate == ccd.config.digest)
              && (r.0 != Success ==> r.0 == AccessDenied)
  {
    if !HasPassword(ccd.config) then
      (if |password| > 0 then AccessDenied else Success, ccd)
    else if Elapsed(now, ccd.lastPasswordTime) < PasswordRateLimit then (Busy, ccd)
    else
      var ccd1 := ccd.(lastPasswordTime := now);
      if candidate != ccd.config.digest then (AccessDenied, ccd1) else (Success, ccd1)
  }

  /** `t - last` in unsigned 32-bit arithmetic. */
  function Elapsed(t: Time32, last: Time32): (e: Time32)
    ensures t >= last ==> e == t - last
    ensures t < last ==> e == t - last + Wrap
  {
    (t - last) % Wrap
  }

  /** The 32-bit clock `d` microseconds after `t`. */
  function Later(t: Time32, d: nat): Time32 {
    (t + d) % Wrap
  }

  /** Two attempts less than three seconds apart, whether or not the clock
      wraps between them: the second is refused. */
  lemma RateLimited(ccd: Ccd, p1: seq<bv8>, p2: seq<bv8>, t: Time32, d: nat, cand1: seq<bv8>, cand2: seq<bv8>)
    requires Valid(ccd) && HasPassword(ccd.config) && d < PasswordRateLimit
    requires CheckPassword(ccd, p1, t, cand1).0 != Busy
    ensures CheckPassword(CheckPassword(ccd, p1, t, cand1).1, p2, Later(t, d), cand2).0 == Busy
  {
    var after := CheckPassword(ccd, p1, t, cand1).1;
    assert after == ccd.(lastPasswordTime := t);
    assert Elapsed(Later(t, d), t) == d;
  }

  /** do_ccd_password. `salt` and `digest` are the fresh random salt and the
      digest of the new password under it. Refused when locked, and when only
      unlocked while the existing password was set in the opened state; the
      word "clear" (in any case) clears the password. */
  function DoPassword(ccd: Ccd, password: seq<bv8>, salt: seq<bv8>, digest: seq<bv8>): (r: (EcError, Ccd))
    requires Valid(ccd) && |salt| == 4 && |digest| == 16
    ensures Valid(r.1) && r.1.state == ccd.state
    ensures ccd.state == Locked ==> r == (AccessDenied, ccd)
    ensures (HasPassword(ccd.config) && ccd.state == Unlocked
             && !GetFlag(ccd, {FlagPasswordSetWhenUnlocked})) ==> r == (AccessDenied, ccd)
    ensures (ccd.state != Locked
             && !(HasPassword(ccd.config) && ccd.state == Unlocked
                  && !GetFlag(ccd, {FlagPasswordSetWhenUnlocked}))) ==>
              r.0 == Success
    ensures r.0 != Success ==> r.1 == ccd
    ensures r.0 == Success && EqualsIgnoreCase(password, ClearWord) ==> !HasPassword(r.1.config)
    ensures r.0 == Success && !EqualsIgnoreCase(password, ClearWord) ==>
              r.1.config.salt == salt && r.1.config.digest == digest
              && (FlagPasswordSetWhenUnlocked in r.1.config.flags <==> ccd.state == Unlocked)
    ensures r.0 == Success ==> r.1.config.caps == ccd.config.caps
  {
    if ccd.state == Locked then (AccessDenied, ccd)
    else if HasPassword(ccd.config) && ccd.state == Unlocked
            && !GetFlag(ccd, {FlagPasswordSetWhenUnlocked}) then (AccessDenied, ccd)
    else if EqualsIgnoreCase(password, ClearWord) then
      (Success, ccd.(config := RawResetPassword(ccd.config)))
    else (Success, ccd.(config := RawSetPassword(ccd.config, ccd.state, salt, digest)))
  }

  /** A password set while opened survives every password command issued
      while only unlocked. */
  lemma OpenedPasswordSticks(ccd: Ccd, password: seq<bv8>, salt: seq<bv8>, digest: seq<bv8>)
    requires Valid(ccd) && |salt| == 4 && |digest| == 16 && ccd.loaded && !ccd.forceDisabled
    requires ccd.state == Opened && !EqualsIgnoreCase(password, ClearWord)
    requires salt != Zeros(4)
    ensures var c1 := DoPassword(ccd, password, salt, digest).1.(state := Unlocked);
            forall p, s, d | |s| == 4 && |d| == 16 :: DoPassword(c1, p, s, d) == (AccessDenied, c1)
  {
    var c1 := DoPassword(ccd, password, salt, digest).1;
    assert c1.config.salt == salt;
    assert exists i | 0 <= i < 4 :: salt[i] != 0;
  }

  // ---------------------------------------------------------------------
  // State commands.

  /** The board's answers to the questions the open and unlock commands ask. */
  datatype Board = Board(
    fwmpAllowsUnlock: bool,
    physicalDetectBusy: bool,
    batteryPresent: bool,
    tpmWipeSucceeds: bool)

  /** What a state command leaves to be done: nothing, abort a running
      physical-presence check, or start one (long or short) whose success
      completes the command. */
  datatype Pending = NoPending | AbortPresence | StartPresence(long: bool)

  /** ccd_open_done: without the OpenNoTPMWipe capability the TPM must be
      wiped first, and a failed wipe leaves the state alone. The AP is
      rebooted unless UnlockNoReboot is enabled. Returns the new context and
      whether the AP is rebooted. */
  function OpenDone(ccd: Ccd, wipeSucceeds: bool): (r: (Ccd, bool))
    requires Valid(ccd)
    ensures Valid(r.0)
    ensures !IsCapEnabled(ccd, CapOpenWithoutTpmWipe) && !wipeSucceeds ==> r == (ccd, false)
    ensures IsCapEnabled(ccd, CapOpenWithoutTpmWipe) || wipeSucceeds ==>
              r.0 == ccd.(state := Opened) && (r.1 <==> !IsCapEnabled(ccd, CapUnlockWithoutApReboot))
  {
    if !IsCapEnabled(ccd, CapOpenWithoutTpmWipe) && !wipeSucceeds then (ccd, false)
    else (SetState(ccd, Opened).0, !IsCapEnabled(ccd, CapUnlockWithoutApReboot))
  }

  /** ccd_unlock_done. */
  function UnlockDone(ccd: Ccd): (r: (Ccd, bool))
    requires Valid(ccd)
    ensures r.0 == ccd.(state := Unlocked)
    ensures r.1 <==> !IsCapEnabled(ccd, CapUnlockWithoutApReboot)
  {
    (SetState(ccd, Unlocked).0, !IsCapEnabled(ccd, CapUnlockWithoutApReboot))
  }

  /** The result of an open or unlock command. */
  datatype Outcome = Outcome(err: EcError, ccd: Ccd, pending: Pending, rebootAp: bool)

  /** command_ccd_open. `password` is absent when no argument was given and
      `candidate` is the digest of the given password under the stored salt. */
  function Open(ccd: Ccd, password: Option<seq<bv8>>, now: Time32, candidate: seq<bv8>, board: Board): (r: Outcome)
    requires Valid(ccd)
    ensures Valid(r.ccd)
    ensures ccd.forceDisabled ==> r == Outcome(AccessDenied, ccd, NoPending, false)
    ensures !ccd.forceDisabled && ccd.state == Opened ==> r == Outcome(Success, ccd, NoPending, false)
    ensures r.ccd.state != ccd.state ==> r.ccd.state == Opened
    ensures r.err != Success ==> r.ccd.state == ccd.state && r.pending != StartPresence(false) && r.pending != StartPresence(true)
  {
    if ccd.forceDisabled then Outcome(AccessDenied, ccd, NoPending, false)
    else if ccd.state == Opened then Outcome(Success, ccd, NoPending, false)
    else
      var (err, ccd1) :=
        if HasPassword(ccd.config) then
          (if password.None? then (ParamCount, ccd)
           else CheckPassword(ccd, password.value, now, candidate))
        else if !board.fwmpAllowsUnlock then (AccessDenied, ccd)
        else (Success, ccd);
      if err != Success then Outcome(err, ccd1, NoPending, false)
      else if board.physicalDetectBusy then Outcome(Busy, ccd1, AbortPresence, false)
      else
        var isLong := !IsCapEnabled(ccd1, CapOpenWithoutLongPp);
        var needPp :=
          (isLong || !IsCapEnabled(ccd1, CapUnlockWithoutShortPp))
          && !(IsCapEnabled(ccd1, CapRemoveBatteryBypassesPp) && !board.batteryPresent);
        if needPp then Outcome(Success, ccd1, StartPresence(isLong), false)
        else
          var (ccd2, reboot) := OpenDone(ccd1, board.tpmWipeSucceeds);
          Outcome(Success, ccd2, NoPending, reboot)
  }

  /** command_ccd_unlock. */
  function Unlock(ccd: Ccd, password: Option<seq<bv8>>, now: Time32, candidate: seq<bv8>, board: Board): (r: Outcome)
    requires Valid(ccd)
    ensures Valid(r.ccd)
    ensures ccd.forceDisabled ==> r == Outcome(AccessDenied, ccd, NoPending, false)
    ensures !ccd.forceDisabled && ccd.state == Unlocked ==> r == Outcome(Success, ccd, NoPending, false)
    ensures !ccd.forceDisabled && ccd.state == Opened ==>
              r.err == Success && r.ccd == ccd.(state := Unlocked) && r.pending == NoPending
    ensures r.ccd.state != ccd.state ==> r.ccd.state == Unlocked
    ensures r.err != Success ==> r.ccd.state == ccd.state
  {
    if ccd.forceDisabled then Outcome(AccessDenied, ccd, NoPending, false)
    else if ccd.state == Unlocked then Outcome(Success, ccd, NoPending, false)
    else if ccd.state == Opened then
      var (ccd1, reboot) := UnlockDone(ccd);
      Outcome(Success, ccd1, NoPending, reboot)
    else
      var (err, ccd1) :=
        if HasPassword(ccd.config) then
          (if password.None? then (ParamCount, ccd)
           else CheckPassword(ccd, password.value, now, candidate))
        else if !board.fwmpAllowsUnlock then (AccessDenied, ccd)
        else (Success, ccd);
      if err != Success then Outcome(err, ccd1, NoPending, false)
      else if board.physicalDetectBusy then Outcome(Busy, ccd1, AbortPresence, false)
      else
        var needPp :=
          !IsCapEnabled(ccd1, CapUnlockWithoutShortPp)
          && !(IsCapEnabled(ccd1, CapRemoveBatteryBypassesPp) && !board.batteryPresent);
        if needPp then Outcome(Success, ccd1, StartPresence(false), false)
        else
          var (ccd2, reboot) := UnlockDone(ccd1);
          Outcome(Success, ccd2, NoPending, reboot)
  }

  /** Opening never skips the physical-presence check unless a capability
      allows it: without OpenNoLongPP, and with the battery present, an open
      from LOCKED or UNLOCKED leaves the state alone and, when the password
      checks pass, starts the long check. */
  lemma OpenNeedsPresence(ccd: Ccd, password: Option<seq<bv8>>, now: Time32, candidate: seq<bv8>, board: Board)
    requires Valid(ccd) && !ccd.forceDisabled && ccd.state != Opened
    requires !IsCapEnabled(ccd, CapOpenWithoutLongPp) && board.batteryPresent
    ensures var r := Open(ccd, password, now, candidate, board);
            && r.ccd.state == ccd.state
            && (r.err == Success ==> r.pending == StartPresence(true))
  {
  }

  /** Likewise unlocking from LOCKED: without UnlockNoShortPP, and with the
      battery present, it starts the short check and leaves the state alone. */
  lemma UnlockNeedsPresence(ccd: Ccd, password: Option<seq<bv8>>, now: Time32, candidate: seq<bv8>, board: Board)
    requires Valid(ccd) && !ccd.forceDisabled && ccd.state == Locked
    requires !IsCapEnabled(ccd, CapUnlockWithoutShortPp) && board.batteryPresent
    ensures var r := Unlock(ccd, password, now, candidate, board);
            && r.ccd.state == Locked
            && (r.err == Success ==> r.pending == StartPresence(false))
  {
  }

  /** command_ccd_lock: always succeeds. */
  function Lock(ccd: Ccd): (r: (EcError, Ccd))
    ensures r == (Success, ccd.(state := Locked))
  {
    (Success, SetState(ccd, Locked).0)
  }

  /** command_ccd_reset: `arg` is the optional word after "reset". */
  function CommandReset(ccd: Ccd, arg: Option<seq<bv8>>): (r: (EcError, Ccd))
    requires Valid(ccd)
    ensures Valid(r.1)
    ensures arg.Some? && !EqualsIgnoreCase(arg.value, RmaWord) ==> r == (Param1, ccd)
    ensures r.0 == AccessDenied <==>
              ccd.state == Locked && (arg.None? || EqualsIgnoreCase(arg.value, RmaWord))
    ensures ccd.state != Locked && (arg.None? || EqualsIgnoreCase(arg.value, RmaWord)) ==> r.0 == Success
    ensures r.0 != Success ==> r.1 == ccd
    ensures r.0 == Success && ccd.state == Unlocked ==>
              r.1 == ResetConfig(ccd, ResetOptions(true, false, false))
    ensures r.0 == Success && ccd.state == Opened ==>
              r.1 == ResetConfig(ccd, ResetOptions(false, arg.Some?, false))
  {
    if arg.Some? && !EqualsIgnoreCase(arg.value, RmaWord) then (Param1, ccd)
    else match ccd.state
      case Opened => (Success, ResetConfig(ccd, ResetOptions(false, arg.Some?, false)))
      case Unlocked => (Success, ResetConfig(ccd, ResetOptions(true, false, false)))
      case Locked => (AccessDenied, ccd)
  }

  /** ccd_disable: force-disable and lock. Nothing can be opened, unlocked
      or flagged afterwards. */
  function Disable(ccd: Ccd): (r: Ccd)
    ensures r.forceDisabled && r.state == Locked
    ensures r.config == ccd.config && r.loaded == ccd.loaded
  {
    SetState(ccd.(forceDisabled := true), Locked).0
  }

  // ---------------------------------------------------------------------
  // Password-permission phase (vendor commands).

  datatype PasswordPhase = PostReset | PasswordAllowed | PasswordNotAllowed

  datatype VendorRc = VendorSuccess | VendorInternalError | VendorBogusArgs | VendorNotAllowed

  /** The reply of a vendor command: its status, the error byte of the
      response when one is sent, and the new phase. */
  datatype Reply = Reply(rc: VendorRc, error: Option<EcError>, phase: PasswordPhase)

  /** ccd_tpm_reset_callback: a TPM startup re-opens the window. */
  function TpmReset(): (r: PasswordPhase)
    ensures ManagePassword(r, [1]).phase == PasswordAllowed
    ensures ManagePassword(r, [0]).phase == PasswordNotAllowed
  {
    PostReset
  }

  /** manage_ccd_password: a one-byte Boolean. False closes the window;
      true opens it, but only right after a TPM reset, and otherwise closes
      it too and is reported as bogus. */
  function ManagePassword(phase: PasswordPhase, input: seq<bv8>): (r: Reply)
    ensures |input| != 1 ==> r == Reply(VendorInternalError, Some(Param1), phase)
    ensures |input| == 1 && input[0] == 0 ==> r == Reply(VendorSuccess, None, PasswordNotAllowed)
    ensures r.phase == PasswordAllowed && phase != PasswordAllowed ==>
              phase == PostReset && |input| == 1 && input[0] != 0
    ensures |input| == 1 && r.phase != PasswordAllowed ==> r.phase == PasswordNotAllowed
    ensures |input| == 1 && input[0] != 0 && phase == PostReset ==>
              r == Reply(VendorSuccess, None, PasswordAllowed)
    ensures |input| == 1 && input[0] != 0 && phase != PostReset ==>
              r == Reply(VendorBogusArgs, Some(Inval), PasswordNotAllowed)
    ensures r.rc == VendorSuccess <==> r.error.None?
  {
    if |input| != 1 then Reply(VendorInternalError, Some(Param1), phase)
    else if input[0] == 0 then Reply(VendorSuccess, None, PasswordNotAllowed)
    else if phase == PostReset then Reply(VendorSuccess, None, PasswordAllowed)
    else Reply(VendorBogusArgs, Some(Inval), PasswordNotAllowed)
  }

  /** The phase after a sequence of manage commands. */
  function ManageAll(phase: PasswordPhase, inputs: seq<seq<bv8>>): PasswordPhase
    decreases |inputs|
  {
    if |inputs| == 0 then phase
    else ManageAll(ManagePassword(phase, inputs[0]).phase, inputs[1..])
  }

  /** Once closed, the window stays closed until the next TPM reset,
      whatever manage commands arrive. */
  lemma {:induction false} NotAllowedSticks(inputs: seq<seq<bv8>>)
    ensures ManageAll(PasswordNotAllowed, inputs) == PasswordNotAllowed
    decreases |inputs|
  {
    if |inputs| > 0 {
      NotAllowedSticks(inputs[1..]);
    }
  }

  /** ccd_password: sets or clears the password, only while the window is
      open and only for 1 to 40 bytes; the bytes are taken as a C string. */
  function CcdPassword(ccd: Ccd, phase: PasswordPhase, input: seq<bv8>, salt: seq<bv8>, digest: seq<bv8>): (r: (VendorRc, Option<EcError>, Ccd))
    requires Valid(ccd) && |salt| == 4 && |digest| == 16
    ensures Valid(r.2)
    ensures phase != PasswordAllowed ==> r == (VendorNotAllowed, Some(AccessDenied), ccd)
    ensures phase == PasswordAllowed && (|input| == 0 || |input| > MaxPasswordSize) ==>
              r == (VendorInternalError, Some(Param1), ccd)
    ensures phase == PasswordAllowed && 0 < |input| <= MaxPasswordSize ==>
              var (err, c1) := DoPassword(ccd, CString(input), salt, digest);
              r.2 == c1 && (r.0 == VendorSuccess <==> err == Success)
    ensures r.0 != VendorSuccess ==> r.2 == ccd
  {
    if phase != PasswordAllowed then (VendorNotAllowed, Some(AccessDenied), ccd)
    else if |input| == 0 || |input| > MaxPasswordSize then (VendorInternalError, Some(Param1), ccd)
    else
      var (err, c1) := DoPassword(ccd, CString(input), salt, digest);
      if err != Success then (VendorInternalError, Some(err), c1)
      else (VendorSuccess, None, c1)
  }
}

=== FILE: cec_cursor.dfy ===
/** The bit/byte cursor the CEC engine uses to walk a frame buffer, most
    significant bit first (msgt_get_bit, msgt_set_bit, msgt_inc_bit and
    msgt_is_eom in chip/npcx/cec.c). */
module CecCursor {

  /** MAX_CEC_MSG_LEN: the largest CEC frame, in bytes. */
  const MaxMsgLen: nat := 16

  /** A frame buffer with a cursor. `bit` and `byte` are 8-bit counters in
      the source, so `bit` is kept below 256 and wraps. */
  datatype MsgTransfer = MsgTransfer(buf: seq<bv8>, bit: nat, byte: nat)

  /** What every cursor the engine builds satisfies: the buffer has its fixed
      size, the byte offset never passes the end, and while the cursor is
      inside the buffer the bit offset names a bit of the current byte. */
  predicate Valid(m: MsgTransfer) {
    && |m.buf| == MaxMsgLen
    && m.bit < 256
    && m.byte <= MaxMsgLen
    && (m.byte < MaxMsgLen ==> m.bit < 8)
  }

  /** A zeroed cursor over a zeroed buffer, as after `memset`. */
  function Zero(): (m: MsgTransfer)
    ensures Valid(m) && m.bit == 0 && m.byte == 0
    ensures forall i | 0 <= i < |m.buf| :: m.buf[i] == 0
  {
    MsgTransfer(seq(MaxMsgLen, _ => 0), 0, 0)
  }

  /** Bit `bit` (0 = most significant) of a byte: the reading order of the
      bus, stated independently of the mask the engine uses. */
  predicate BitOf(x: bv8, bit: nat)
    requires bit < 8
  {
    if bit == 0 then (x >> 7) & 1 == 1 else if bit == 1 then (x >> 6) & 1 == 1
    else if bit == 2 then (x >> 5) & 1 == 1 else if bit == 3 then (x >> 4) & 1 == 1
    else if bit == 4 then (x >> 3) & 1 == 1 else if bit == 5 then (x >> 2) & 1 == 1
    else if bit == 6 then (x >> 1) & 1 == 1 else x & 1 == 1
  }

  /** Bit `bit` of byte `i` of a buffer. */
  predicate BitAt(buf: seq<bv8>, i: nat, bit: nat)
    requires i < |buf| && bit < 8
  {
    BitOf(buf[i], bit)
  }

  /** The mask `0x80 >> bit`, bit by bit. */
  function Flag(bit: nat): bv8
    requires bit < 8
  {
    if bit == 0 then 0x80 else if bit == 1 then 0x40 else if bit == 2 then 0x20
    else if bit == 3 then 0x10 else if bit == 4 then 0x08 else if bit == 5 then 0x04
    else if bit == 6 then 0x02 else 0x01
  }

  /** Which bit a single-bit mask selects. */
  function FlagIndex(f: bv8): nat {
    if f == 0x80 then 0 else if f == 0x40 then 1 else if f == 0x20 then 2
    else if f == 0x10 then 3 else if f == 0x08 then 4 else if f == 0x04 then 5
    else if f == 0x02 then 6 else 7
  }

  /** `0x80 >> bit` is a single-bit mask, it selects bit `bit` counted from
      the most significant end, and distinct bits have distinct masks. */
  lemma FlagFacts(x: bv8, bit: nat)
    requires bit < 8
    ensures Flag(bit) != 0 && Flag(bit) & (Flag(bit) - 1) == 0
    ensures FlagIndex(Flag(bit)) == bit
    ensures (x & Flag(bit) != 0) == BitOf(x, bit)
  {
    if bit == 0 {} else if bit == 1 {} else if bit == 2 {} else if bit == 3 {}
    else if bit == 4 {} else if bit == 5 {} else if bit == 6 {} else {}
  }

  /** Clearing and then optionally setting the mask of `bit` changes that bit
      to `val` and no other bit. */
  lemma WrittenByte(old_: bv8, bit: nat, val: bool, b: nat)
    requires bit < 8 && b < 8
    ensures var w := if val then (old_ & !Flag(bit)) | Flag(bit) else old_ & !Flag(bit);
            BitOf(w, b) == if b == bit then val else BitOf(old_, b)
  {
    var w := if val then (old_ & !Flag(bit)) | Flag(bit) else old_ & !Flag(bit);
    FlagFacts(old_, bit);
    FlagFacts(old_, b);
    FlagFacts(w, b);
    var x, y := Flag(bit), Flag(b);
    if b != bit {
      assert x != y;
      assert x & y == 0;
    }
  }

  /** Linear position of the cursor in bits from the start of the frame. */
  function Pos(m: MsgTransfer): nat {
    8 * m.byte + m.bit
  }

  /** msgt_get_bit: the bit under the cursor, and 0 once the cursor is past
      the end of the buffer. */
  function GetBit(m: MsgTransfer): (r: bool)
    requires Valid(m)
    ensures m.byte >= MaxMsgLen ==> !r
    ensures m.byte < MaxMsgLen ==> (r <==> BitAt(m.buf, m.byte, m.bit))
  {
    if m.byte >= MaxMsgLen then false
    else
      FlagFacts(m.buf[m.byte], m.bit);
      m.buf[m.byte] & Flag(m.bit) != 0
  }

  /** The byte update of msgt_set_bit: clear the mask of `bit`, then set it
      again when `val` holds. Exactly bit `bit` changes. */
  function WriteBit(x: bv8, bit: nat, val: bool): (w: bv8)
    requires bit < 8
    ensures BitOf(w, bit) == val
    ensures forall b | 0 <= b < 8 && b != bit :: BitOf(w, b) == BitOf(x, b)
  {
    var cleared := x & !Flag(bit);
    var w := if val then cleared | Flag(bit) else cleared;
    WriteBitSpec(x, bit, val);
    w
  }

  lemma WriteBitSpec(x: bv8, bit: nat, val: bool)
    requires bit < 8
    ensures var w := if val then (x & !Flag(bit)) | Flag(bit) else x & !Flag(bit);
      BitOf(w, bit) == val && forall b | 0 <= b < 8 && b != bit :: BitOf(w, b) == BitOf(x, b)
  {
    var w := if val then (x & !Flag(bit)) | Flag(bit) else x & !Flag(bit);
    WrittenByte(x, bit, val, bit);
    forall b | 0 <= b < 8 && b != bit
      ensures BitOf(w, b) == BitOf(x, b)
    {
      WrittenByte(x, bit, val, b);
    }
  }

  /** msgt_set_bit: write the bit under the cursor; nothing happens once the
      cursor is past the end of the buffer. A following GetBit reads back the
      written value, and every other bit of the buffer is unchanged. */
  function SetBit(m: MsgTransfer, val: bool): (r: MsgTransfer)
    requires Valid(m)
    ensures Valid(r) && r.bit == m.bit && r.byte == m.byte
    ensures m.byte >= MaxMsgLen ==> r == m
    ensures m.byte < MaxMsgLen ==> GetBit(r) == val
    ensures forall i, b | 0 <= i < MaxMsgLen && 0 <= b < 8 && (i != m.byte || b != m.bit) ::
              BitAt(r.buf, i, b) == BitAt(m.buf, i, b)
  {
    if m.byte >= MaxMsgLen then m
    else m.(buf := m.buf[m.byte := WriteBit(m.buf[m.byte], m.bit, val)])
  }

  /** msgt_inc_bit: advance by one bit. Inside the buffer this moves the
      linear position forward by exactly one, wrapping bit 8 to bit 0 of the
      next byte; at the end of the buffer the byte offset stays put and only
      the 8-bit bit counter moves. */
  function IncBit(m: MsgTransfer): (r: MsgTransfer)
    requires Valid(m)
    ensures Valid(r) && r.buf == m.buf
    ensures r.byte <= MaxMsgLen
    ensures m.byte < MaxMsgLen ==> Pos(r) == Pos(m) + 1 && r.bit < 8
    ensures m.byte < MaxMsgLen && m.bit < 7 ==> r.byte == m.byte && r.bit == m.bit + 1
    ensures m.byte < MaxMsgLen && m.bit == 7 ==> r.byte == m.byte + 1 && r.bit == 0
    ensures m.byte >= MaxMsgLen ==> r.byte == m.byte && r.bit == (m.bit + 1) % 256
  {
    var b := (m.bit + 1) % 256;
    if b == 8 then
      if m.byte >= MaxMsgLen then m.(bit := b)
      else m.(bit := 0, byte := m.byte + 1)
    else m.(bit := b)
  }

  /** msgt_is_eom: the cursor sits exactly at the end of a `len`-byte frame. */
  function IsEom(m: MsgTransfer, len: int): (r: bool)
    requires Valid(m)
    ensures r <==> 0 <= len <= MaxMsgLen && Pos(m) == 8 * len
  {
    if m.bit != 0 then false else m.byte == len
  }

  /** The cursor with both offsets reset to zero, buffer untouched. */
  function Rewind(m: MsgTransfer): (r: MsgTransfer)
    requires Valid(m)
    ensures Valid(r) && r.buf == m.buf && Pos(r) == 0
  {
    m.(bit := 0, byte := 0)
  }
}

=== FILE: cec_engine.dfy ===
/** The CEC protocol engine of chip/npcx/cec.c as pure step functions.

    The source drives one physical bus from timer interrupts: on entry to a
    state it sets the line, arms an edge capture or a oneshot timeout, and two
    handlers move it on when the capture fires or the timeout expires. Here
    the engine is an immutable record, the hardware it would program is
    returned as data (`Hw`), and what it would read from the hardware (the
    elapsed ticks of a capture, the sampled line level) is passed in as a
    `Sample`. */
module CecEngine {
  import opened Wrappers
  import opened CecCursor
  import opened CecTiming

  /** CEC_BROADCAST_ADDR, also the highest logical address. */
  const BroadcastAddr: nat := 15

  /** CEC_MAX_RESENDS: section CEC 7.1 allows one to five resends. */
  const MaxResends: nat := 5

  /** The 29 states of `enum cec_state`. */
  datatype State =
    | Disabled
    | Idle
    | InitiatorFreeTime
    | InitiatorStartLow
    | InitiatorStartHigh
    | InitiatorHeaderInitLow
    | InitiatorHeaderInitHigh
    | InitiatorHeaderDestLow
    | InitiatorHeaderDestHigh
    | InitiatorDataLow
    | InitiatorDataHigh
    | InitiatorEomLow
    | InitiatorEomHigh
    | InitiatorAckLow
    | InitiatorAckHigh
    | InitiatorAckVerify
    | FollowerStartLow
    | FollowerStartHigh
    | FollowerHeaderInitLow
    | FollowerHeaderInitHigh
    | FollowerHeaderDestLow
    | FollowerHeaderDestHigh
    | FollowerEomLow
    | FollowerEomHigh
    | FollowerAckLow
    | FollowerAckVerify
    | FollowerAckFinish
    | FollowerDataLow
    | FollowerDataHigh

  /** Edge the capture timer triggers on. */
  datatype Edge = Falling | Rising

  /** What the engine does to the CEC line on entering a state. */
  datatype LineCmd = Unchanged | SetLine(high: bool)

  /** What the engine programs into the timer: nothing, a capture on an edge
      with a timeout (0 meaning no timeout), or a plain oneshot timeout. */
  datatype TimerCmd = NoTimer | Capture(edge: Edge, timeout: int) | Oneshot(timeout: int)

  /** The hardware actions of one state entry. */
  datatype Hw = Hw(line: LineCmd, timer: TimerCmd)

  /** Notifications queued for the host (EC_MKBP_CEC_SEND_OK / _FAILED). */
  datatype Event = SendOk | SendFailed

  /** struct cec_rx: the frame being received. */
  datatype Rx = Rx(msgt: MsgTransfer, eom: bool, broadcastNak: bool, lowTime: int)

  /** struct cec_tx: the frame being sent; `len == 0` means none is queued. */
  datatype Tx = Tx(msgt: MsgTransfer, len: nat, resends: nat, ack: bool)

  /** The whole engine: state, receive and transmit contexts, pending host
      events, our own logical address, the timer clock divided by 10 kHz, and
      whether the secondary oneshot that admits a queued frame is armed. */
  datatype Engine = Engine(
    state: State,
    rx: Rx,
    tx: Tx,
    events: set<Event>,
    addr: nat,
    freq: nat,
    txTimerArmed: bool)

  /** What the hardware reports with an interrupt: ticks elapsed since the
      capture timer was started, and the current line level. */
  datatype Sample = Sample(elapsed: nat, lineHigh: bool)

  /** The engine after a state entry, and the hardware actions it performs. */
  datatype Step = Step(engine: Engine, hw: Hw)

  /** The invariant every reachable engine satisfies. */
  predicate Invariant(e: Engine) {
    && CecCursor.Valid(e.rx.msgt)
    && CecCursor.Valid(e.tx.msgt)
    && e.tx.len <= MaxMsgLen
    && e.tx.resends <= MaxResends
    && ValidFreq(e.freq)
  }

  /** What a bus event leaves alone: our address, the clock, the pending
      send request and the queued frame's contents, and the host events. */
  predicate Keeps(e: Engine, r: Engine) {
    && r.addr == e.addr && r.freq == e.freq && r.txTimerArmed == e.txTimerArmed
    && r.tx.len == e.tx.len && r.tx.resends == e.tx.resends
    && r.tx.msgt.buf == e.tx.msgt.buf && r.events == e.events
  }

  /** The low nibble of the header byte: the frame's destination. */
  function Dest(m: MsgTransfer): nat
    requires CecCursor.Valid(m)
  {
    (m.buf[0] & 0x0f) as nat
  }

  predicate IsBroadcast(m: MsgTransfer)
    requires CecCursor.Valid(m)
  {
    Dest(m) == BroadcastAddr
  }

  /** The states in which the engine is receiving someone else's frame and
      waiting for the next edge; a timeout in any of them is a violation. */
  predicate FollowerReceiving(s: State) {
    match s
    case FollowerStartLow | FollowerStartHigh | FollowerHeaderInitLow
       | FollowerHeaderInitHigh | FollowerHeaderDestLow | FollowerHeaderDestHigh
       | FollowerEomLow | FollowerEomHigh | FollowerAckFinish | FollowerDataLow
       | FollowerDataHigh => true
    case _ => false
  }

  /** The phases in which the initiator holds the line low: the low part
      of the start bit, of every header, data and EOM bit, and of the ACK
      slot it opens. */
  predicate InitiatorLowPhase(s: State) {
    || s == InitiatorStartLow || s == InitiatorHeaderInitLow || s == InitiatorHeaderDestLow
    || s == InitiatorDataLow || s == InitiatorEomLow || s == InitiatorAckLow
  }

  /** The states of a follower, which only listens to someone else's frame. */
  predicate FollowerState(s: State) {
    FollowerReceiving(s) || s == FollowerAckLow || s == FollowerAckVerify
  }

  /** The high phases after which the initiator advances its cursor. */
  predicate TxBitHigh(s: State) {
    s == InitiatorHeaderInitHigh || s == InitiatorHeaderDestHigh || s == InitiatorDataHigh
  }

  /** The low and high phases of a header or data bit being received. */
  predicate RxBitLow(s: State) {
    s == FollowerHeaderInitLow || s == FollowerHeaderDestLow || s == FollowerDataLow
  }
  predicate RxBitHigh(s: State) {
    s == FollowerHeaderInitHigh || s == FollowerHeaderDestHigh || s == FollowerDataHigh
  }

  /** The states in which the initiator still contends for the bus: a falling
      edge there means another initiator is sending. */
  predicate Contending(s: State) {
    s == InitiatorFreeTime || s == InitiatorStartHigh || s == InitiatorHeaderInitHigh
  }

  /** The zeroed contexts left by `memset` when the engine is disabled. */
  function ZeroRx(): Rx { Rx(Zero(), false, false, 0) }
  function ZeroTx(): Tx { Tx(Zero(), 0, 0, false) }

  /** The engine at boot: disabled, everything zero, address 5. */
  function Boot(freq: nat): (e: Engine)
    requires ValidFreq(freq)
    ensures Invariant(e) && e.state == Disabled && e.tx.len == 0
  {
    Engine(Disabled, ZeroRx(), ZeroTx(), {}, 5, freq, false)
  }

  /** Entering IDLE: both cursors go back to the start; a frame still queued
      (postponed by a receive or by lost arbitration) is started at once by
      entering FREE_TIME, otherwise the engine releases the line and waits
      for a falling edge with no timeout. */
  function EnterIdle(e: Engine): (r: Step)
    requires Invariant(e)
    ensures Invariant(r.engine)
    ensures Pos(r.engine.tx.msgt) == 0 && Pos(r.engine.rx.msgt) == 0
    ensures r.engine.state == (if e.tx.len > 0 then InitiatorFreeTime else Idle)
    ensures r.engine.tx.len == e.tx.len && r.engine.tx.resends == e.tx.resends
    ensures r.engine.tx.msgt.buf == e.tx.msgt.buf && r.engine.rx.msgt.buf == e.rx.msgt.buf
    ensures r.engine.events == e.events
    ensures e.tx.len == 0 ==> r.hw == Hw(SetLine(true), Capture(Falling, 0))
  {
    var e1 := e.(state := Idle,
                 tx := e.tx.(msgt := Rewind(e.tx.msgt)),
                 rx := e.rx.(msgt := Rewind(e.rx.msgt)));
    if e1.tx.len > 0 then EnterFreeTime(e1)
    else Step(e1, Hw(SetLine(true), Capture(Falling, 0)))
  }

  /** Entering FREE_TIME: release the line and wait the signal free time of
      section CEC 9, three bit periods before a resend and five before a new
      frame; a falling edge meanwhile means another initiator won. */
  function EnterFreeTime(e: Engine): (r: Step)
    requires Invariant(e)
    ensures Invariant(r.engine) && r.engine == e.(state := InitiatorFreeTime)
    ensures r.hw.line == SetLine(true)
    ensures e.tx.resends > 0 ==> r.hw.timer == Capture(Falling, FreeTimeResend(e.freq))
    ensures e.tx.resends == 0 ==> r.hw.timer == Capture(Falling, FreeTimeNewInitiator(e.freq))
  {
    var timeout := if e.tx.resends != 0 then FreeTimeResend(e.freq) else FreeTimeNewInitiator(e.freq);
    Step(e.(state := InitiatorFreeTime), Hw(SetLine(true), Capture(Falling, timeout)))
  }

  /** enter_state: make `s` the current state and perform its entry action.
      `lineHigh` is the line level read by gpio_get_level, which only the
      two ACK_VERIFY states consult. */
  function EnterState(e: Engine, s: State, lineHigh: bool): (r: Step)
    requires Invariant(e)
    ensures Invariant(r.engine)
    ensures r.engine.addr == e.addr && r.engine.freq == e.freq
    ensures r.engine.txTimerArmed == e.txTimerArmed
    ensures r.engine.state == (if s == Idle && e.tx.len > 0 then InitiatorFreeTime else s)
    ensures s != Disabled ==> Keeps(e, r.engine) && r.engine.rx.msgt.buf == e.rx.msgt.buf
    // Only IDLE and START_LOW move the transmit cursor (back to the start),
    // and only IDLE the receive cursor.
    ensures s != Disabled && s != Idle && s != InitiatorStartLow ==> r.engine.tx.msgt == e.tx.msgt
    ensures s == InitiatorStartLow ==> Pos(r.engine.tx.msgt) == 0
    ensures s != Disabled && s != Idle ==> r.engine.rx.msgt == e.rx.msgt
    ensures s == Disabled ==> r.engine.events == {} && r.engine.tx == ZeroTx() && r.engine.rx == ZeroRx()
    // The initiator's ACK flag: a directed frame is acknowledged when a
    // follower pulls the line low, a broadcast frame when nobody does.
    ensures s == InitiatorAckVerify ==>
              r.engine.tx.ack == (IsBroadcast(e.tx.msgt) == lineHigh)
    // A broadcast frame is lost when any follower pulls the ACK slot low.
    ensures s == FollowerAckVerify ==>
              r.engine.rx.broadcastNak == (IsBroadcast(e.rx.msgt) && !lineHigh)
    // Every other state's line and timer action is the one EntryHw gives.
    ensures s != Idle && s != InitiatorFreeTime ==> r.hw == EntryHw(e.(state := s))
  {
    var e := e.(state := s);
    if s == Idle then EnterIdle(e)
    else if s == InitiatorFreeTime then EnterFreeTime(e)
    else Step(Entered(e, lineHigh), EntryHw(e))
  }

  /** The engine part of entering `e.state` (other than IDLE and FREE_TIME):
      DISABLED zeroes both contexts and the events, START_LOW rewinds the
      transmit cursor, and the two ACK_VERIFY states sample the line. */
  function Entered(e: Engine, lineHigh: bool): (r: Engine)
    requires Invariant(e)
    ensures Invariant(r) && r.state == e.state
    ensures r.addr == e.addr && r.freq == e.freq && r.txTimerArmed == e.txTimerArmed
    ensures e.state != Disabled ==> Keeps(e, r) && r.rx.msgt == e.rx.msgt
    ensures e.state != Disabled && e.state != InitiatorStartLow ==> r.tx.msgt == e.tx.msgt
    ensures e.state == InitiatorStartLow ==> Pos(r.tx.msgt) == 0
    ensures e.state == Disabled ==> r.events == {} && r.tx == ZeroTx() && r.rx == ZeroRx()
    ensures e.state == InitiatorAckVerify ==> r.tx.ack == (IsBroadcast(e.tx.msgt) == lineHigh)
    ensures e.state == FollowerAckVerify ==> r.rx.broadcastNak == (IsBroadcast(e.rx.msgt) && !lineHigh)
  {
    match e.state
    case Disabled => e.(rx := ZeroRx(), tx := ZeroTx(), events := {})
    case InitiatorStartLow => e.(tx := e.tx.(msgt := Rewind(e.tx.msgt)))
    case InitiatorAckVerify =>
      var pulledLow := !lineHigh;
      e.(tx := e.tx.(ack := if IsBroadcast(e.tx.msgt) then !pulledLow else pulledLow))
    case FollowerAckVerify =>
      e.(rx := e.rx.(broadcastNak := IsBroadcast(e.rx.msgt) && !lineHigh))
    case _ => e
  }

  /** The hardware part of entering `e.state`: the line level driven and the
      timer armed. IDLE with a queued frame and FREE_TIME are handled by
      EnterIdle and EnterFreeTime. */
  function EntryHw(e: Engine): (r: Hw)
    requires Invariant(e)
    // The engine pulls the line low exactly in the initiator's low phases
    // and when, as a follower, it acknowledges a frame addressed to it.
    ensures r.line == SetLine(false) <==>
              InitiatorLowPhase(e.state) || (e.state == FollowerAckLow && Dest(e.rx.msgt) == e.addr)
    // A follower leaves the line alone except to acknowledge and to
    // release the acknowledgement.
    ensures FollowerState(e.state) && r.line != Unchanged ==>
              e.state == FollowerAckFinish
              || (e.state == FollowerAckLow && Dest(e.rx.msgt) == e.addr)
    // A broadcast frame not addressed to us is read on without being
    // acknowledged; for a frame neither ours nor broadcast nothing is
    // programmed at all.
    ensures e.state == FollowerAckLow && Dest(e.rx.msgt) != e.addr ==>
              r == (if IsBroadcast(e.rx.msgt) then Hw(Unchanged, Oneshot(NominalSampleTime(e.freq)))
                    else Hw(Unchanged, NoTimer))
    // The initiator's bit waveform: the low part lasts the low time of the
    // bit under the cursor (of the EOM flag for the EOM bit), the high part
    // its high time.
    ensures (e.state == InitiatorHeaderInitLow || e.state == InitiatorHeaderDestLow
             || e.state == InitiatorDataLow) ==>
              r == Hw(SetLine(false), Oneshot(DataLow(e.freq, GetBit(e.tx.msgt))))
    ensures (e.state == InitiatorHeaderDestHigh || e.state == InitiatorDataHigh) ==>
              r == Hw(SetLine(true), Oneshot(DataHigh(e.freq, GetBit(e.tx.msgt))))
    ensures e.state == InitiatorHeaderInitHigh ==>
              r == Hw(SetLine(true), Capture(Falling, DataHigh(e.freq, GetBit(e.tx.msgt))))
    ensures e.state == InitiatorEomLow ==>
              r == Hw(SetLine(false), Oneshot(DataLow(e.freq, IsEom(e.tx.msgt, e.tx.len))))
    ensures e.state == InitiatorStartLow ==> r == Hw(SetLine(false), Oneshot(StartBitLow(e.freq)))
    // The ACK slot is opened as a logical 1, which a follower stretches.
    ensures e.state == InitiatorAckLow ==> r == Hw(SetLine(false), Oneshot(DataOneLow(e.freq)))
    ensures e.state == Disabled ==> r.timer == NoTimer
  {
    var f := e.freq;
    match e.state
    case Disabled => Hw(SetLine(true), NoTimer)
    case Idle => Hw(SetLine(true), Capture(Falling, 0))
    case InitiatorFreeTime =>
      Hw(SetLine(true), Capture(Falling, if e.tx.resends != 0 then FreeTimeResend(f) else FreeTimeNewInitiator(f)))
    case InitiatorStartLow => Hw(SetLine(false), Oneshot(StartBitLow(f)))
    case InitiatorStartHigh => Hw(SetLine(true), Capture(Falling, StartBitHigh(f)))
    case InitiatorHeaderInitLow => Hw(SetLine(false), Oneshot(DataLow(f, GetBit(e.tx.msgt))))
    case InitiatorHeaderDestLow => Hw(SetLine(false), Oneshot(DataLow(f, GetBit(e.tx.msgt))))
    case InitiatorDataLow => Hw(SetLine(false), Oneshot(DataLow(f, GetBit(e.tx.msgt))))
    case InitiatorHeaderInitHigh => Hw(SetLine(true), Capture(Falling, DataHigh(f, GetBit(e.tx.msgt))))
    case InitiatorHeaderDestHigh => Hw(SetLine(true), Oneshot(DataHigh(f, GetBit(e.tx.msgt))))
    case InitiatorDataHigh => Hw(SetLine(true), Oneshot(DataHigh(f, GetBit(e.tx.msgt))))
    case InitiatorEomLow => Hw(SetLine(false), Oneshot(DataLow(f, IsEom(e.tx.msgt, e.tx.len))))
    case InitiatorEomHigh => Hw(SetLine(true), Oneshot(DataHigh(f, IsEom(e.tx.msgt, e.tx.len))))
    case InitiatorAckLow => Hw(SetLine(false), Oneshot(DataLow(f, true)))
    // Aim for the middle of the safe sample time.
    case InitiatorAckHigh => Hw(SetLine(true), Oneshot((DataOneLow(f) + DataZeroLow(f)) / 2 - DataOneLow(f)))
    case InitiatorAckVerify => Hw(Unchanged, Oneshot(NominalBitTime(f) - NominalSampleTime(f)))
    case FollowerStartLow => Hw(Unchanged, Capture(Rising, CapStartLow(f)))
    case FollowerStartHigh => Hw(Unchanged, Capture(Falling, CapStartHigh(f)))
    case FollowerHeaderInitLow => Hw(Unchanged, Capture(Rising, CapDataLow(f)))
    case FollowerHeaderDestLow => Hw(Unchanged, Capture(Rising, CapDataLow(f)))
    case FollowerEomLow => Hw(Unchanged, Capture(Rising, CapDataLow(f)))
    case FollowerHeaderInitHigh => Hw(Unchanged, Capture(Falling, CapDataHigh(f)))
    case FollowerHeaderDestHigh => Hw(Unchanged, Capture(Falling, CapDataHigh(f)))
    case FollowerEomHigh => Hw(Unchanged, Capture(Falling, CapDataHigh(f)))
    case FollowerAckLow =>
      if Dest(e.rx.msgt) == e.addr then
        // The frame is for us: acknowledge by holding the line low.
        Hw(SetLine(false), Oneshot(NominalSampleTime(f)))
      else if IsBroadcast(e.rx.msgt) then
        // Broadcast: do not pull the line, but go on reading.
        Hw(Unchanged, Oneshot(NominalSampleTime(f)))
      else
        // Neither ours nor broadcast: the source programs nothing here.
        Hw(Unchanged, NoTimer)
    // Release the ACK at the end of a data-zero low period.
    case FollowerAckVerify => Hw(Unchanged, Oneshot(DataZeroLow(f) - NominalSampleTime(f)))
    case FollowerAckFinish =>
      if e.rx.eom || e.rx.msgt.byte >= MaxMsgLen then Hw(SetLine(true), Oneshot(DataZeroHigh(f)))
      else Hw(SetLine(true), Capture(Falling, CapDataHigh(f)))
    case FollowerDataLow => Hw(Unchanged, Capture(Rising, CapDataLow(f)))
    case FollowerDataHigh => Hw(Unchanged, Capture(Falling, CapDataHigh(f)))
  }

  /** enter_state's timer programming as the compiler builds it. `enum
      cap_edge` has no negative enumerator, so the compiler gives it an
      unsigned type: the initial `-1`, meant as "no edge", becomes the
      type's largest value and the test `cap_edge >= 0` always holds. Every
      entry that should start a plain oneshot starts a falling-edge capture
      with the same timeout instead; everything else is as in EntryHw. */
  function EntryHwAsCompiled(e: Engine): (r: Hw)
    requires Invariant(e)
    ensures r.line == EntryHw(e).line
    ensures !r.timer.Oneshot?
    ensures !EntryHw(e).timer.Oneshot? ==> r == EntryHw(e)
    ensures EntryHw(e).timer.Oneshot? ==> r.timer == Capture(Falling, EntryHw(e).timer.timeout)
  {
    var h := EntryHw(e);
    match h.timer
    case Oneshot(t) => Hw(h.line, Capture(Falling, t))
    case _ => h
  }

  /** The discrepancy: in every phase in which the initiator drives the line
      low, the intended entry times the phase with a oneshot, while the
      compiled one arms a capture on the falling edge instead. */
  lemma {:induction false} LowPhasesCaptureAsCompiled(e: Engine)
    requires Invariant(e) && InitiatorLowPhase(e.state)
    ensures EntryHw(e).timer.Oneshot?
    ensures EntryHwAsCompiled(e) == Hw(SetLine(false), Capture(Falling, EntryHw(e).timer.timeout))
    ensures EntryHwAsCompiled(e) != EntryHw(e)
  {
  }

  /** The result of a handler that leaves state and hardware alone. */
  function Stay(e: Engine): Step {
    Step(e, Hw(Unchanged, NoTimer))
  }

  /** Where a plain timeout leads: the initiator states that only end a
      phase move to the next phase, and a follower still waiting for an edge
      gives up and returns to IDLE. */
  function TimeoutNext(s: State): State {
    match s
    case InitiatorFreeTime => InitiatorStartLow
    case InitiatorStartLow => InitiatorStartHigh
    case InitiatorStartHigh => InitiatorHeaderInitLow
    case InitiatorHeaderInitLow => InitiatorHeaderInitHigh
    case InitiatorHeaderDestLow => InitiatorHeaderDestHigh
    case InitiatorEomLow => InitiatorEomHigh
    case InitiatorEomHigh => InitiatorAckLow
    case InitiatorAckLow => InitiatorAckHigh
    case InitiatorAckHigh => InitiatorAckVerify
    case InitiatorDataLow => InitiatorDataHigh
    case FollowerAckLow => FollowerAckVerify
    case _ => Idle
  }

  /** The initiator finished the high phase of a header or data bit: advance
      the cursor and pick the next phase. The initiator nibble ends after four
      bits, the destination nibble when the cursor reaches byte 1, and a data
      byte when the bit offset wraps to 0; each is followed by the EOM bit
      except the initiator nibble. */
  function TxBitDone(e: Engine, lineHigh: bool): (r: Step)
    requires Invariant(e)
    requires TxBitHigh(e.state)
    ensures Invariant(r.engine) && Keeps(e, r.engine)
    ensures r.engine.tx.msgt == IncBit(e.tx.msgt)
    ensures r.engine.state == TxNext(e.state, IncBit(e.tx.msgt))
  {
    var m := IncBit(e.tx.msgt);
    EnterState(e.(tx := e.tx.(msgt := m)), TxNext(e.state, m), lineHigh)
  }

  /** The phase after a sent bit, given the advanced cursor `m`. */
  function TxNext(s: State, m: MsgTransfer): State {
    if s == InitiatorHeaderInitHigh then
      (if m.bit == 4 then InitiatorHeaderDestLow else InitiatorHeaderInitLow)
    else if s == InitiatorHeaderDestHigh then
      (if m.byte == 1 then InitiatorEomLow else InitiatorHeaderDestLow)
    else if m.bit == 0 then InitiatorEomLow else InitiatorDataLow
  }

  /** The end of an ACK slot the initiator sent. An acknowledged frame goes
      on with its next data byte, or completes and reports SEND_OK; an
      unacknowledged one is resent after the shorter free time while fewer
      than five resends were made, and otherwise dropped with SEND_FAILED. */
  function AckOutcome(e: Engine, lineHigh: bool): (r: Step)
    requires Invariant(e)
    ensures Invariant(r.engine) && r.engine.txTimerArmed == e.txTimerArmed
    ensures r.engine.addr == e.addr && r.engine.freq == e.freq
    ensures r.engine.tx.len <= e.tx.len
    ensures e.tx.ack && !IsEom(e.tx.msgt, e.tx.len) ==>
              r.engine.state == InitiatorDataLow && r.engine.tx == e.tx && r.engine.events == e.events
    ensures e.tx.ack && IsEom(e.tx.msgt, e.tx.len) ==>
              r.engine.tx.len == 0 && r.engine.tx.resends == 0 && r.engine.state == Idle
              && r.engine.events == e.events + {SendOk}
    ensures !e.tx.ack && e.tx.resends < MaxResends ==>
              r.engine.tx.len == e.tx.len && r.engine.tx.resends == e.tx.resends + 1
              && r.engine.state == InitiatorFreeTime && r.engine.events == e.events
              && r.engine.tx.msgt == e.tx.msgt
    ensures !e.tx.ack && e.tx.resends < MaxResends ==>
              r.hw == Hw(SetLine(true), Capture(Falling, FreeTimeResend(e.freq)))
    ensures !e.tx.ack && e.tx.resends >= MaxResends ==>
              r.engine.tx.len == 0 && r.engine.tx.resends == 0 && r.engine.state == Idle
              && r.engine.events == e.events + {SendFailed}
  {
    if e.tx.ack && !IsEom(e.tx.msgt, e.tx.len) then
      EnterState(e, InitiatorDataLow, lineHigh)
    else if e.tx.ack then Finish(e, SendOk, lineHigh)
    else if e.tx.resends < MaxResends then
      EnterState(e.(tx := e.tx.(resends := e.tx.resends + 1)), InitiatorFreeTime, lineHigh)
    else Finish(e, SendFailed, lineHigh)
  }

  /** The end of a frame: the transmit context is emptied, the bus returns
      to IDLE and `ev` is reported to the host. */
  function Finish(e: Engine, ev: Event, lineHigh: bool): (r: Step)
    requires Invariant(e)
    ensures Invariant(r.engine) && r.engine.txTimerArmed == e.txTimerArmed
    ensures r.engine.addr == e.addr && r.engine.freq == e.freq
    ensures r.engine.tx.len == 0 && r.engine.tx.resends == 0 && r.engine.state == Idle
    ensures r.engine.events == e.events + {ev}
  {
    var r := EnterState(e.(tx := e.tx.(len := 0, resends := 0)), Idle, lineHigh);
    r.(engine := r.engine.(events := r.engine.events + {ev}))
  }

  /** cec_event_timeout: the oneshot or capture timeout expired. Nothing
      happens while disabled or idle. */
  function EventTimeout(e: Engine, smp: Sample): (r: Step)
    requires Invariant(e)
    ensures Invariant(r.engine)
    ensures r.engine.addr == e.addr && r.engine.freq == e.freq
    ensures r.engine.txTimerArmed == e.txTimerArmed
    ensures r.engine.tx.len <= e.tx.len
    ensures e.state == Disabled || e.state == Idle ==> r == Stay(e)
    ensures FollowerReceiving(e.state) ==> r == EnterState(e, Idle, smp.lineHigh)
    ensures e.state == InitiatorAckVerify ==> r == AckOutcome(e, smp.lineHigh)
    ensures e.state == FollowerAckVerify ==>
              r == EnterState(e, if e.rx.broadcastNak then Idle else FollowerAckFinish, smp.lineHigh)
    ensures TxBitHigh(e.state) ==>
              r == TxBitDone(e, smp.lineHigh)
    ensures e.state != Disabled && e.state != Idle && !TxBitHigh(e.state)
            && e.state != InitiatorAckVerify && e.state != FollowerAckVerify ==>
              r == EnterState(e, TimeoutNext(e.state), smp.lineHigh)
  {
    var l := smp.lineHigh;
    if e.state == Disabled || e.state == Idle then Stay(e)
    else if TxBitHigh(e.state) then TxBitDone(e, l)
    else if e.state == InitiatorAckVerify then AckOutcome(e, l)
    else if e.state == FollowerAckVerify then
      EnterState(e, if e.rx.broadcastNak then Idle else FollowerAckFinish, l)
    else EnterState(e, TimeoutNext(e.state), l)
  }

  /** The follower state after a data-bit low phase (`cec_state + 1`). */
  function HighAfter(s: State): State {
    match s
    case FollowerHeaderInitLow => FollowerHeaderInitHigh
    case FollowerHeaderDestLow => FollowerHeaderDestHigh
    case _ => FollowerDataHigh
  }

  /** The falling edge ending a received header or data bit. When low plus
      high fits the bit's duration window the cursor advances and the next
      phase is chosen as on the sending side (except that the destination
      nibble ends when the bit offset wraps); otherwise the frame is
      abandoned. */
  function RxBitDone(e: Engine, t: int, lineHigh: bool): (r: Step)
    requires Invariant(e)
    requires RxBitHigh(e.state)
    ensures Invariant(r.engine) && Keeps(e, r.engine)
    ensures !ValidHigh(e.freq, DataClass(GetBit(e.rx.msgt)), e.rx.lowTime, t) ==>
              r == EnterState(e, Idle, lineHigh)
    ensures ValidHigh(e.freq, DataClass(GetBit(e.rx.msgt)), e.rx.lowTime, t) ==>
              && r.engine.rx.msgt == IncBit(e.rx.msgt)
              && var m := IncBit(e.rx.msgt);
                 r.engine.state ==
                   if e.state == FollowerHeaderInitHigh then
                     (if m.bit == 4 then FollowerHeaderDestLow else FollowerHeaderInitLow)
                   else if m.bit == 0 then FollowerEomLow
                   else if e.state == FollowerHeaderDestHigh then FollowerHeaderDestLow
                   else FollowerDataLow
  {
    if !ValidHigh(e.freq, DataClass(GetBit(e.rx.msgt)), e.rx.lowTime, t) then
      EnterState(e, Idle, lineHigh)
    else
      var m := IncBit(e.rx.msgt);
      var next :=
        if e.state == FollowerHeaderInitHigh then
          (if m.bit == 4 then FollowerHeaderDestLow else FollowerHeaderInitLow)
        else if m.bit == 0 then FollowerEomLow
        else if e.state == FollowerHeaderDestHigh then FollowerHeaderDestLow
        else FollowerDataLow;
      EnterState(e.(rx := e.rx.(msgt := m)), next, lineHigh)
  }

  /** The rising edge ending the EOM bit's low phase. */
  function RxEomLow(e: Engine, t: int, lineHigh: bool): (r: Step)
    requires Invariant(e)
    ensures Invariant(r.engine) && Keeps(e, r.engine)
    ensures ClassifyLow(e.freq, t) == Invalid ==> r == EnterState(e, Idle, lineHigh)
    ensures ClassifyLow(e.freq, t) != Invalid ==>
              r.engine.state == FollowerEomHigh && r.engine.rx.lowTime == t
              && r.engine.rx.eom == (ClassifyLow(e.freq, t) == ReadOne)
  {
    var c := ClassifyLow(e.freq, t);
    if c == Invalid then EnterState(e, Idle, lineHigh)
    else EnterState(e.(rx := e.rx.(lowTime := t, eom := c == ReadOne)), FollowerEomHigh, lineHigh)
  }

  /** cec_event_cap: the capture timer saw the armed edge. */
  function EventCap(e: Engine, smp: Sample): (r: Step)
    requires Invariant(e)
    ensures Invariant(r.engine) && Keeps(e, r.engine)
    ensures e.state == Idle ==> r.engine.state == FollowerStartLow
    ensures Contending(e.state) ==>
              r == LoseArbitration(e, smp.lineHigh)
    ensures RxBitLow(e.state) ==> r == FollowerLow(e, smp.elapsed, smp.lineHigh)
    ensures RxBitHigh(e.state) ==> r == RxBitDone(e, smp.elapsed, smp.lineHigh)
  {
    var t := smp.elapsed;
    var l := smp.lineHigh;
    if Contending(e.state) then LoseArbitration(e, l)
    else if RxBitLow(e.state) then FollowerLow(e, t, l)
    else if RxBitHigh(e.state) then RxBitDone(e, t, l)
    else CapOther(e, t, l)
  }

  /** The capture cases outside arbitration and the header and data bits:
      the EOM bit's low phase, the start bit's rising edge, and the state
      changes CapNext selects. */
  function CapOther(e: Engine, t: int, lineHigh: bool): (r: Step)
    requires Invariant(e)
    ensures Invariant(r.engine) && Keeps(e, r.engine)
    ensures e.state == Idle ==> r.engine.state == FollowerStartLow
  {
    if e.state == FollowerEomLow then RxEomLow(e, t, lineHigh)
    else if e.state == FollowerStartLow && ValidLow(e.freq, StartBit, t) then
      // Rising edge of the start bit with a valid low time.
      EnterState(e.(rx := e.rx.(lowTime := t)), FollowerStartHigh, lineHigh)
    else match CapNext(e, t)
      case Some(s) => EnterState(e, s, lineHigh)
      case None => Stay(e)
  }

  /** The state the remaining capture cases enter, if any: a falling edge in
      IDLE is most likely a start bit; the start bit's and the EOM bit's
      periods are checked against their duration windows; the follower's own
      ACK slot moves on edge by edge. In every other state a capture is
      ignored. */
  function CapNext(e: Engine, t: int): Option<State> {
    var f := e.freq;
    match e.state
    case Idle => Some(FollowerStartLow)
    case FollowerStartLow => Some(Idle)
    case FollowerStartHigh =>
      Some(if ValidHigh(f, StartBit, e.rx.lowTime, t) then FollowerHeaderInitLow else Idle)
    case FollowerEomHigh =>
      Some(if ValidHigh(f, DataClass(e.rx.eom), e.rx.lowTime, t) then FollowerAckLow else Idle)
    case FollowerAckLow => Some(FollowerAckFinish)
    case FollowerAckFinish => Some(FollowerDataLow)
    case _ => None
  }

  /** A falling edge during FREE_TIME, START_HIGH or HEADER_INIT_HIGH: another
      initiator is on the bus. The send is postponed (cursor rewound, frame
      kept) and the engine listens to the incoming start bit. */
  function LoseArbitration(e: Engine, lineHigh: bool): (r: Step)
    requires Invariant(e)
    ensures Invariant(r.engine)
    ensures r.engine.state == FollowerStartLow
    ensures Keeps(e, r.engine) && Pos(r.engine.tx.msgt) == 0 && r.engine.rx == e.rx
  {
    EnterState(e.(tx := e.tx.(msgt := Rewind(e.tx.msgt))), FollowerStartLow, lineHigh)
  }

  /** The rising edge ending the low phase of a header or data bit: a low
      time in the DATA_ZERO window records a 0, one in the DATA_ONE window a
      1, and anything else abandons the frame. */
  function FollowerLow(e: Engine, t: int, lineHigh: bool): (r: Step)
    requires Invariant(e)
    requires RxBitLow(e.state)
    ensures Invariant(r.engine)
    ensures Keeps(e, r.engine)
    ensures ClassifyLow(e.freq, t) == Invalid ==> r == EnterState(e, Idle, lineHigh)
    ensures ClassifyLow(e.freq, t) != Invalid ==>
              && r.engine.state == HighAfter(e.state)
              && r.engine.rx.lowTime == t
              && r.engine.rx.msgt.bit == e.rx.msgt.bit
              && r.engine.rx.msgt.byte == e.rx.msgt.byte
              && (e.rx.msgt.byte < MaxMsgLen ==>
                    GetBit(r.engine.rx.msgt) == (ClassifyLow(e.freq, t) == ReadOne))
  {
    var c := ClassifyLow(e.freq, t);
    if c == Invalid then EnterState(e, Idle, lineHigh)
    else RecordBit(e, t, c == ReadOne, lineHigh)
  }

  /** Record `val` under the receive cursor, remember the low time, and
      wait for the falling edge that ends the bit. */
  function RecordBit(e: Engine, t: int, val: bool, lineHigh: bool): (r: Step)
    requires Invariant(e)
    requires RxBitLow(e.state)
    ensures Invariant(r.engine)
    ensures Keeps(e, r.engine)
    ensures r.engine.state == HighAfter(e.state)
    ensures r.engine.rx.lowTime == t
    ensures r.engine.rx.msgt.bit == e.rx.msgt.bit && r.engine.rx.msgt.byte == e.rx.msgt.byte
    ensures e.rx.msgt.byte < MaxMsgLen ==> GetBit(r.engine.rx.msgt) == val
  {
    var m := SetBit(e.rx.msgt, val);
    EnterState(e.(rx := e.rx.(lowTime := t, msgt := m)), HighAfter(e.state), lineHigh)
  }

  /** The secondary oneshot armed by a send request fired: cec_isr stops
      it, and cec_event_tx starts the frame now if the bus is idle;
      otherwise the frame starts when the current exchange returns to
      IDLE. */
  function EventTx(e: Engine): (r: Step)
    requires Invariant(e)
    ensures Invariant(r.engine)
    ensures !r.engine.txTimerArmed
    ensures e.state == Idle ==> r == EnterFreeTime(e.(txTimerArmed := false))
    ensures e.state != Idle ==> r.engine == e.(txTimerArmed := false)
  {
    var e := e.(txTimerArmed := false);
    if e.state == Idle then EnterState(e, InitiatorFreeTime, true)
    else Stay(e)
  }

  /** Result of cec_send. */
  datatype Admission = Busy | Queued(engine: Engine)

  /** cec_send: queue a frame. It is refused, with nothing changed, while
      another frame is queued. Otherwise the frame is copied to the start of
      the transmit buffer and the secondary oneshot is armed; the state
      machine itself is not touched. */
  function Send(e: Engine, msg: seq<bv8>): (r: Admission)
    requires Invariant(e) && |msg| <= MaxMsgLen
    ensures r.Busy? <==> e.tx.len != 0
    ensures r.Queued? ==>
              && Invariant(r.engine)
              && r.engine.tx.len == |msg|
              && r.engine.tx.msgt.buf[..|msg|] == msg
              && r.engine.tx.msgt.buf[|msg|..] == e.tx.msgt.buf[|msg|..]
              && r.engine.txTimerArmed
              && r.engine.state == e.state && r.engine.rx == e.rx
              && r.engine.events == e.events
              && r.engine.tx.resends == e.tx.resends
              && r.engine.tx.msgt.bit == e.tx.msgt.bit && r.engine.tx.msgt.byte == e.tx.msgt.byte
  {
    if e.tx.len != 0 then Busy
    else
      var buf := msg + e.tx.msgt.buf[|msg|..];
      Queued(e.(tx := e.tx.(len := |msg|, msgt := e.tx.msgt.(buf := buf)), txTimerArmed := true))
  }

  /** Host command result codes used here. */
  datatype EcRes = Success | InvalidParam | Unavailable | BusyRes

  /** hc_cec_write: the host's request to send a frame. */
  function HcWrite(e: Engine, msg: seq<bv8>): (r: (EcRes, Engine))
    requires Invariant(e)
    ensures Invariant(r.1)
    ensures r.0 != Success ==> r.1 == e
    ensures e.state == Disabled ==> r.0 == Unavailable
    ensures e.state != Disabled && (|msg| == 0 || |msg| > MaxMsgLen) ==> r.0 == InvalidParam
    ensures e.state != Disabled && 0 < |msg| <= MaxMsgLen ==>
              (r.0 == BusyRes <==> e.tx.len != 0)
    ensures r.0 == Success <==> e.state != Disabled && 0 < |msg| <= MaxMsgLen && e.tx.len == 0
    ensures r.0 == Success ==> Send(e, msg) == Queued(r.1)
  {
    if e.state == Disabled then (Unavailable, e)
    else if |msg| == 0 || |msg| > MaxMsgLen then (InvalidParam, e)
    else match Send(e, msg)
      case Busy => (BusyRes, e)
      case Queued(e1) => (Success, e1)
  }

  /** cec_set_enable: only 0 and 1 are accepted; enabling an enabled engine
      or disabling a disabled one succeeds without touching it. Enabling
      enters IDLE and waits for a falling edge; disabling stops both timers
      and enters DISABLED, which zeroes the contexts and the events. */
  function SetEnable(e: Engine, enable: nat): (r: (EcRes, Engine))
    requires Invariant(e)
    ensures Invariant(r.1)
    ensures enable != 0 && enable != 1 ==> r == (InvalidParam, e)
    ensures enable == 1 && e.state != Disabled ==> r == (Success, e)
    ensures enable == 0 && e.state == Disabled ==> r == (Success, e)
    ensures enable == 1 ==> r.0 == Success && r.1.state != Disabled
    ensures enable == 0 ==> r.0 == Success && r.1.state == Disabled
    ensures enable == 0 && e.state != Disabled ==>
              r.1.tx == ZeroTx() && r.1.rx == ZeroRx() && r.1.events == {} && !r.1.txTimerArmed
  {
    if enable != 0 && enable != 1 then (InvalidParam, e)
    else if enable == 1 && e.state != Disabled then (Success, e)
    else if enable == 0 && e.state == Disabled then (Success, e)
    else if enable == 1 then (Success, EnterState(e, Idle, true).engine)
    else (Success, EnterState(e.(txTimerArmed := false), Disabled, true).engine)
  }

  /** cec_get_next_event: hand the pending events to the host and clear them. */
  function GetNextEvent(e: Engine): (r: (set<Event>, Engine))
    ensures r.0 == e.events && r.1.events == {}
    ensures r.1 == e.(events := {})
  {
    (e.events, e.(events := {}))
  }
}

=== FILE: cec_properties.dfy ===
/** Properties of the CEC engine that span several events: how a frame is
    paced through the bus phases, how often an unacknowledged frame is sent,
    how a follower reads what an initiator writes, and how the host-facing
    operations compose. */
module CecProperties {
  import opened CecCursor
  import opened CecTiming
  import opened CecEngine

  /** A timeout while nobody but the engine drives the bus: the line is
      read high whenever it is sampled. (Engines outside the invariant,
      which the engine never reaches, are left as they are.) */
  function Tick(e: Engine): (r: Engine)
    ensures Invariant(e) ==> Invariant(r) && r.addr == e.addr && r.freq == e.freq
  {
    if Invariant(e) then EventTimeout(e, Sample(0, true)).engine else e
  }

  /** `n` steps of `step` in a row. */
  function Iterate(step: Engine -> Engine, e: Engine, n: nat): Engine
    decreases n
  {
    if n == 0 then e else Iterate(step, step(e), n - 1)
  }

  /** Running `a + b` steps is running `a` and then `b`. */
  lemma {:induction false} IterateAdd(step: Engine -> Engine, e: Engine, a: nat, b: nat)
    ensures Iterate(step, e, a + b) == Iterate(step, Iterate(step, e, a), b)
    decreases a
  {
    if a > 0 {
      IterateAdd(step, step(e), a - 1, b);
    }
  }

  /** One step more is one application of the step at the end. */
  lemma {:induction false} IterateLast(step: Engine -> Engine, e: Engine, n: nat)
    ensures Iterate(step, e, n + 1) == step(Iterate(step, e, n))
    decreases n
  {
    if n > 0 {
      IterateLast(step, step(e), n - 1);
    }
  }

  /** The initiator states whose timeout only ends the current phase and
      enters the next one. */
  predicate PlainInitiator(s: State) {
    || s == InitiatorFreeTime || s == InitiatorStartLow || s == InitiatorStartHigh
    || s == InitiatorHeaderInitLow || s == InitiatorHeaderDestLow || s == InitiatorDataLow
    || s == InitiatorEomLow || s == InitiatorEomHigh || s == InitiatorAckLow
    || s == InitiatorAckHigh
  }

  /** The states in which the initiator drives the low part of a header or
      data bit. */
  predicate SendingLow(s: State) {
    s == InitiatorHeaderInitLow || s == InitiatorHeaderDestLow || s == InitiatorDataLow
  }

  /** `y` is `x` after a plain timeout: the next phase, the same frame and
      cursor, except that entering the start bit rewinds the cursor and the
      ACK sample of a directed frame on an undriven line records a NAK. */
  predicate Advanced(x: Engine, y: Engine)
    requires Invariant(x)
  {
    && Invariant(y) && Keeps(x, y) && y.state == TimeoutNext(x.state)
    && (x.state == InitiatorFreeTime ==> Pos(y.tx.msgt) == 0)
    && (x.state != InitiatorFreeTime ==> y.tx.msgt == x.tx.msgt)
    && (x.state == InitiatorAckHigh ==> y.tx.ack == IsBroadcast(x.tx.msgt))
  }

  /** `y` is `x` after the high phase of a sent bit: the cursor moved on by
      one and the next phase was chosen from it. */
  predicate BitDone(x: Engine, y: Engine)
    requires Invariant(x)
  {
    && Invariant(y) && Keeps(x, y) && y.tx.msgt == IncBit(x.tx.msgt)
    && y.state == TxNext(x.state, IncBit(x.tx.msgt))
  }

  /** A directed frame about to be sent, to a destination that never
      acknowledges. */
  predicate Naked(e: Engine) {
    && Invariant(e) && e.state == InitiatorFreeTime
    && e.tx.len >= 1 && !IsBroadcast(e.tx.msgt)
  }

  /** `y` is `x` after a failed attempt that leaves a resend to come: the
      same frame waits for its next free time with one more resend counted. */
  predicate Resent(x: Engine, y: Engine) {
    && Naked(y) && y.tx.resends == x.tx.resends + 1
    && y.tx.len == x.tx.len && y.tx.msgt.buf == x.tx.msgt.buf
    && y.events == x.events
  }

  /** `y` is `x` after its frame was given up: nothing queued, the bus idle
      and SEND_FAILED added to the events. */
  predicate Dropped(x: Engine, y: Engine) {
    && y.state == Idle && y.tx.len == 0 && y.tx.resends == 0
    && y.events == x.events + {SendFailed}
  }

  /** An unacknowledged directed frame waiting for its verdict. */
  predicate Unanswered(x: Engine) {
    && Invariant(x) && x.state == InitiatorAckVerify && !x.tx.ack
    && x.tx.len >= 1 && !IsBroadcast(x.tx.msgt)
  }

  /** What a timeout does on a bus only the engine drives, phase by phase:
      the facts an attempt is built from. Plain phases advance, ... */
  ghost predicate PlainSteps(tick: Engine -> Engine) {
    forall x | Invariant(x) && PlainInitiator(x.state) :: Advanced(x, tick(x))
  }

  /** ... the end of a sent bit moves the cursor on, ... */
  ghost predicate BitSteps(tick: Engine -> Engine) {
    forall x | Invariant(x) && TxBitHigh(x.state) :: BitDone(x, tick(x))
  }

  /** ... and an unanswered frame is resent or dropped. */
  ghost predicate VerdictSteps(tick: Engine -> Engine) {
    && (forall x | Unanswered(x) && x.tx.resends < MaxResends :: Resent(x, tick(x)))
    && (forall x | Unanswered(x) && x.tx.resends >= MaxResends :: Dropped(x, tick(x)))
  }

  ghost predicate QuietBus(tick: Engine -> Engine) {
    PlainSteps(tick) && BitSteps(tick) && VerdictSteps(tick)
  }

  /** A plain timeout enters the next phase. */
  lemma {:induction false} TickPlain(x: Engine)
    requires Invariant(x) && PlainInitiator(x.state)
    ensures Advanced(x, Tick(x))
  {
    var s := TimeoutNext(x.state);
    assert !TxBitHigh(x.state);
    assert EventTimeout(x, Sample(0, true)) == EnterState(x, s, true);
    assert Tick(x) == EnterState(x, s, true).engine;
    assert s != Idle && s != Disabled;
  }

  /** The timeout ending the high phase of a sent bit advances the cursor. */
  lemma {:induction false} TickBitDone(x: Engine)
    requires Invariant(x) && TxBitHigh(x.state)
    ensures BitDone(x, Tick(x))
  {
  }

  /** The verdict on an unacknowledged frame: resent while resends remain,
      dropped with SEND_FAILED after the fifth. */
  lemma {:induction false} TickVerdict(x: Engine)
    requires Unanswered(x)
    ensures x.tx.resends < MaxResends ==> Resent(x, Tick(x))
    ensures x.tx.resends >= MaxResends ==> Dropped(x, Tick(x))
  {
  }

  /** The engine's timeout handler is such a timeout. */
  lemma {:induction false} QuietTick()
    ensures QuietBus(Tick)
  {
    forall x | Invariant(x) && PlainInitiator(x.state)
      ensures Advanced(x, Tick(x))
    {
      TickPlain(x);
    }
    forall x | Invariant(x) && TxBitHigh(x.state)
      ensures BitDone(x, Tick(x))
    {
      TickBitDone(x);
    }
    forall x | Unanswered(x)
      ensures x.tx.resends < MaxResends ==> Resent(x, Tick(x))
      ensures x.tx.resends >= MaxResends ==> Dropped(x, Tick(x))
    {
      TickVerdict(x);
    }
  }

  /** One plain timeout, for a given engine. */
  lemma {:induction false} PlainStep(tick: Engine -> Engine, x: Engine)
    requires PlainSteps(tick)
    requires Invariant(x) && PlainInitiator(x.state)
    ensures Advanced(x, tick(x))
  {
  }

  /** Free time, then the start bit: three timeouts take the initiator from
      FREE_TIME to the first header bit with the cursor at the start. */
  lemma {:induction false} StartPhase(tick: Engine -> Engine, e: Engine)
    requires PlainSteps(tick)
    requires Invariant(e) && e.state == InitiatorFreeTime
    ensures var r := Iterate(tick, e, 3);
            && Invariant(r) && r.state == InitiatorHeaderInitLow && Keeps(e, r)
            && r.tx.msgt.byte == 0 && r.tx.msgt.bit == 0
  {
    TwoSteps(tick, tick(e));
    PlainStep(tick, e);
    Successor(e.state);
    PlainStep(tick, tick(e));
    Successor(tick(e).state);
    PlainStep(tick, tick(tick(e)));
  }

  /** The low and high phase of one sent bit: two timeouts advance the
      cursor by one and select the next phase. */
  lemma {:induction false} TxBitPair(tick: Engine -> Engine, e: Engine)
    requires PlainSteps(tick) && BitSteps(tick)
    requires Invariant(e) && SendingLow(e.state)
    ensures var r := Iterate(tick, e, 2);
            && Invariant(r) && Keeps(e, r) && r.tx.msgt == IncBit(e.tx.msgt)
            && r.state == TxNext(TimeoutNext(e.state), IncBit(e.tx.msgt))
  {
    TwoSteps(tick, e);
    PlainStep(tick, e);
    LowThenHigh(e.state);
    BitStep(tick, tick(e));
  }

  /** The order of the initiator's plain phases. */
  lemma Successor(s: State)
    ensures s == InitiatorFreeTime ==> TimeoutNext(s) == InitiatorStartLow
    ensures s == InitiatorStartLow ==> TimeoutNext(s) == InitiatorStartHigh
    ensures s == InitiatorStartHigh ==> TimeoutNext(s) == InitiatorHeaderInitLow
    ensures s == InitiatorEomLow ==> TimeoutNext(s) == InitiatorEomHigh
    ensures s == InitiatorEomHigh ==> TimeoutNext(s) == InitiatorAckLow
    ensures s == InitiatorAckLow ==> TimeoutNext(s) == InitiatorAckHigh
    ensures s == InitiatorAckHigh ==> TimeoutNext(s) == InitiatorAckVerify
  {
  }

  /** The low phase of a sent bit is followed by its high phase. */
  lemma LowThenHigh(s: State)
    requires SendingLow(s)
    ensures TxBitHigh(TimeoutNext(s))
  {
  }

  /** Two steps are the step applied twice. */
  lemma {:induction false} TwoSteps(tick: Engine -> Engine, e: Engine)
    ensures Iterate(tick, e, 2) == tick(tick(e))
  {
    assert Iterate(tick, e, 2) == Iterate(tick, tick(e), 1);
    assert Iterate(tick, tick(e), 1) == Iterate(tick, tick(tick(e)), 0);
  }

  /** The end of one sent bit, for a given engine. */
  lemma {:induction false} BitStep(tick: Engine -> Engine, x: Engine)
    requires BitSteps(tick)
    requires Invariant(x) && TxBitHigh(x.state)
    ensures BitDone(x, tick(x))
  {
  }

  /** An initiator in the header's first nibble (its own address). */
  predicate InitPhase(x: Engine) {
    && Invariant(x) && x.state == InitiatorHeaderInitLow
    && x.tx.msgt.byte == 0 && x.tx.msgt.bit < 4
  }

  /** `y` is `x` after one bit of the first nibble: the next bit, or after
      the fourth the destination nibble. */
  predicate InitBit(x: Engine, y: Engine) {
    && Invariant(y) && Keeps(x, y)
    && y.tx.msgt.byte == 0 && y.tx.msgt.bit == x.tx.msgt.bit + 1
    && y.state == (if y.tx.msgt.bit == 4 then InitiatorHeaderDestLow else InitiatorHeaderInitLow)
  }

  lemma {:induction false} InitiatorBit(tick: Engine -> Engine, x: Engine)
    requires PlainSteps(tick) && BitSteps(tick) && InitPhase(x)
    ensures InitBit(x, Iterate(tick, x, 2))
  {
    TxBitPair(tick, x);
  }

  /** An initiator in the header's second nibble (the destination). */
  predicate DestPhase(x: Engine) {
    && Invariant(x) && x.state == InitiatorHeaderDestLow
    && x.tx.msgt.byte == 0 && 4 <= x.tx.msgt.bit < 8
  }

  /** `y` is `x` after one bit of the second nibble: the next bit, or after
      the last the EOM bit of the header. */
  predicate DestBit(x: Engine, y: Engine) {
    && Invariant(y) && Keeps(x, y)
    && (if x.tx.msgt.bit == 7
        then y.tx.msgt.byte == 1 && y.tx.msgt.bit == 0 && y.state == InitiatorEomLow
        else y.tx.msgt.byte == 0 && y.tx.msgt.bit == x.tx.msgt.bit + 1
             && y.state == InitiatorHeaderDestLow)
  }

  lemma {:induction false} DestinationBit(tick: Engine -> Engine, x: Engine)
    requires PlainSteps(tick) && BitSteps(tick) && DestPhase(x)
    ensures DestBit(x, Iterate(tick, x, 2))
  {
    TxBitPair(tick, x);
  }

  /** The initiator nibble: two timeouts per bit until the fourth bit is
      sent, then the destination nibble starts. */
  lemma {:induction false} InitiatorNibble(tick: Engine -> Engine, e: Engine, k: nat)
    requires forall x | InitPhase(x) :: InitBit(x, Iterate(tick, x, 2))
    requires InitPhase(e) && e.tx.msgt.bit == k
    ensures var r := Iterate(tick, e, 2 * (4 - k));
            && Invariant(r) && r.state == InitiatorHeaderDestLow && Keeps(e, r)
            && r.tx.msgt.byte == 0 && r.tx.msgt.bit == 4
    decreases 4 - k
  {
    var e2 := Iterate(tick, e, 2);
    assert InitBit(e, e2);
    if k + 1 < 4 {
      InitiatorNibble(tick, e2, k + 1);
      IterateAdd(tick, e, 2, 2 * (4 - (k + 1)));
      assert 2 + 2 * (4 - (k + 1)) == 2 * (4 - k);
    } else {
      assert 2 * (4 - k) == 2;
    }
  }

  /** The destination nibble: two timeouts per bit until the cursor reaches
      byte 1, then the EOM bit. */
  lemma {:induction false} DestinationNibble(tick: Engine -> Engine, e: Engine, k: nat)
    requires forall x | DestPhase(x) :: DestBit(x, Iterate(tick, x, 2))
    requires DestPhase(e) && e.tx.msgt.bit == k
    ensures var r := Iterate(tick, e, 2 * (8 - k));
            && Invariant(r) && r.state == InitiatorEomLow && Keeps(e, r)
            && r.tx.msgt.byte == 1 && r.tx.msgt.bit == 0
    decreases 8 - k
  {
    var e2 := Iterate(tick, e, 2);
    assert DestBit(e, e2);
    if k + 1 < 8 {
      DestinationNibble(tick, e2, k + 1);
      IterateAdd(tick, e, 2, 2 * (8 - (k + 1)));
      assert 2 + 2 * (8 - (k + 1)) == 2 * (8 - k);
    } else {
      assert 2 * (8 - k) == 2;
    }
  }

  /** Every bit of the header takes two timeouts. */
  lemma {:induction false} HeaderBits(tick: Engine -> Engine)
    requires PlainSteps(tick) && BitSteps(tick)
    ensures forall x | InitPhase(x) :: InitBit(x, Iterate(tick, x, 2))
    ensures forall x | DestPhase(x) :: DestBit(x, Iterate(tick, x, 2))
  {
    forall x | InitPhase(x)
      ensures InitBit(x, Iterate(tick, x, 2))
    {
      InitiatorBit(tick, x);
    }
    forall x | DestPhase(x)
      ensures DestBit(x, Iterate(tick, x, 2))
    {
      DestinationBit(tick, x);
    }
  }

  /** The header byte: sixteen timeouts take the initiator from its first
      header bit to the EOM bit, with the cursor on byte 1. */
  lemma {:induction false} HeaderPhase(tick: Engine -> Engine, e: Engine)
    requires forall x | InitPhase(x) :: InitBit(x, Iterate(tick, x, 2))
    requires forall x | DestPhase(x) :: DestBit(x, Iterate(tick, x, 2))
    requires Invariant(e) && e.state == InitiatorHeaderInitLow
    requires e.tx.msgt.byte == 0 && e.tx.msgt.bit == 0
    ensures var r := Iterate(tick, e, 16);
            && Invariant(r) && r.state == InitiatorEomLow && Keeps(e, r)
            && r.tx.msgt.byte == 1 && r.tx.msgt.bit == 0
  {
    InitiatorNibble(tick, e, 0);
    var b := Iterate(tick, e, 8);
    DestinationNibble(tick, b, 4);
    IterateAdd(tick, e, 8, 8);
  }

  /** The EOM bit: two timeouts to the ACK slot, the cursor untouched. */
  lemma {:induction false} EomBit(tick: Engine -> Engine, e: Engine)
    requires PlainSteps(tick)
    requires Invariant(e) && e.state == InitiatorEomLow
    ensures var r := Iterate(tick, e, 2);
            && Invariant(r) && r.state == InitiatorAckLow && Keeps(e, r)
            && r.tx.msgt == e.tx.msgt
  {
    TwoSteps(tick, e);
    PlainStep(tick, e);
    Successor(e.state);
    PlainStep(tick, tick(e));
    Successor(tick(e).state);
  }

  /** The ACK slot of a directed frame: when nobody pulls the line low the
      initiator records a NAK. */
  lemma {:induction false} AckSlot(tick: Engine -> Engine, e: Engine)
    requires PlainSteps(tick)
    requires Invariant(e) && e.state == InitiatorAckLow && !IsBroadcast(e.tx.msgt)
    ensures var r := Iterate(tick, e, 2);
            && Invariant(r) && r.state == InitiatorAckVerify && Keeps(e, r)
            && r.tx.msgt == e.tx.msgt && !r.tx.ack
  {
    TwoSteps(tick, e);
    PlainStep(tick, e);
    Successor(e.state);
    PlainStep(tick, tick(e));
    Successor(tick(e).state);
  }

  /** EOM bit and ACK slot of a directed frame, four timeouts. */
  lemma {:induction false} EomAndAckSlot(tick: Engine -> Engine, e: Engine)
    requires PlainSteps(tick)
    requires Invariant(e) && e.state == InitiatorEomLow && !IsBroadcast(e.tx.msgt)
    ensures var r := Iterate(tick, e, 4);
            && Invariant(r) && r.state == InitiatorAckVerify && Keeps(e, r)
            && r.tx.msgt == e.tx.msgt && !r.tx.ack
  {
    EomBit(tick, e);
    AckSlot(tick, Iterate(tick, e, 2));
    IterateAdd(tick, e, 2, 2);
  }

  /** `y` is `x`'s frame, sent once and unacknowledged, waiting for the
      verdict: nothing else about it changed. */
  predicate AwaitingVerdict(x: Engine, y: Engine) {
    && Unanswered(y) && y.tx.resends == x.tx.resends && y.tx.len == x.tx.len
    && y.tx.msgt.buf == x.tx.msgt.buf && y.events == x.events
  }

  /** The first 19 timeouts of an attempt: 3 for free time and start bit
      and 8 for each header nibble bring the frame to its EOM bit. */
  lemma {:induction false} AttemptToEom(tick: Engine -> Engine, e: Engine)
    requires PlainSteps(tick) && BitSteps(tick) && Naked(e)
    ensures var c := Iterate(tick, e, 19);
            && Invariant(c) && c.state == InitiatorEomLow && Keeps(e, c)
            && c.tx.msgt.buf == e.tx.msgt.buf
  {
    StartPhase(tick, e);
    var a := Iterate(tick, e, 3);
    assert Keeps(e, a) && a.state == InitiatorHeaderInitLow;
    HeaderBits(tick);
    HeaderPhase(tick, a);
    IterateAdd(tick, e, 3, 16);
  }

  /** The first 23 timeouts of an attempt: 19 to the EOM bit and 4 for EOM
      and ACK slot. */
  lemma {:induction false} AttemptToVerdict(tick: Engine -> Engine, e: Engine)
    requires QuietBus(tick) && Naked(e)
    ensures AwaitingVerdict(e, Iterate(tick, e, 23))
  {
    AttemptToEom(tick, e);
    var c := Iterate(tick, e, 19);
    assert !IsBroadcast(c.tx.msgt);
    EomAndAckSlot(tick, c);
    var d := Iterate(tick, c, 4);
    assert Keeps(c, d) && d.state == InitiatorAckVerify;
    IterateAdd(tick, e, 19, 4);
  }

  /** One attempt, for any timeout that behaves as on a quiet bus: 23
      timeouts to the ACK slot's verdict and one for the verdict itself. */
  lemma {:induction false} AttemptOf(tick: Engine -> Engine, e: Engine)
    requires QuietBus(tick) && Naked(e)
    ensures e.tx.resends < MaxResends ==> Resent(e, Iterate(tick, e, 24))
    ensures e.tx.resends >= MaxResends ==> Dropped(e, Iterate(tick, e, 24))
  {
    AttemptToVerdict(tick, e);
    IterateLast(tick, e, 23);
    VerdictStep(tick, Iterate(tick, e, 23));
  }

  /** The verdict timeout, for a given engine. */
  lemma {:induction false} VerdictStep(tick: Engine -> Engine, x: Engine)
    requires VerdictSteps(tick) && Unanswered(x)
    ensures x.tx.resends < MaxResends ==> Resent(x, tick(x))
    ensures x.tx.resends >= MaxResends ==> Dropped(x, tick(x))
  {
  }

  /** The 24 timeouts of one attempt. */
  function Attempt(e: Engine): Engine {
    Iterate(Tick, e, 24)
  }

  /** One attempt of a frame nobody acknowledges ends in a resend, or once
      five resends were made in SEND_FAILED. */
  lemma {:induction false} OneAttempt(e: Engine)
    requires Naked(e)
    ensures e.tx.resends < MaxResends ==> Resent(e, Attempt(e))
    ensures e.tx.resends >= MaxResends ==> Dropped(e, Attempt(e))
  {
    QuietTick();
    AttemptOf(Tick, e);
  }

  /** The state after `k` whole attempts. */
  function AfterAttempts(e: Engine, k: nat): Engine {
    Iterate(Attempt, e, k)
  }

  /** `k` attempts are `24 * k` timeouts. */
  lemma {:induction false} AttemptsAreTimeouts(e: Engine, k: nat)
    ensures AfterAttempts(e, k) == Iterate(Tick, e, 24 * k)
    decreases k
  {
    if k > 0 {
      AttemptsAreTimeouts(Attempt(e), k - 1);
      IterateAdd(Tick, e, 24, 24 * (k - 1));
      assert 24 * k == 24 + 24 * (k - 1);
    }
  }

  /** Any way of running an attempt that, while resends remain, fails with a
      resend: `k` such attempts count `k` resends and change nothing else. */
  lemma {:induction false} RepeatedResends(att: Engine -> Engine, e: Engine, k: nat)
    requires forall x | Naked(x) && x.tx.resends < MaxResends :: Resent(x, att(x))
    requires Naked(e) && e.tx.resends + k <= MaxResends
    ensures var r := Iterate(att, e, k);
            && Naked(r) && r.tx.resends == e.tx.resends + k
            && r.tx.len == e.tx.len && r.tx.msgt.buf == e.tx.msgt.buf
            && r.events == e.events
    decreases k
  {
    if k > 0 {
      RepeatedResends(att, att(e), k - 1);
    }
  }

  /** ... and if the attempt after the last resend drops the frame, the
      sixth attempt is the one that reports SEND_FAILED. */
  lemma {:induction false} GivesUpOnSixth(att: Engine -> Engine, e: Engine)
    requires forall x | Naked(x) && x.tx.resends < MaxResends :: Resent(x, att(x))
    requires forall x | Naked(x) && x.tx.resends >= MaxResends :: Dropped(x, att(x))
    requires Naked(e) && e.tx.resends == 0
    ensures forall k | 0 <= k <= MaxResends ::
              && Naked(Iterate(att, e, k)) && Iterate(att, e, k).tx.len == e.tx.len
              && Iterate(att, e, k).events == e.events
    ensures Dropped(e, Iterate(att, e, MaxResends + 1))
  {
    forall k | 0 <= k <= MaxResends
      ensures && Naked(Iterate(att, e, k)) && Iterate(att, e, k).tx.len == e.tx.len
              && Iterate(att, e, k).events == e.events
    {
      RepeatedResends(att, e, k);
    }
    RepeatedResends(att, e, MaxResends);
    IterateLast(att, e, MaxResends);
  }

  /** While resends remain, each failed attempt leaves the same frame queued
      with one more resend counted. */
  lemma {:induction false} FailedAttempts(e: Engine, k: nat)
    requires Naked(e) && e.tx.resends + k <= MaxResends
    ensures var r := AfterAttempts(e, k);
            && Naked(r) && r.tx.resends == e.tx.resends + k
            && r.tx.len == e.tx.len && r.tx.msgt.buf == e.tx.msgt.buf
            && r.events == e.events
  {
    forall x | Naked(x) && x.tx.resends < MaxResends
      ensures Resent(x, Attempt(x))
    {
      OneAttempt(x);
    }
    RepeatedResends(Attempt, e, k);
  }

  /** Section CEC 7.1 in the engine: a frame nobody acknowledges is sent
      exactly six times. After each of the first five attempts it is still
      queued and waits for its next free time; the sixth attempt drops it
      and reports SEND_FAILED. */
  lemma {:induction false} SixAttempts(e: Engine)
    requires Naked(e) && e.tx.resends == 0
    ensures forall k | 0 <= k <= MaxResends ::
              && Naked(AfterAttempts(e, k)) && AfterAttempts(e, k).tx.len == e.tx.len
              && AfterAttempts(e, k).events == e.events
    ensures Dropped(e, AfterAttempts(e, MaxResends + 1))
  {
    forall x | Naked(x)
      ensures x.tx.resends < MaxResends ==> Resent(x, Attempt(x))
      ensures x.tx.resends >= MaxResends ==> Dropped(x, Attempt(x))
    {
      OneAttempt(x);
    }
    GivesUpOnSixth(Attempt, e);
  }

  /** After a failed attempt the engine waits the shorter resend free time,
      three bit periods instead of five. */
  lemma {:induction false} ResendWaitsShorter(e: Engine, lineHigh: bool)
    requires Invariant(e) && e.state == InitiatorAckVerify
    requires !e.tx.ack && e.tx.resends < MaxResends
    ensures var r := EventTimeout(e, Sample(0, lineHigh));
            && r.engine.state == InitiatorFreeTime
            && r.hw.timer == Capture(Falling, FreeTimeResend(e.freq))
            && FreeTimeResend(e.freq) < FreeTimeNewInitiator(e.freq)
  {
  }

  /** A follower reads back the value of a data bit the initiator drives
      with nominal timing: the rising edge records the bit, and the falling
      edge ending the period accepts it and advances the cursor. */
  lemma {:induction false} FollowerReadsBit(e: Engine, data: bool, lineHigh: bool)
    requires Invariant(e) && RxBitLow(e.state) && e.rx.msgt.byte < MaxMsgLen
    ensures var e1 := EventCap(e, Sample(DataLow(e.freq, data), lineHigh)).engine;
            && e1.state == HighAfter(e.state)
            && GetBit(e1.rx.msgt) == data
            && var e2 := EventCap(e1, Sample(DataHigh(e.freq, data), lineHigh)).engine;
               e2.rx.msgt == IncBit(e1.rx.msgt)
  {
    NominalBitAccepted(e.freq, data);
    var e1 := EventCap(e, Sample(DataLow(e.freq, data), lineHigh)).engine;
    assert e1.state == HighAfter(e.state);
    assert RxBitHigh(e1.state);
    assert e1.rx.lowTime == DataLow(e.freq, data);
  }

  /** A follower that sees a valid start bit moves on to the header. */
  lemma {:induction false} FollowerReadsStart(e: Engine, lineHigh: bool)
    requires Invariant(e) && e.state == FollowerStartLow
    ensures var e1 := EventCap(e, Sample(StartBitLow(e.freq), lineHigh)).engine;
            && e1.state == FollowerStartHigh
            && EventCap(e1, Sample(StartBitHigh(e.freq), lineHigh)).engine.state == FollowerHeaderInitLow
  {
    NominalStartAccepted(e.freq);
  }

  /** An initiator that loses arbitration keeps its frame: once the bus
      returns to IDLE the frame is started again from its first bit. */
  lemma {:induction false} ArbitrationKeepsFrame(e: Engine, smp: Sample, smp2: Sample)
    requires Invariant(e) && Contending(e.state)
    ensures var r := EventCap(e, smp).engine;
            && r.state == FollowerStartLow && Pos(r.tx.msgt) == 0
            && r.tx.len == e.tx.len && r.tx.msgt.buf == e.tx.msgt.buf
            && (e.tx.len > 0 ==>
                  EventTimeout(r, smp2).engine.state == InitiatorFreeTime)
  {
  }

  /** The follower's ACK slot: once a frame's EOM bit is accepted, the
      engine holds the line low exactly when the frame is addressed to it,
      and programs nothing for a frame that is neither ours nor broadcast. */
  lemma {:induction false} FollowerAcksOwnFrames(e: Engine, smp: Sample)
    requires Invariant(e) && e.state == FollowerEomHigh
    requires ValidHigh(e.freq, DataClass(e.rx.eom), e.rx.lowTime, smp.elapsed)
    ensures var r := EventCap(e, smp);
            && r.engine.state == FollowerAckLow
            && r.engine.rx == e.rx
            && (r.hw.line == SetLine(false) <==> Dest(e.rx.msgt) == e.addr)
            && (Dest(e.rx.msgt) != e.addr && !IsBroadcast(e.rx.msgt) ==> r.hw == Hw(Unchanged, NoTimer))
  {
    var r := EventCap(e, smp);
    assert CapNext(e, smp.elapsed) == Wrappers.Some(FollowerAckLow);
    assert r == EnterState(e, FollowerAckLow, smp.lineHigh);
  }

  /** A follower's verdict on the ACK slot: when the slot of a broadcast
      frame is pulled low (some follower rejects it) the frame is dropped
      and the bus returns to IDLE, or to FREE_TIME when a frame of ours is
      queued; in every other case the follower goes on to ACK_FINISH. */
  lemma {:induction false} FollowerAckVerdict(e: Engine, pulledLow: bool, later: Sample)
    requires Invariant(e) && e.state == FollowerAckLow
    ensures var e1 := EventTimeout(e, Sample(0, !pulledLow)).engine;
            && e1.state == FollowerAckVerify
            && e1.rx.broadcastNak == (IsBroadcast(e.rx.msgt) && pulledLow)
            && var e2 := EventTimeout(e1, later).engine;
               e2.state == (if IsBroadcast(e.rx.msgt) && pulledLow then
                              (if e.tx.len > 0 then InitiatorFreeTime else Idle)
                            else FollowerAckFinish)
  {
    assert TimeoutNext(e.state) == FollowerAckVerify;
    var e1 := EventTimeout(e, Sample(0, !pulledLow)).engine;
    assert e1 == EnterState(e, FollowerAckVerify, !pulledLow).engine;
    assert Invariant(e1) && e1.state == FollowerAckVerify;
    assert e1.tx.len == e.tx.len && e1.rx.msgt == e.rx.msgt;
    var next := if e1.rx.broadcastNak then Idle else FollowerAckFinish;
    assert EventTimeout(e1, later) == EnterState(e1, next, later.lineHigh);
  }

  /** Send admission: a queued frame blocks every further send until the
      engine finishes with it. */
  lemma {:induction false} SendBlocksSend(e: Engine, m1: seq<bv8>, m2: seq<bv8>)
    requires Invariant(e) && 0 < |m1| <= MaxMsgLen && |m2| <= MaxMsgLen
    requires Send(e, m1).Queued?
    ensures Send(Send(e, m1).engine, m2) == Busy
  {
  }

  /** Enabling and disabling are idempotent: a second request with the same
      value succeeds and changes nothing. */
  lemma {:induction false} SetEnableIdempotent(e: Engine, enable: nat)
    requires Invariant(e)
    ensures var (_, e1) := SetEnable(e, enable);
            SetEnable(e1, enable) == (if enable <= 1 then Success else InvalidParam, e1)
  {
  }

  /** Reading the events twice: the second read reports nothing. */
  lemma {:induction false} EventsReadOnce(e: Engine)
    ensures GetNextEvent(GetNextEvent(e).1).0 == {}
    ensures GetNextEvent(e).0 + GetNextEvent(GetNextEvent(e).1).1.events == e.events
  {
  }

  /** A write accepted while the bus is idle starts the frame as soon as the
      send oneshot fires, after the new-initiator free time when no resend
      is pending. */
  lemma {:induction false} WriteStartsFrame(e: Engine, msg: seq<bv8>)
    requires Invariant(e) && e.state == Idle && e.tx.len == 0 && e.tx.resends == 0
    requires 0 < |msg| <= MaxMsgLen
    ensures var (res, e1) := HcWrite(e, msg);
            && res == Success
            && var r := EventTx(e1);
               && r.engine.state == InitiatorFreeTime && r.engine.tx.len == |msg|
               && e1.txTimerArmed && !r.engine.txTimerArmed
               && r.hw.timer == Capture(Falling, FreeTimeNewInitiator(e.freq))
  {
  }
}

=== FILE: cec_timing.dfy ===
/** CEC bit timing (section CEC 5 of the HDMI 1.4b specification,
    Supplement 1) converted to timer ticks, and the tolerance windows the
    follower uses to classify pulses (chip/npcx/cec.c, lines 28-107). */
module CecTiming {

  /** apb1_freq_div_10k: the timer clock divided by 10 kHz. It comes from a
      32-bit frequency, so it is at most 0xffffffff / 10000, and the engine
      is only meaningful with a nonzero clock. */
  predicate ValidFreq(f: nat) {
    0 < f <= 429496
  }

  /** APB1_TICKS: microseconds to timer ticks, rounding down. */
  function Ticks(f: nat, us: nat): nat {
    us * f / 100
  }

  /** With a valid clock no intermediate product of APB1_TICKS reaches 2^32
      for any duration used here (the longest is 5700 us), so the 32-bit
      arithmetic of the source never wraps and unbounded integers model it. */
  lemma NoWrap(f: nat, us: nat)
    requires us <= 5700 && ValidFreq(f)
    ensures us * f < 0x1_0000_0000
  {
    assert us * f <= 5700 * f;
    assert 5700 * f <= 5700 * 429496;
  }

  /** Free time before a new frame and before a resend (section CEC 9):
      five and three nominal bit periods. */
  function NominalBitTime(f: nat): nat { Ticks(f, 2400) }
  function FreeTimeResend(f: nat): nat { 3 * NominalBitTime(f) }
  function FreeTimeNewInitiator(f: nat): nat { 5 * NominalBitTime(f) }

  /** Nominal durations the initiator drives. */
  function StartBitLow(f: nat): nat { Ticks(f, 3700) }
  function StartBitHigh(f: nat): nat { Ticks(f, 800) }
  function DataZeroLow(f: nat): nat { Ticks(f, 1500) }
  function DataZeroHigh(f: nat): nat { Ticks(f, 900) }
  function DataOneLow(f: nat): nat { Ticks(f, 600) }
  function DataOneHigh(f: nat): nat { Ticks(f, 1800) }
  /** Time after the falling edge at which an ACK can safely be sampled. */
  function NominalSampleTime(f: nat): nat { Ticks(f, 1050) }

  /** DATA_LOW(data) / DATA_HIGH(data): the low and high parts of a data bit. */
  function DataLow(f: nat, data: bool): nat {
    if data then DataOneLow(f) else DataZeroLow(f)
  }
  function DataHigh(f: nat, data: bool): nat {
    if data then DataOneHigh(f) else DataZeroHigh(f)
  }

  /** VALID_TOLERANCE: the slack allowed on each side of every window. */
  function Tolerance(f: nat): nat { Ticks(f, 100) }

  /** CAP_*: capture timeouts long enough that a timeout means the bus
      violated the timing. */
  function CapStartLow(f: nat): int { Ticks(f, 3900) + Tolerance(f) }
  function CapStartHigh(f: nat): int { Ticks(f, 5700) - Ticks(f, 3500) + Tolerance(f) }
  function CapDataLow(f: nat): int { Ticks(f, 1700) + Tolerance(f) }
  function CapDataHigh(f: nat): int { Ticks(f, 2750) - Ticks(f, 400) + Tolerance(f) }

  /** The three pulse classes the follower can recognise. */
  datatype PulseClass = StartBit | DataZero | DataOne

  /** The class a data bit of value `data` belongs to. */
  function DataClass(data: bool): PulseClass {
    if data then DataOne else DataZero
  }

  /** *_MIN_LOW, *_MAX_LOW, *_MIN_DURATION, *_MAX_DURATION in microseconds. */
  function MinLowUs(c: PulseClass): nat {
    match c
    case StartBit => 3500
    case DataZero => 1300
    case DataOne => 400
  }
  function MaxLowUs(c: PulseClass): nat {
    match c
    case StartBit => 3900
    case DataZero => 1700
    case DataOne => 800
  }
  function MinDurationUs(c: PulseClass): nat {
    match c
    case StartBit => 4300
    case DataZero => 2050
    case DataOne => 2050
  }
  function MaxDurationUs(c: PulseClass): nat {
    match c
    case StartBit => 5700
    case DataZero => 2750
    case DataOne => 2750
  }

  /** VALID_LOW: a measured low time lies within the class's low window,
      widened by the tolerance on both sides. */
  predicate ValidLow(f: nat, c: PulseClass, t: int): (r: bool)
    ensures Ticks(f, MinLowUs(c)) <= t <= Ticks(f, MaxLowUs(c)) ==> r
  {
    Ticks(f, MinLowUs(c)) - Tolerance(f) <= t <= Ticks(f, MaxLowUs(c)) + Tolerance(f)
  }

  /** VALID_HIGH: low plus high, the whole bit period, lies within the
      class's duration window, widened by the tolerance. */
  predicate ValidHigh(f: nat, c: PulseClass, lowTime: int, highTime: int): (r: bool)
    ensures Ticks(f, MinDurationUs(c)) <= lowTime + highTime <= Ticks(f, MaxDurationUs(c)) ==> r
  {
    && lowTime + highTime <= Ticks(f, MaxDurationUs(c)) + Tolerance(f)
    && lowTime + highTime >= Ticks(f, MinDurationUs(c)) - Tolerance(f)
  }

  /** The follower's reading of a data-bit low time: the DATA_ZERO window is
      tried first, then DATA_ONE; anything else is a timing violation. */
  datatype LowReading = ReadZero | ReadOne | Invalid

  function ClassifyLow(f: nat, t: int): (r: LowReading)
    ensures r == ReadZero <==> ValidLow(f, DataZero, t)
    ensures r == ReadOne <==> ValidLow(f, DataOne, t) && !ValidLow(f, DataZero, t)
    ensures r == Invalid <==> !ValidLow(f, DataZero, t) && !ValidLow(f, DataOne, t)
  {
    if ValidLow(f, DataZero, t) then ReadZero
    else if ValidLow(f, DataOne, t) then ReadOne
    else Invalid
  }

  /** Ticks of a whole number of hundreds of microseconds are exact. */
  lemma TicksHundreds(f: nat, k: nat)
    ensures Ticks(f, 100 * k) == k * f
  {
    assert 100 * k * f == (k * f) * 100;
  }

  /** The DATA_ONE and DATA_ZERO low windows never overlap, even widened by
      the tolerance and with rounding: a low time is never read as both. */
  lemma {:induction false} LowWindowsDisjoint(f: nat, t: int)
    requires ValidFreq(f)
    ensures !(ValidLow(f, DataZero, t) && ValidLow(f, DataOne, t))
  {
    TicksHundreds(f, 13);
    TicksHundreds(f, 8);
    TicksHundreds(f, 1);
  }

  /** Consequently the order in which the engine tries the two windows does
      not matter: a DATA_ONE low time is always read as a one. */
  lemma ClassifyLowOne(f: nat, t: int)
    requires ValidFreq(f) && ValidLow(f, DataOne, t)
    ensures ClassifyLow(f, t) == ReadOne
  {
    LowWindowsDisjoint(f, t);
  }

  /** The follower accepts what the initiator sends: a data bit driven with
      the nominal low and high durations is read back as the same value, and
      its whole period passes the duration check. */
  lemma {:induction false} NominalBitAccepted(f: nat, data: bool)
    requires ValidFreq(f)
    ensures ClassifyLow(f, DataLow(f, data)) == (if data then ReadOne else ReadZero)
    ensures ValidHigh(f, DataClass(data), DataLow(f, data), DataHigh(f, data))
  {
    TicksHundreds(f, 1);
    TicksHundreds(f, 4);
    TicksHundreds(f, 6);
    TicksHundreds(f, 8);
    TicksHundreds(f, 9);
    TicksHundreds(f, 13);
    TicksHundreds(f, 15);
    TicksHundreds(f, 17);
    TicksHundreds(f, 18);
    TicksHundreds(f, 27);
    if data {
      LowWindowsDisjoint(f, DataLow(f, data));
    }
    NominalDurationWindow(f);
  }

  /** 24 hundred microseconds, the nominal data-bit period, lies inside the
      2050..2750 us window even after rounding each bound down. */
  lemma NominalDurationWindow(f: nat)
    requires ValidFreq(f)
    ensures Ticks(f, 2050) - Tolerance(f) <= Ticks(f, 1500) + Ticks(f, 900)
    ensures Ticks(f, 600) + Ticks(f, 1800) <= Ticks(f, 2750) + Tolerance(f)
    ensures Ticks(f, 2050) - Tolerance(f) <= Ticks(f, 600) + Ticks(f, 1800)
    ensures Ticks(f, 1500) + Ticks(f, 900) <= Ticks(f, 2750) + Tolerance(f)
  {
    TicksHundreds(f, 1);
    TicksHundreds(f, 6);
    TicksHundreds(f, 9);
    TicksHundreds(f, 15);
    TicksHundreds(f, 18);
    assert 2050 * f <= 2100 * f;
    assert 2750 * f >= 2700 * f;
  }

  /** The start bit the initiator drives passes the follower's start-bit
      checks. */
  lemma {:induction false} NominalStartAccepted(f: nat)
    requires ValidFreq(f)
    ensures ValidLow(f, StartBit, StartBitLow(f))
    ensures ValidHigh(f, StartBit, StartBitLow(f), StartBitHigh(f))
  {
    TicksHundreds(f, 1);
    TicksHundreds(f, 8);
    TicksHundreds(f, 35);
    TicksHundreds(f, 37);
    TicksHundreds(f, 39);
    TicksHundreds(f, 43);
    TicksHundreds(f, 57);
  }
}

=== FILE: usb_common.dfy ===
/** Decisions shared by the USB-C stacks (common/usb_common.c): the current
    a sink may draw from the Rp levels on CC1 and CC2 (section 4.6.2 of the
    USB Type-C Cable and Connector Specification) and the debug-accessory
    (DTS) flag of its Appendix B, the sink's polarity, the data- and
    power-role swap policies, and the DisplayPort alternate-mode state a
    port keeps (flags and the last status VDO). The mux, SBU, HPD-GPIO and
    timer side effects are returned as data or left out. */
module UsbCommon {
  import opened Wrappers
  import opened AltModeDfp

  // ---------------------------------------------------------------------
  // Type-C current

  /** enum tcpc_cc_voltage_status, with its numeric values. */
  datatype CcVolt = Open | Ra | Rd | RpDef | Rp1A5 | Rp3A0

  function Code(c: CcVolt): nat {
    match c
    case Open => 0
    case Ra => 1
    case Rd => 2
    case RpDef => 5
    case Rp1A5 => 6
    case Rp3A0 => 7
  }

  /** cc_is_rp: the line is pulled up by a source. */
  predicate IsRp(c: CcVolt) {
    c == RpDef || c == Rp1A5 || c == Rp3A0
  }

  /** The current a source advertises with each Rp level (section 4.6.2 of
      the Type-C specification), with Default USB Power taken as 500 mA. */
  function Advertised(c: CcVolt): nat
    requires IsRp(c)
  {
    match c
    case RpDef => 500
    case Rp1A5 => 1500
    case Rp3A0 => 3000
  }

  /** typec_current_t: a current limit in mA and, in bit 31
      (TYPEC_CURRENT_DTS_MASK), whether the source is a debug accessory. */
  datatype TypecCurrent = TypecCurrent(ma: nat, dts: bool)

  const DtsBit: nat := 0x8000_0000

  /** The 32-bit word the source returns. */
  function Word(c: TypecCurrent): nat {
    c.ma + (if c.dts then DtsBit else 0)
  }

  /** The current and the DTS flag can be read back from the word:
      TYPEC_CURRENT_ILIM_MASK keeps the low bits, the DTS mask the top one. */
  lemma WordFields(c: TypecCurrent)
    requires c.ma < DtsBit
    ensures Word(c) < 0x1_0000_0000
    ensures Word(c) % DtsBit == c.ma && (Word(c) / DtsBit == 1) == c.dts
  {
  }

  /** usb_get_typec_current_limit: `cc` is the CC line the polarity selects
      and `alt` the other one. An Rp on `alt` marks a debug accessory, whose
      current is coded by the pair of levels; otherwise the selected level
      gives the current. `noRpDefCharge` is
      CONFIG_USBC_DISABLE_CHARGE_FROM_RP_DEF, which refuses 500 mA. */
  function CurrentLimit(polarity: bool, cc1: CcVolt, cc2: CcVolt, noRpDefCharge: bool): (r: TypecCurrent)
    ensures r.dts <==> IsRp(if polarity then cc1 else cc2)
    ensures r.ma in {0, 500, 1500, 3000}
    ensures noRpDefCharge ==> r.ma != 500
    ensures !IsRp(if polarity then cc2 else cc1) ==> r.ma == 0
  {
    var cc := if polarity then cc2 else cc1;
    var alt := if polarity then cc1 else cc2;
    var charge :=
      match cc
      case Rp3A0 =>
        if !IsRp(alt) || alt == RpDef then 3000
        else if alt == Rp1A5 then 500
        else 0
      case Rp1A5 => 1500
      case RpDef => 500
      case _ => 0;
    var charge := if noRpDefCharge && charge == 500 then 0 else charge;
    TypecCurrent(charge, IsRp(alt))
  }

  /** get_snk_polarity: CC2 is the active line when its level is the
      higher one. */
  function SnkPolarity(cc1: CcVolt, cc2: CcVolt): (r: bool)
    ensures IsRp(cc1) && IsRp(cc2) ==> (r <==> Advertised(cc2) > Advertised(cc1))
    ensures IsRp(cc2) && !IsRp(cc1) ==> r
    ensures IsRp(cc1) && !IsRp(cc2) ==> !r
  {
    Code(cc2) > Code(cc1)
  }

  /** The order get_snk_polarity relies on: Rp3.0 > Rp1.5 > RpDef > Open,
      the same order as the advertised currents. */
  lemma CodeOrder(a: CcVolt, b: CcVolt)
    requires IsRp(a) && IsRp(b)
    ensures Code(a) > Code(b) <==> Advertised(a) > Advertised(b)
    ensures Code(a) > Code(Open)
  {
  }

  /** A sink attached to a plain source (Rp on one line, the other open)
      picks the pulled-up line, whichever way the plug is turned, and is
      allowed the current that Rp advertises. */
  lemma {:induction false} RegularSource(rp: CcVolt, flipped: bool, noRpDefCharge: bool)
    requires IsRp(rp)
    ensures var cc1 := if flipped then Open else rp;
            var cc2 := if flipped then rp else Open;
            var r := CurrentLimit(SnkPolarity(cc1, cc2), cc1, cc2, noRpDefCharge);
            && SnkPolarity(cc1, cc2) == flipped
            && !r.dts
            && r.ma == (if noRpDefCharge && rp == RpDef then 0 else Advertised(rp))
  {
  }

  /** The three debug-accessory rows of the table at the head of
      usb_get_typec_current_limit (Appendix B of the Type-C specification):
      a source presenting Rp3.0/Rp1.5, Rp1.5/RpUSB or Rp3.0/RpUSB offers
      Default USB Power, 1.5 A or 3 A, whichever way the plug is turned,
      and is flagged as a debug accessory. */
  function DtsCurrent(hi: CcVolt, lo: CcVolt): nat
    requires (hi, lo) in {(Rp3A0, Rp1A5), (Rp1A5, RpDef), (Rp3A0, RpDef)}
  {
    if lo == Rp1A5 then 500 else Advertised(hi)
  }

  lemma {:induction false} DebugAccessory(hi: CcVolt, lo: CcVolt, flipped: bool, noRpDefCharge: bool)
    requires (hi, lo) in {(Rp3A0, Rp1A5), (Rp1A5, RpDef), (Rp3A0, RpDef)}
    ensures var cc1 := if flipped then lo else hi;
            var cc2 := if flipped then hi else lo;
            var r := CurrentLimit(SnkPolarity(cc1, cc2), cc1, cc2, noRpDefCharge);
            && r.dts
            && r.ma == (if noRpDefCharge && DtsCurrent(hi, lo) == 500 then 0 else DtsCurrent(hi, lo))
  {
  }

  /** Turning the plug over swaps the lines and the polarity together and
      leaves the decision unchanged. */
  lemma CurrentLimitSymmetric(polarity: bool, cc1: CcVolt, cc2: CcVolt, noRpDefCharge: bool)
    ensures CurrentLimit(polarity, cc1, cc2, noRpDefCharge)
            == CurrentLimit(!polarity, cc2, cc1, noRpDefCharge)
  {
  }

  // ---------------------------------------------------------------------
  // Role swaps

  datatype DataRole = Ufp | Dfp
  datatype PowerRole = Sink | Source

  function SwapData(r: DataRole): DataRole {
    if r == Ufp then Dfp else Ufp
  }

  function SwapPower(r: PowerRole): PowerRole {
    if r == Sink then Source else Sink
  }

  /** pd_check_data_swap: a data-role swap the partner asks for is accepted
      only while we are the UFP. */
  function DataSwapAllowed(role: DataRole): (r: bool)
    ensures r <==> SwapData(role) == Dfp
  {
    role == Ufp
  }

  /** pd_check_dr_role: whether we ask for a data-role swap, given whether
      the partner is dual-role data (PD_FLAGS_PARTNER_DR_DATA): only to
      become the DFP. */
  function RequestDataSwap(partnerDrData: bool, role: DataRole): (r: bool)
    ensures r <==> partnerDrData && SwapData(role) == Dfp
  {
    partnerDrData && role == Ufp
  }

  /** The data-role policies agree with each other and settle: a swap we
      request is one we would accept, and once it happened we request no
      other. */
  lemma DataSwapSettles(partnerDrData: bool, role: DataRole)
    ensures RequestDataSwap(partnerDrData, role) ==> DataSwapAllowed(role)
    ensures RequestDataSwap(partnerDrData, role) ==> !RequestDataSwap(partnerDrData, SwapData(role))
    ensures !RequestDataSwap(partnerDrData, SwapData(role)) || !RequestDataSwap(partnerDrData, role)
  {
  }

  /** pd_check_power_swap: a power-role swap is accepted while dual-role
      toggling is on (PD_DRP_TOGGLE_ON), and otherwise only when we are
      the source (we could be sinking instead). */
  function PowerSwapAllowed(drpToggleOn: bool, role: PowerRole): (r: bool)
    ensures r <==> drpToggleOn || SwapPower(role) == Sink
  {
    drpToggleOn || role == Source
  }

  /** pd_check_pr_role: with a dual-role-power partner
      (PD_FLAGS_PARTNER_DR_POWER) and toggling on, a sink asks to become the
      source when the partner has no external power
      (PD_FLAGS_PARTNER_EXTPOWER), and a source asks to become the sink
      when it has. */
  function RequestPowerSwap(partnerDrPower: bool, drpToggleOn: bool, partnerExtPower: bool,
                            role: PowerRole): (r: bool)
    ensures r <==> && partnerDrPower && drpToggleOn
                   && SwapPower(role) == (if partnerExtPower then Sink else Source)
  {
    && partnerDrPower && drpToggleOn
    && ((!partnerExtPower && role == Sink) || (partnerExtPower && role == Source))
  }

  /** After the swap we request, the role is the one the partner's power
      situation calls for (source for an unpowered partner, sink for a
      powered one), we request no further swap, and we would have accepted
      the same swap from the partner. */
  lemma PowerSwapSettles(partnerDrPower: bool, drpToggleOn: bool, partnerExtPower: bool, role: PowerRole)
    ensures RequestPowerSwap(partnerDrPower, drpToggleOn, partnerExtPower, role) ==>
              && SwapPower(role) == (if partnerExtPower then Sink else Source)
              && !RequestPowerSwap(partnerDrPower, drpToggleOn, partnerExtPower, SwapPower(role))
              && PowerSwapAllowed(drpToggleOn, role)
  {
  }

  // ---------------------------------------------------------------------
  // DisplayPort alternate mode

  /** PD_VDO_DPSTS_HPD_LVL and PD_VDO_DPSTS_HPD_IRQ: bits 7 and 8 of a
      DisplayPort status VDO (bit 4, the multi-function preference, is
      AltModeDfp.MfPreferred). */
  predicate HpdLevel(status: nat) {
    (status / 128) % 2 == 1
  }

  predicate HpdIrq(status: nat) {
    (status / 256) % 2 == 1
  }

  function B(b: bool): nat {
    if b then 1 else 0
  }

  /** VDO_DP_STATUS with only the IRQ, level and multi-function fields. */
  function StatusVdo(irq: bool, lvl: bool, mf: bool): nat {
    B(irq) * 256 + B(lvl) * 128 + B(mf) * 16
  }

  /** The status readers recover the fields a status VDO was built with. */
  lemma StatusFields(irq: bool, lvl: bool, mf: bool)
    ensures var s := StatusVdo(irq, lvl, mf);
            HpdIrq(s) == irq && HpdLevel(s) == lvl && MfPreferred(s) == mf
  {
  }

  /** dp_flags and dp_status of a port: DP_FLAGS_DP_ON (the mode is
      configured), DP_FLAGS_HPD_HI_PENDING (a high HPD level arrived before
      that) and the last status VDO. */
  datatype DpPort = DpPort(dpOn: bool, hpdHiPending: bool, status: nat)

  /** svdm_safe_dp_mode: flags and status cleared until the next
      configuration. */
  function SafeDpMode(p: DpPort): (r: DpPort)
    ensures !r.dpOn && !r.hpdHiPending && !HpdLevel(r.status) && !HpdIrq(r.status)
    ensures !MfPreferred(r.status)
  {
    DpPort(false, false, 0)
  }

  /** The mux setting svdm_dp_config chooses. */
  datatype Mux = MuxDock | MuxDp

  /** What svdm_dp_config sends: the number of VDOs (0: no answer) and,
      when it answers, the mux setting and the pin assignment it configures
      (VDO_DP_CFG with DPv1.3 signalling and a UFP_D connected). */
  datatype DpConfigResult = NoConfig | Config(mux: Mux, pinMode: nat)

  function VdoCount(r: DpConfigResult): nat {
    if r.NoConfig? then 0 else 2
  }

  /** svdm_dp_config: no configuration without a pin assignment; otherwise
      the dock (DP plus USB) mux when the assignment is a multi-function
      one and the partner prefers multi-function, and the DP-only mux
      otherwise. */
  function DpConfig(pe: Policy, supported: seq<SupportedMode>, p: DpPort): (r: DpConfigResult)
    requires Valid(pe, supported) && DpEntered(pe, supported)
    ensures r.NoConfig? <==> DpPinMode(pe, supported, p.status) == 0
    ensures r.Config? ==> r.pinMode == DpPinMode(pe, supported, p.status)
  {
    var pinMode := DpPinMode(pe, supported, p.status);
    if pinMode == 0 then NoConfig
    else
      var mf := PinOf(pinMode) in MultiFunctionPins && MfPreferred(p.status);
      Config(if mf then MuxDock else MuxDp, pinMode)
  }

  /** The dock mux is chosen exactly when the status asks for
      multi-function and a multi-function assignment (B, D or F) was
      picked; the pin assignment itself already obeys PinModeChoice. */
  lemma {:induction false} DpConfigMux(pe: Policy, supported: seq<SupportedMode>, p: DpPort)
    requires Valid(pe, supported) && DpEntered(pe, supported)
    ensures var r := DpConfig(pe, supported, p);
            r.Config? ==> (r.mux == MuxDock <==> MfPreferred(p.status) && PinOf(r.pinMode) in {1, 3, 5})
    ensures var r := DpConfig(pe, supported, p);
            r.Config? && !MfPreferred(p.status) ==> r.mux == MuxDp
  {
  }

  /** What the HPD GPIO is told by svdm_dp_attention. */
  datatype HpdAction = HpdNone | HpdIrqPulse | HpdDrive(level: bool)

  datatype Attention = Attention(port: DpPort, ack: bool, hpd: HpdAction)

  /** svdm_dp_attention: the status is stored. Before configuration a high
      level is remembered and the message acked. After it, with an HPD
      GPIO (CONFIG_USB_PD_DP_HPD_GPIO, reading `gpioLevel`), an IRQ on a
      high line is replayed as a pulse, an IRQ with the level low is NAKed,
      and anything else drives the level; without one the message is acked. */
  function DpAttention(p: DpPort, status: nat, hpdGpio: bool, gpioLevel: bool): (r: Attention)
    ensures r.port.status == status && r.port.dpOn == p.dpOn
    ensures !p.dpOn ==> r.ack && r.hpd == HpdNone && r.port.hpdHiPending == (p.hpdHiPending || HpdLevel(status))
    ensures p.dpOn ==> r.port.hpdHiPending == p.hpdHiPending
    ensures !r.ack <==> p.dpOn && hpdGpio && HpdIrq(status) && !gpioLevel && !HpdLevel(status)
    ensures p.dpOn && !hpdGpio ==> r.hpd == HpdNone
  {
    var lvl := HpdLevel(status);
    var irq := HpdIrq(status);
    var q := p.(status := status);
    if !p.dpOn then Attention(q.(hpdHiPending := p.hpdHiPending || lvl), true, HpdNone)
    else if !hpdGpio then Attention(q, true, HpdNone)
    else if irq && gpioLevel then Attention(q, true, HpdIrqPulse)
    else if irq && !lvl then Attention(q, false, HpdNone)
    else Attention(q, true, HpdDrive(lvl))
  }

  /** svdm_dp_post_config: the mode is now configured; a high level that
      arrived earlier is now driven onto HPD. */
  function DpPostConfig(p: DpPort): (r: (DpPort, bool))
    ensures r.0.dpOn && r.0.status == p.status && r.0.hpdHiPending == p.hpdHiPending
    ensures r.1 <==> p.hpdHiPending
  {
    (p.(dpOn := true), p.hpdHiPending)
  }

  /** The hand-over of a hot-plug that happens before configuration: from a
      safe port, a status whose level is high, acked on arrival, raises
      HPD at post-configuration, and one whose level is low does not. */
  lemma {:induction false} EarlyHotPlugDelivered(p: DpPort, status: nat, hpdGpio: bool, gpioLevel: bool)
    ensures var a := DpAttention(SafeDpMode(p), status, hpdGpio, gpioLevel);
            && a.ack && a.hpd == HpdNone
            && DpPostConfig(a.port).1 == HpdLevel(status)
            && DpPostConfig(a.port).0.status == status
  {
  }

  /** Once configured, an IRQ reported with the level low is refused unless
      the HPD line is already high (an IRQ needs a high line to pulse), and
      then nothing is driven and the pending flag is left as it was. */
  lemma {:induction false} IrqWithLowLevelNaked(p: DpPort, hpdGpio: bool, gpioLevel: bool, mf: bool)
    requires p.dpOn && hpdGpio
    ensures var a := DpAttention(p, StatusVdo(true, false, mf), hpdGpio, gpioLevel);
            && (a.ack <==> gpioLevel)
            && (!gpioLevel ==> a.hpd == HpdNone && a.port.hpdHiPending == p.hpdHiPending)
  {
    StatusFields(true, false, mf);
  }
}

=== FILE: wrappers.dfy ===
/** The optional value shared by the modules of this model: a C pointer
    that may be NULL, a search that may find nothing, or a decision the
    firmware may not take. */
module Wrappers {

  datatype Option<T> = None | Some(value: T)
}
